=== FILE: README.md ===
# Aura referral and bonus bookkeeping, modelled in Dafny

Aura is a Telegram "online psychologist" bot with a companion referral web portal. This project models the bookkeeping core of that system as pure Dafny functions over immutable data, and proves the promises the code makes about it. The model covers five parts.

- **Chat referrals.** `make_ref_code` / `parse_ref_code` encode a Telegram id as `id ^ REF_SALT` in lowercase base 36. The referral store (`record_referral`) is a forward-only upsert by rank. The bonus ledger (`grant_bonus`, `activate_referral_reward_for_payer`), the `/start ref<code>` decision, both `pay:` callbacks and the `/account` and `/referrals` read-side folds are modelled too. Each handler is one atomic step over the bot state.
- **The portal ledger.** This is `referral_app/crud.py` and its copy inside `Aura_Psycholog_bot.py`:
  - bonus-day awards that extend `subscription_end`;
  - registration with a referral code, the per-IP limit and the referrer's registration bonus;
  - referral-code issuing;
  - subscription processing, which pays the referrer's bonus at most once.

  Its four HTTP endpoints follow `main.py`. Each request commits on success and rolls back on any error.
- **The in-memory anti-abuse guards** `is_duplicate` and `rate_limited`. The clock is a parameter.
- **Three small per-user state machines.** These are the five-minute journal window, PHQ-9/GAD-7 progress, and conversation-history trimming to the newest `CONVERSATION_HISTORY_LIMIT` messages.
- **The admin bot's user store** (`admin_bot/database.py`).

Time is an integer, and days count as units of it. Tables are sequences in insertion order, and uniqueness constraints are invariants proved to be preserved. Python's arbitrary-precision `^` is modelled exactly (`xor.dfy`). `int(s, 36)` is modelled for ASCII input, including CPython's default limit of 4300 digits per literal (`pyint.dfy`).

Modules: `Common` (Option/Result, Min/Max), `PyXor`, `Numerals`, `PyInt`, `RefCodec`, `ChatLedger`, `ChatHandlers`, `Guards`, `Journal`, `Scales`, `Sorting`, `History`, `Portal`, `PortalApi`, `AdminStore`.

## Model

| member | source | states |
|---|---|---|
| PyXor.XorSelfInverse | Aura_Psycholog_bot.py:920-928 | Python's `^` on any two integers, negative ones included, is undone by a second XOR with the same salt |
| PyXor.Xor | Aura_Psycholog_bot.py:920-922 | the XOR of two integers is non-negative exactly when both have the same sign, so `tg_id ^ REF_SALT` is negative exactly when the signs differ |
| Numerals.ValueOfDigitsOf | Aura_Psycholog_bot.py:906-915 | reading back the base-36 digits that `_to_base36`'s divmod loop produces gives the number |
| Numerals.ToBase | Aura_Psycholog_bot.py:905-915 | `_to_base36` writes only `0-9a-z` digits below the base, never starts with `0` except for the single `"0"` of zero |
| PyInt.Strip | Aura_Psycholog_bot.py:926 | `strip()` returns a contiguous slice of the input that neither starts nor ends with whitespace, and every character cut off on either side is whitespace |
| PyInt.Lower | Aura_Psycholog_bot.py:917-918 | `lower()` keeps the length and maps each ASCII letter to lower case, character by character |
| PyInt.UnsignedMatchesGrammar | Aura_Psycholog_bot.py:917-918 | the digit scanner accepts exactly the unsigned literals `int(s, 36)` accepts (digits with single underscores between them) and returns their positional value |
| PyInt.Int36Spec | Aura_Psycholog_bot.py:917-918 | `int(s, 36)` succeeds exactly when the stripped text is an optionally signed well-formed literal of at most 4300 digits (sign and underscores not counted), and then returns the signed value; otherwise it raises (None) |
| RefCodec.ToBase36 | Aura_Psycholog_bot.py:906-915 | `_to_base36` raises exactly for a negative number and otherwise yields a canonical code |
| RefCodec.MakeRefCode | Aura_Psycholog_bot.py:920-922 | `make_ref_code` succeeds exactly when the id and the salt have the same sign, and then yields a canonical code |
| RefCodec.RoundTrip | Aura_Psycholog_bot.py:905-930 | for every id whose sign matches the salt's and whose code has at most 4300 digits, `parse_ref_code(make_ref_code(id)) == id` |
| RefCodec.RoundTripBeyondCap | Aura_Psycholog_bot.py:917-930 | a code longer than 4300 digits does not round-trip: `int(s, 36)` raises on it and `parse_ref_code` returns None |
| RefCodec.ParseRefCodeSpec | Aura_Psycholog_bot.py:924-930 | `parse_ref_code` is None exactly when the stripped, lowercased code is no base-36 literal or has more than 4300 digits, and otherwise is that literal's value XOR the salt; it never raises |
| RefCodec.CanonicalCodeIsLiteral | aura_single_plus.py:351-376 | a code `_to_base36` writes is already lower case and stripped and is a well-formed literal |
| ChatLedger.Rank | Aura_Psycholog_bot.py:942-944 | no status ranks above 3, and paid is the only status that ranks 3, so nothing outranks paid |
| ChatLedger.FindPair | Aura_Psycholog_bot.py:934-940 | the lookup by (referrer, referred) finds the pair's row or proves there is none |
| ChatLedger.RecordReferral | Aura_Psycholog_bot.py:932-950 | a new pair appends one row; an existing row keeps its code and pair, changes no other row, and takes the new status only when it ranks strictly higher, so on a tie or a lower rank nothing changes; pairs stay unique |
| ChatLedger.RecordReferralIdempotent | aura_single_plus.py:378-397 | repeating `record_referral` with the same arguments changes nothing |
| ChatLedger.PaidIsFinal | Aura_Psycholog_bot.py:941-945 | a paid row stays paid whatever `record_referral` is called with |
| ChatLedger.GrantBonus | Aura_Psycholog_bot.py:953-957 | `grant_bonus` appends exactly one row with the given fields and keeps every earlier row |
| ChatLedger.GrantBonusActiveDays | Aura_Psycholog_bot.py:953-957 | one grant raises the recipient's active days by its days when activated and leaves every other user's total unchanged |
| ChatLedger.ActiveDaysAppend | Aura_Psycholog_bot.py:1380-1384 | active days over a longer ledger are the old total plus the total of the new rows |
| ChatLedger.LastPending | Aura_Psycholog_bot.py:960-967 | it picks the payer's most recent clicked or joined row, with no such row after it, or proves there is none |
| ChatLedger.Activate | Aura_Psycholog_bot.py:960-981 | with no clicked/joined row for the payer it answers false and changes nothing; otherwise the most recent such row becomes paid and exactly one `ref_paid` bonus goes to that row's referrer |
| ChatLedger.ActivatePreservesPaidMatch | Aura_Psycholog_bot.py:968-975 | activation keeps every referrer's count of `ref_paid` bonuses equal to its count of paid rows |
| ChatLedger.RecordReferralPreservesPaidMatch | Aura_Psycholog_bot.py:932-950 | recording any non-paid status keeps that exactly-once balance |
| ChatLedger.PendingPaid | Aura_Psycholog_bot.py:1386-1396 | the "awaiting bonus" figure is #clicked-or-joined minus #paid when that is positive, and 0 otherwise |
| ChatLedger.ReferralStats | Aura_Psycholog_bot.py:1462-1478 | in `/referrals` the paid count is at most the "joined" count, because that counts joined or paid rows |
| ChatLedger.CountSubset | Aura_Psycholog_bot.py:1467-1474 | counting rows over a smaller set of statuses never gives more |
| ChatHandlers.FirstSpace | Aura_Psycholog_bot.py:987-989 | the first word of the text ends at the first whitespace character |
| ChatHandlers.StartDecision | Aura_Psycholog_bot.py:994-1007 | no `ref` prefix records nothing; an undecodable code or 0 records (0, user) invalid; the user's own id records self; anything else records joined for a new account and clicked otherwise, and only joined grants the join bonus; `cmd_start` at aura_single_plus.py:440-460 decides the same way |
| ChatHandlers.SelfReferral | Aura_Psycholog_bot.py:1000-1002 | following one's own link records self and grants nothing, new account or not (for any id whose code is within the 4300-digit limit) |
| ChatHandlers.InvalidCode | Aura_Psycholog_bot.py:997-999 | an undecodable code records referrer 0 as invalid and grants nothing |
| ChatHandlers.ApplyDecision | Aura_Psycholog_bot.py:991-1007 | the user becomes known; the referral store changes only through `record_referral`; the ledger gains the join bonus only when the decision grants it |
| ChatHandlers.Start | Aura_Psycholog_bot.py:984-1014 | `/start` registers the user and applies the decision taken on its own payload, with "created" meaning the user was not known before |
| ChatHandlers.StartPreservesPaidMatch | Aura_Psycholog_bot.py:984-1014 | `/start` never writes paid and never grants `ref_paid`, so the exactly-once balance is kept |
| ChatHandlers.StartPayloadOfLink | Aura_Psycholog_bot.py:986-989 | `/start ref<code>` carries `ref<code>` as its payload when the code has no whitespace |
| ChatHandlers.CanonicalLinkPayload | Aura_Psycholog_bot.py:1441-1445 | the deep link built from `make_ref_code` reads back as `ref<code>` |
| ChatHandlers.JoinThroughLink | Aura_Psycholog_bot.py:984-1014 | a new user arriving through someone else's link is recorded as joined and gets exactly one join bonus |
| ChatHandlers.InvitationScenario | Aura_Psycholog_bot.py:960-1014 | end to end: link, join, the first payment (one `ref_paid` for the inviter), then a second payment that changes nothing (for an inviter whose code is within the 4300-digit limit) |
| ChatHandlers.PayOnce | Aura_Psycholog_bot.py:960-981 | paying twice for one joined referral rewards once |
| ChatHandlers.Split | Aura_Psycholog_bot.py:1406 | `split(":")` gives at least one part and no part holds the separator |
| ChatHandlers.JoinSplit | Aura_Psycholog_bot.py:1406 | joining the parts of `split` back with the separator gives the input |
| ChatHandlers.Pay | Aura_Psycholog_bot.py:1404-1435 | an invoice is issued exactly when the data has three parts, a known plan and a period of month or annual; only then is the reward activated, at the plan's monthly or annual price; otherwise nothing changes |
| ChatHandlers.PayPlus | aura_single_plus.py:739-748 | every three-part `pay:` callback activates the reward with no check on plan or currency; any other split raises before a write |
| ChatHandlers.PayPlusAgainstPay | aura_single_plus.py:739-748 | the single-file bot's `pay` fails on exactly the data the main bot's cannot unpack; where the main bot invoices it activates identically, and where the main bot rejects the plan or period it still activates the reward |
| ChatHandlers.GroupThousandsRemove | Aura_Psycholog_bot.py:1311-1312 | grouping with `,` only inserts separators: removing them gives back the digits |
| ChatHandlers.GroupThousandsCommas | Aura_Psycholog_bot.py:1311-1312 | a separator sits at a position exactly when the distance from the right end is a multiple of four |
| ChatHandlers.FormatRubSpec | Aura_Psycholog_bot.py:1311-1312 | `format_rub` is the sign, then the decimal digits with a space at every fourth position from the right, then ` ₽`, and dropping those spaces gives the plain digits |
| Guards.IsDuplicate | Aura_Psycholog_bot.py:754-769 | empty text is never a duplicate and is not recorded; a key seen less than `ttl` ago is a duplicate and keeps its old time; otherwise the key is recorded at `now`; no other key changes |
| Guards.RepeatWithinTtl | aura_single_plus.py:216-234 | the same message again inside the window is caught and does not refresh the timestamp |
| Guards.RepeatAfterTtl | aura_single_plus.py:216-234 | after the window the message passes and is recorded at the new time |
| Guards.StrippedTextsCollide | Aura_Psycholog_bot.py:757 | texts that differ only in surrounding whitespace count as the same message |
| Guards.Minute | Aura_Psycholog_bot.py:775 | the minute bucket is the floor of `now / 60` |
| Guards.RateLimited | Aura_Psycholog_bot.py:774-789 | the count restarts when the minute changes and grows on every call, limited or not; the call is limited exactly when the count exceeds the maximum; other users are untouched |
| Guards.BurstWithinMinute | aura_single_plus.py:236-254 | in one fresh minute the k-th call is limited exactly when k exceeds the maximum, and the counter holds the number of calls |
| Guards.NewMinuteStartsAtOne | aura_single_plus.py:245-249 | the first call in a new minute counts one, whatever came before |
| Journal.Open | Aura_Psycholog_bot.py:1182-1184 | `/journal` sets the user's deadline to `now + 300` and touches nothing else |
| Journal.Capture | Aura_Psycholog_bot.py:1186-1197 | a message is saved exactly when a non-zero deadline exists and has not passed, and saving closes the window; otherwise nothing changes |
| Journal.OneEntryPerOpening | aura_single_plus.py:571-588 | a message that `journal_capture` receives within five minutes of opening is saved, and a second one is not |
| Journal.LateMessageIgnored | aura_single_plus.py:576-579 | a message after the deadline is not saved |
| Journal.EntriesBoundedByOpens | aura_single_plus.py:571-588 | over any run of `journal_start` and `journal_capture` calls, a user saves at most one entry per opening, plus one for a window already open |
| Scales.StoreAndNext | Aura_Psycholog_bot.py:1258-1282 | each answer is appended; before the last question nothing is stored; at the last one a result with the sum of the answers is stored and the list is emptied; other progress is untouched |
| Scales.PartialRun | aura_single_plus.py:647-673 | part-way through a scale started afresh, the list holds exactly the answers given and nothing is stored |
| Scales.FullRun | aura_single_plus.py:647-673 | a full run stores exactly one result whose score is the sum of the answers, and leaves the list empty |
| Sorting.SortDesc | Aura_Psycholog_bot.py:1117 | ordering by a stamp descending is a permutation of its input |
| Sorting.SortedUnique | Aura_Psycholog_bot.py:1117 | with distinct (created_at, id) stamps there is only one newest-first order, so the model's sort is the database's |
| Sorting.SortInjective | Aura_Psycholog_bot.py:1117 | reordering keeps distinct ids distinct |
| History.HistorySent | Aura_Psycholog_bot.py:1114-1120 | the history sent with a request holds `min(n, limit)` of the user's own `n` messages, each row at most once (a sub-multiset of the user's rows), in oldest-first order |
| History.HistorySentNewest | Aura_Psycholog_bot.py:1114-1120 | a message of the user left out of the history sorts no later than every message sent, so the history is the newest ones |
| History.TrimKeepsNewest | Aura_Psycholog_bot.py:1136-1145 | after trimming, the user's rows are exactly the newest `limit` of them by (created_at, id), as a multiset, and there are `min(n, limit)` of them |
| History.TrimDeletesOldest | Aura_Psycholog_bot.py:1136-1145 | every message kept is strictly newer than every message deleted |
| History.TrimOthersUntouched | Aura_Psycholog_bot.py:1136-1145 | trimming leaves every other user's messages as they were |
| History.TrimValid | Aura_Psycholog_bot.py:1144-1145 | trimming only deletes, so ids stay unique and below the next id |
| History.TrimKeepsExchange | Aura_Psycholog_bot.py:1130-1145 | with a clock that does not run backwards and a limit of at least two, the question and answer just stored survive the trim |
| History.Reply | Aura_Psycholog_bot.py:1130-1146 | after a reply the store is still valid, the user has `min(n + 2, limit)` messages, other users are untouched, no message appears that was not there or just stored, and under the conditions above the new exchange is kept |
| Portal.UserIndex | referral_app/crud.py:38-41 | the lookup by id finds the user's row or proves there is none |
| Portal.EmailIndex | referral_app/crud.py:44-47 | the lookup by email finds the user's row or proves there is none |
| Portal.CodeIndex | referral_app/crud.py:104-106 | the lookup by referral code finds the owner or proves there is none |
| Portal.CountFromIp | referral_app/crud.py:112-117 | the count of the referrer's referrals from an IP is zero exactly when there is none |
| Portal.Extend | referral_app/crud.py:65-70 | the new end is `days` after the later of `now` and the current end, so with positive days it is after `now` |
| Portal.AwardBonusDays | referral_app/crud.py:50-79 | non-positive days change nothing; otherwise the balance grows by exactly the days, the end is extended, exactly one event is appended and no other user changes |
| Portal.AwardKeepsBalances | referral_app/crud.py:62-79 | an award keeps every balance equal to the sum of that user's event days |
| Portal.EmptyValid | referral_app/models.py:22-85 | the empty database satisfies the invariants |
| Portal.Register | referral_app/crud.py:82-142 | registration succeeds exactly when the email and the generated id are new and, with a code, the code has an owner, that owner is under the per-IP limit and the generated referral id is new; an existing email is rejected first; then, with a fresh id, an unknown code or an IP at the limit is rejected; with no code the user alone is added and 0 days are awarded; with a code the user records its referrer, one referral with the registration days is added, and the referrer is awarded them as a registration event: its balance and subscription end grow by those days, and no other existing user changes |
| Portal.RegisterValid | referral_app/models.py:28-64 | a successful registration keeps email, code, id and referee uniqueness, the foreign keys, the balances and the subscription counts |
| Portal.AddUserValid | referral_app/models.py:27-34 | adding a user with a fresh id and email, no code and a zero balance keeps the invariants |
| Portal.AddReferralValid | referral_app/models.py:57-64 | adding an unrewarded referral with a fresh id and referee between two existing users keeps the invariants |
| Portal.AwardRegistrationValid | referral_app/crud.py:134-140 | a registration award keeps the invariants |
| Portal.EnsureCode | referral_app/crud.py:145-150 | a non-empty code is returned unchanged and nothing is written; otherwise the drawn code is stored on that user and returned, and no other row changes |
| Portal.EnsureCodeIdempotent | referral_app/crud.py:145-150 | asking twice gives the same code, and the second call writes nothing whatever it would have drawn |
| Portal.EnsureCodeValid | referral_app/crud.py:28-35 | storing a code no user holds keeps codes unique and every other invariant |
| Portal.ExtendSubscriber | referral_app/crud.py:161-165 | only the subscriber's end changes, to the extended end |
| Portal.Owed | referral_app/crud.py:170-174 | a bonus is owed exactly when the subscriber was referred, their referral exists and is not yet awarded |
| Portal.ProcessSubscription | referral_app/crud.py:153-195 | it fails exactly when a bonus is owed and the referrer is missing; the referrer is rewarded exactly when a bonus is owed, which marks that referral alone as awarded with the subscription days and appends one event for them; then the subscriber's end is extended by the plan days, the referrer's balance and end grow by the subscription days (both apply when they are the same user), the returned end is the subscriber's new end, and no other user changes; with nothing owed only the subscriber's end moves, by the plan days |
| Portal.SubscriptionValid | referral_app/crud.py:153-195 | on a consistent database subscription processing succeeds and keeps the invariants |
| Portal.SubscriptionOnlyExtends | referral_app/crud.py:161-165 | the subscriber's end moves by the plan days from the later of `now` and the old end; their balance and event days do not change |
| Portal.SubscriptionBonusOnce | referral_app/crud.py:170-195 | a second subscription by the same user rewards no one and writes no event or referral change |
| Portal.NothingOwedAfter | referral_app/crud.py:174-183 | after processing, no bonus is owed for that subscriber any more |
| Portal.RefereeUnique | referral_app/models.py:59 | a user is the referee of at most one referral |
| PortalApi.GenerateLink | referral_app/main.py:54-67 | an unknown user gets 404 with no write; otherwise the user's code is returned: an existing code with no write at all, else the drawn code, stored on that user alone, with referrals, events and every other user unchanged |
| PortalApi.GenerateLinkStable | referral_app/main.py:65-67 | asking for the link again returns the same code and writes nothing |
| PortalApi.RegisterEndpoint | referral_app/main.py:70-86 | an address that fails `EmailStr` is 422; otherwise success is 201 with the new id, the awarded days and the referrer, a `ValueError` is 400 and a key collision is 500; a non-201 answer writes nothing |
| PortalApi.RejectedRegistrationWritesNothing | referral_app/main.py:40-51 | a malformed address, an existing email, an unknown code or the per-IP limit leaves no user, referral or event behind, and is answered 400 or 422 unless the generated id collides |
| PortalApi.Subscribe | referral_app/main.py:89-108 | non-positive plan days is 422, an unknown user is 404, a missing referrer is 500, each with no write; otherwise 200 with the subscription's outcome |
| PortalApi.SubscribeSucceeds | referral_app/schemas.py:33-35 | on a consistent database a valid request for a known user answers 200 and keeps the invariants |
| PortalApi.MyReferrals | Aura_Psycholog_bot.py:679-718 | an unknown user is 404; otherwise one entry per referral whose referee exists, with totals summed over the entries |
| PortalApi.InfosComplete | referral_app/main.py:119-139 | when every referee exists, the entries and their sums match the user's referrals one for one |
| PortalApi.MyReferralsTotals | referral_app/main.py:111-146 | on a consistent database the list has one entry per referral of the user, and the totals equal the sums of registration and subscription days over them |
| AdminStore.Find | admin_bot/database.py:104-110 | the lookup by id finds the user's row or proves there is none |
| AdminStore.FindUnique | admin_bot/database.py:36-40 | with `user_id` as primary key, the row found is the only one with that id |
| AdminStore.Upsert | admin_bot/database.py:58-84 | an absent id is inserted unbanned and joining `now`; a present one gets only its names and `last_seen` overwritten; logs untouched |
| AdminStore.UpsertKeepsBans | admin_bot/database.py:58-84 | upserting never changes anyone's ban, and a newcomer is not banned |
| AdminStore.UpsertValid | admin_bot/database.py:36-84 | upsert keeps user ids unique, flags 0 or 1 and the log-id invariant |
| AdminStore.MarkBan | admin_bot/database.py:86-102 | an unknown id gives false and no change; otherwise only that user's flag becomes 1 or 0 |
| AdminStore.MarkBanEffect | admin_bot/database.py:86-110 | `mark_ban` keeps the store valid, and afterwards `is_banned` answers what was set for that id and what it answered before for every other id |
| AdminStore.IsBanned | admin_bot/database.py:104-110 | true only for an existing user whose flag is set, so false for an unknown id; with `user_id` unique, true exactly for such a user |
| AdminStore.ListUsers | admin_bot/database.py:112-123 | at most `limit` users (all of them for a negative limit), taken from the table, newest `joined_at` first |
| AdminStore.ListUsersNewest | admin_bot/database.py:112-123 | a user left off the list joined no later than anyone on it |
| AdminStore.GetStats | admin_bot/database.py:125-147 | the total is the row count, each flag count is at most the total, and the active count is the size of `get_audience` |
| AdminStore.StatsAddUp | admin_bot/database.py:125-147 | with every flag 0 or 1, active plus banned equals the total, so banned is the number of users outside the audience |
| AdminStore.BanMovesStats | admin_bot/database.py:86-140 | banning an unbanned user raises the banned count by one and lowers the active count by one, with the total unchanged |
| AdminStore.Audience | admin_bot/database.py:142-147 | the audience is exactly the ids of users with flag 0, one per such user |
| AdminStore.AudienceIsUnbanned | admin_bot/database.py:104-147 | an id is in the audience exactly when the user exists and `is_banned` says no |
| AdminStore.LogAction | admin_bot/database.py:149-168 | exactly one log row is appended with the given fields and a fresh id; no user changes |
| AdminStore.LogActionValid | admin_bot/database.py:46-53 | `log_action` keeps the AUTOINCREMENT invariant: log ids grow in table order and stay below the next id, and the new row's id is above every earlier one |
| AdminStore.EmptyValid | admin_bot/database.py:36-53 | the freshly created tables satisfy the store's invariants |

## Left out

- External services are not modelled: the Redis branches of `is_duplicate` and `rate_limited`, the DeepSeek HTTP call (the reply is a parameter), Telegram transport, keyboards and texts, and `log_event`. They are I/O with no effect on the bookkeeping.
- `detect_risk`, `_redact_pii` and `text_matches` are left out. They rely on Python's Unicode regex engine and `casefold`.
- Character handling is ASCII only. `lower()` uses the ASCII case mapping and `int(s, 36)` reads ASCII digits and letters only. Python also accepts other Unicode digits and case mappings.
- The digit limit of `int(s, 36)` is taken at CPython's default of 4300 (`sys.get_int_max_str_digits()`, CPython 3.11 and later). A limit changed through `PYTHONINTMAXSTRDIGITS` or `sys.set_int_max_str_digits` is not modelled, nor an interpreter older than 3.11, which has no limit.
- ChatLedger.Status: only the five statuses the handlers pass are modelled. `record_referral` would store any other string and rank it 0.
- AdminStore.Audience: the order of the ids is not stated. SQLite returns them by ascending `user_id`, the table's rowid.
- `hash(text.strip())` is taken to be injective. The guard's key is the pair (user, stripped text), so a hash collision is not modelled.
- SHA-256 password hashing is not modelled. The hash is a parameter.
- `uuid4` ids and `created_at` stamps are parameters. A generated id that collides is modelled as the primary-key error (`IdTaken`) that rolls the request back.
- Bonus-event ids and the users' `created_at` stamps are not stored. Referrals keep `registered_at` and bonus events keep `created_at`, both set from the `now` parameter.
- The referral link (`urljoin` and the bot username) is not modelled; the model keeps only the code.
- Portal.EnsureCode: the drawing loop of `generate_referral_code` is modelled by its exit condition. The drawn code is a parameter that must be ten lower-case hex characters held by no user.
- Concurrency is out of scope. Each handler is one atomic step, although `activate_referral_reward_for_payer` commits the status flip and the grant in separate sessions. There is no unique constraint on the chat-side (referrer, referred) pair, so the model assumes pairs are unique rather than proving it under interleavings.
- Time is an integer, in seconds for the chat side and in days for the portal. The journal deadline `time.time() + 300` is a float in the source.
- History.Reply: the limit is a `nat`. A negative `CONVERSATION_HISTORY_LIMIT` has SQLite's "no limit" meaning and is not covered.
- History.TrimKeepsExchange: the exchange is shown to survive only when no stored message is stamped later than `now` and the limit is at least two. Otherwise the source may delete the new exchange itself, and the model then states only the count.
- AdminStore.ListUsers: rows with equal `joined_at` are returned in a fixed order (the stable sort of the table). SQLite leaves their order unspecified.
- The portal exists in two copies. The model follows the copy inside `Aura_Psycholog_bot.py`, which is the one that is served. The two differ in two ways:
  - Bonus days: `referral_app/config.py` fixes them at `timedelta(days=3)` and `timedelta(days=7)`, while the copy inside `Aura_Psycholog_bot.py` reads them from the environment. The model takes them as the `Settings` parameter, with the defaults 3 and 7 as `Portal.Defaults`.
  - `/my-referrals` skips a referral whose referee is missing, where `referral_app/main.py` would fail on it. `PortalApi.InfosComplete` shows the two agree whenever every referee exists, as the foreign key promises.
- Meditation listing, `file_id` caching, tariff and FAQ texts, persona selection, and the `/invite` message text are left out. They are UI with no bookkeeping.
- PHQ/GAD callback parsing (`int(idx)`, `int(score)`) is left out. The index and score arrive as integers.
- Scales.StoreAndNext: the user is assumed to be registered already. In the source, `scalar_one()` raises on the last answer for a user without a `users` row; nothing is then stored and the answer list is not cleared. The model always stores and clears.
- PortalApi.RegisterEndpoint: the `EmailStr` check (the email-validator library) is not part of this model. Whether the address passes it is the parameter `emailValid`, and `email` is the address as `EmailStr` returns it, already normalized. Uniqueness is therefore checked on the normalized address.
- ChatLedger.LastPending: "most recent" means the last in insertion order. The source orders by `created_at`, a server timestamp that can tie within one second, and then the database picks among the tied rows.
- Message dispatch is not modelled. aiogram includes the routers in a fixed order (start, persona, session, checkin, journal, scales, resources, account, invite, referrals, meditation; `Aura_Psycholog_bot.py:1598-1609`) and gives each message to the first handler whose filter matches. The journal and scale lemmas are about the handlers called directly. Read against the source as written (not executed), that order has three effects:
  - `talk` excludes only the menu labels, so it takes every ordinary note and `/journal` before the journal router sees them.
  - `journal_capture`'s bare `F.text` filter takes the labels of every later router, such as `/account` and "💳 Подписка".
  - As a result, an entry is saved only when the journal window is opened with the "📝 Дневник" label and the note itself is one of those later labels.
- Journal.Capture: the user is assumed to be registered already. In the source, `scalar_one()` raises for a user without a `users` row, and the message is then dropped.

=== FILE: admin_store.dfy ===
/** The admin bot's SQLite store: a `users` table keyed by Telegram id with
    a 0/1 ban flag, and an append-only `admin_logs` table. Each statement is
    one transition; `CURRENT_TIMESTAMP` is the parameter `now`. */
module AdminStore {

  import opened Common
  import opened Sorting

  /** A `users` row. */
  datatype AdminUser = AdminUser(
    id: int,
    username: Option<string>,
    firstName: Option<string>,
    lastName: Option<string>,
    isBanned: int,
    joinedAt: int,
    lastSeen: int)

  /** An `admin_logs` row. */
  datatype LogRow = LogRow(id: int, admin: int, action: string, target: Option<int>, payload: Option<string>, createdAt: int)

  /** Both tables, users in insertion order, and the next autoincrement id. */
  datatype Db = Db(users: seq<AdminUser>, logs: seq<LogRow>, nextLogId: int)

  function UserId(u: AdminUser): int
  {
    u.id
  }

  /** `user_id` is the primary key and `is_banned` is only ever written as
      0 (the column default) or 1 (`int(banned)`); `admin_logs.id` is an
      AUTOINCREMENT key, so ids grow in insertion order and stay below the
      next one to be handed out. */
  predicate Valid(db: Db)
  {
    && Injective(db.users, UserId)
    && (forall i :: 0 <= i < |db.users| ==> db.users[i].isBanned in {0, 1})
    && LogIdsIncrease(db.logs, db.nextLogId)
  }

  predicate LogIdsIncrease(logs: seq<LogRow>, next: int)
  {
    && (forall i, j :: 0 <= i < j < |logs| ==> logs[i].id < logs[j].id)
    && (forall i :: 0 <= i < |logs| ==> logs[i].id < next)
  }

  /** The freshly created database: no users, no logs, ids start at 1. */
  lemma EmptyValid()
    ensures Valid(Db([], [], 1))
  {
  }

  /** `SELECT ... WHERE user_id = :user_id`. */
  function Find(users: seq<AdminUser>, id: int): (r: Option<nat>)
    ensures r.Some? ==> r.value < |users| && users[r.value].id == id
    ensures r.None? <==> forall k :: 0 <= k < |users| ==> users[k].id != id
  {
    if |users| == 0 then None
    else if users[|users| - 1].id == id then Some(|users| - 1)
    else Find(users[..|users| - 1], id)
  }

  /** In a table with a primary key, the row found is the only one with that
      id. */
  lemma FindUnique(users: seq<AdminUser>, id: int, k: nat)
    requires Injective(users, UserId) && k < |users| && users[k].id == id
    ensures Find(users, id) == Some(k)
  {
    var f := Find(users, id).value;
    assert UserId(users[f]) == UserId(users[k]);
  }

  // ---------------------------------------------------------------------
  // Writes
  // ---------------------------------------------------------------------

  /** `upsert_user`: insert an unbanned user who joins `now`, or, on a
      conflicting id, overwrite the three names and `last_seen` only. */
  function Upsert(db: Db, id: int, username: Option<string>, firstName: Option<string>, lastName: Option<string>, now: int): (r: Db)
    ensures r.logs == db.logs && r.nextLogId == db.nextLogId
    ensures Find(db.users, id).None? ==> r.users == db.users + [AdminUser(id, username, firstName, lastName, 0, now, now)]
    ensures Find(db.users, id).Some? ==>
      var k := Find(db.users, id).value;
      && |r.users| == |db.users|
      && r.users[k] == db.users[k].(username := username, firstName := firstName, lastName := lastName, lastSeen := now)
      && (forall j :: 0 <= j < |db.users| && j != k ==> r.users[j] == db.users[j])
  {
    match Find(db.users, id)
    case None => db.(users := db.users + [AdminUser(id, username, firstName, lastName, 0, now, now)])
    case Some(k) =>
      var u := db.users[k];
      db.(users := db.users[k := u.(username := username, firstName := firstName, lastName := lastName, lastSeen := now)])
  }

  /** `mark_ban`: false and no change for an unknown id; otherwise the flag
      is written as 1 or 0 and the answer is true. */
  function MarkBan(db: Db, id: int, banned: bool): (r: (bool, Db))
    ensures r.0 <==> Find(db.users, id).Some?
    ensures !r.0 ==> r.1 == db
    ensures r.0 ==> |r.1.users| == |db.users| && r.1.logs == db.logs && r.1.nextLogId == db.nextLogId
    ensures r.0 ==> forall j :: 0 <= j < |db.users| ==>
      r.1.users[j] == if j == Find(db.users, id).value then db.users[j].(isBanned := if banned then 1 else 0) else db.users[j]
  {
    match Find(db.users, id)
    case None => (false, db)
    case Some(k) => (true, db.(users := db.users[k := db.users[k].(isBanned := if banned then 1 else 0)]))
  }

  /** `log_action`: one more `admin_logs` row, users untouched. */
  function LogAction(db: Db, admin: int, action: string, target: Option<int>, payload: Option<string>, now: int): (r: Db)
    ensures r.users == db.users
    ensures |r.logs| == |db.logs| + 1 && r.logs[..|db.logs|] == db.logs
    ensures r.logs[|db.logs|].admin == admin && r.logs[|db.logs|].action == action
    ensures r.logs[|db.logs|].target == target && r.logs[|db.logs|].payload == payload
    ensures r.logs[|db.logs|].id == db.nextLogId < r.nextLogId
  {
    Db(db.users, db.logs + [LogRow(db.nextLogId, admin, action, target, payload, now)], db.nextLogId + 1)
  }

  // ---------------------------------------------------------------------
  // Reads
  // ---------------------------------------------------------------------

  /** `is_banned`: `bool(row["is_banned"])`, or false with no row. */
  function IsBanned(db: Db, id: int): (b: bool)
    ensures b ==> exists k :: 0 <= k < |db.users| && db.users[k].id == id && db.users[k].isBanned != 0
    ensures Injective(db.users, UserId) ==>
      (b <==> exists k :: 0 <= k < |db.users| && db.users[k].id == id && db.users[k].isBanned != 0)
  {
    match Find(db.users, id)
    case None => false
    case Some(k) => db.users[k].isBanned != 0
  }

  function JoinStamp(u: AdminUser): Stamp
  {
    Stamp(u.joinedAt, 0)
  }

  /** `list_users`: `ORDER BY joined_at DESC LIMIT :limit`; SQLite reads a
      negative limit as no limit. Rows that joined at the same moment keep
      table order (SQLite leaves their order open). */
  function ListUsers(db: Db, limit: int): (r: seq<AdminUser>)
    ensures limit < 0 ==> |r| == |db.users| && multiset(r) == multiset(db.users)
    ensures limit >= 0 ==> |r| == Min(|db.users|, limit) && multiset(r) <= multiset(db.users)
    ensures forall i, j :: 0 <= i < j < |r| ==> r[i].joinedAt >= r[j].joinedAt
  {
    var sorted := SortDesc(db.users, JoinStamp);
    ListedAreSorted(sorted);
    if limit < 0 || limit >= |sorted| then sorted
    else
      assert sorted == sorted[..limit] + sorted[limit..];
      sorted[..limit]
  }

  lemma ListedAreSorted(s: seq<AdminUser>)
    requires SortedDesc(s, JoinStamp)
    ensures forall k :: 0 <= k <= |s| ==> forall i, j :: 0 <= i < j < k ==> s[..k][i].joinedAt >= s[..k][j].joinedAt
  {
    forall k, i, j | 0 <= k <= |s| && 0 <= i < j < k ensures s[..k][i].joinedAt >= s[..k][j].joinedAt {
      assert AtLeast(JoinStamp(s[i]), JoinStamp(s[j]));
    }
  }

  /** A user left off the list joined no later than anyone on it. */
  lemma ListUsersNewest(db: Db, limit: int, u: AdminUser)
    requires u in db.users && u !in ListUsers(db, limit)
    ensures forall i :: 0 <= i < |ListUsers(db, limit)| ==> ListUsers(db, limit)[i].joinedAt >= u.joinedAt
  {
    var sorted := SortDesc(db.users, JoinStamp);
    var r := ListUsers(db, limit);
    assert u in multiset(sorted);
    var j :| 0 <= j < |sorted| && sorted[j] == u;
    assert r == sorted[..|r|];
    forall i | 0 <= i < |r| ensures r[i].joinedAt >= u.joinedAt {
      assert AtLeast(JoinStamp(sorted[i]), JoinStamp(sorted[j])) by {
        assert j >= |r|;
      }
    }
  }

  /** `get_stats`: the row count and the counts of each flag value. */
  datatype Stats = Stats(total: nat, active: nat, banned: nat)

  function CountFlag(users: seq<AdminUser>, flag: int): (n: nat)
    ensures n <= |users|
  {
    if |users| == 0 then 0
    else CountFlag(users[..|users| - 1], flag) + (if users[|users| - 1].isBanned == flag then 1 else 0)
  }

  function GetStats(db: Db): (s: Stats)
    ensures s.total == |db.users|
    ensures s.active <= s.total && s.banned <= s.total
    ensures s.active == |Audience(db)|
  {
    Stats(|db.users|, CountFlag(db.users, 0), CountFlag(db.users, 1))
  }

  /** `get_audience`: the ids of the unbanned users. The order is not part
      of the contract; SQLite scans `user_id`, the rowid, in ascending order. */
  function Audience(db: Db): (ids: seq<int>)
    ensures forall id :: id in ids <==> exists k :: 0 <= k < |db.users| && db.users[k].id == id && db.users[k].isBanned == 0
    ensures |ids| == CountFlag(db.users, 0)
  {
    Unbanned(db.users)
  }

  function Unbanned(users: seq<AdminUser>): (ids: seq<int>)
    ensures forall id :: id in ids <==> exists k :: 0 <= k < |users| && users[k].id == id && users[k].isBanned == 0
    ensures |ids| == CountFlag(users, 0)
  {
    if |users| == 0 then []
    else
      var last := users[|users| - 1];
      Unbanned(users[..|users| - 1]) + (if last.isBanned == 0 then [last.id] else [])
  }

  // ---------------------------------------------------------------------
  // Properties
  // ---------------------------------------------------------------------

  /** With every flag 0 or 1, active and banned users add up to all users. */
  lemma {:induction false} StatsAddUp(db: Db)
    requires Valid(db)
    ensures GetStats(db).active + GetStats(db).banned == GetStats(db).total
    ensures GetStats(db).banned == |db.users| - |Audience(db)|
  {
    FlagsPartition(db.users);
  }

  lemma {:induction false} FlagsPartition(users: seq<AdminUser>)
    requires forall i :: 0 <= i < |users| ==> users[i].isBanned in {0, 1}
    ensures CountFlag(users, 0) + CountFlag(users, 1) == |users|
    decreases |users|
  {
    if |users| > 0 {
      FlagsPartition(users[..|users| - 1]);
    }
  }

  /** The audience is exactly the users `is_banned` says are not banned. */
  lemma AudienceIsUnbanned(db: Db, id: int)
    requires Valid(db)
    ensures id in Audience(db) <==> Find(db.users, id).Some? && !IsBanned(db, id)
  {
    if id in Audience(db) {
      var k :| 0 <= k < |db.users| && db.users[k].id == id && db.users[k].isBanned == 0;
      FindUnique(db.users, id, k);
    }
  }

  /** Upserting never changes anyone's ban, and a newcomer is not banned. */
  lemma UpsertKeepsBans(db: Db, id: int, username: Option<string>, firstName: Option<string>, lastName: Option<string>, now: int, other: int)
    requires Valid(db)
    ensures IsBanned(Upsert(db, id, username, firstName, lastName, now), other) == IsBanned(db, other)
  {
    var r := Upsert(db, id, username, firstName, lastName, now);
    UpsertValid(db, id, username, firstName, lastName, now);
    match Find(db.users, other)
    case None =>
      if k :| 0 <= k < |r.users| && r.users[k].id == other {
        FindUnique(r.users, other, k);
        assert k == |db.users|;
      }
    case Some(k) =>
      FindUnique(r.users, other, k);
  }

  lemma UpsertValid(db: Db, id: int, username: Option<string>, firstName: Option<string>, lastName: Option<string>, now: int)
    requires Valid(db)
    ensures Valid(Upsert(db, id, username, firstName, lastName, now))
  {
    var r := Upsert(db, id, username, firstName, lastName, now);
    forall i, j | 0 <= i < j < |r.users| ensures UserId(r.users[i]) != UserId(r.users[j]) {
      if j < |db.users| {
        assert UserId(db.users[i]) != UserId(db.users[j]);
      }
    }
  }

  /** After `mark_ban` succeeds `is_banned` answers what was asked; every
      other user keeps their flag, and the store stays valid. */
  lemma MarkBanEffect(db: Db, id: int, banned: bool, other: int)
    requires Valid(db) && MarkBan(db, id, banned).0
    ensures Valid(MarkBan(db, id, banned).1)
    ensures IsBanned(MarkBan(db, id, banned).1, other) == if other == id then banned else IsBanned(db, other)
  {
    var r := MarkBan(db, id, banned).1;
    var k := Find(db.users, id).value;
    assert forall j :: 0 <= j < |r.users| ==> UserId(r.users[j]) == UserId(db.users[j]);
    assert Valid(r) by {
      forall i, j | 0 <= i < j < |r.users| ensures UserId(r.users[i]) != UserId(r.users[j]) {
        assert UserId(db.users[i]) != UserId(db.users[j]);
      }
    }
    match Find(db.users, other)
    case None =>
    case Some(m) =>
      FindUnique(r.users, other, m);
      FindUnique(db.users, id, k);
  }

  /** Changing one row's flag moves that row between the flag counts. */
  lemma {:induction false} CountFlagUpdate(users: seq<AdminUser>, k: nat, u: AdminUser, flag: int)
    requires k < |users|
    ensures CountFlag(users[k := u], flag)
      == CountFlag(users, flag) - (if users[k].isBanned == flag then 1 else 0) + (if u.isBanned == flag then 1 else 0)
    decreases |users|
  {
    var n := |users|;
    var r := users[k := u];
    assert r[..n - 1] == if k == n - 1 then users[..n - 1] else users[..n - 1][k := u];
    if k < n - 1 {
      CountFlagUpdate(users[..n - 1], k, u, flag);
    }
  }

  /** Banning an unbanned user moves one user from the active count to the
      banned count of `get_stats`; the total stays. */
  lemma BanMovesStats(db: Db, id: int)
    requires Valid(db) && Find(db.users, id).Some? && !IsBanned(db, id)
    ensures var before := GetStats(db);
      var after := GetStats(MarkBan(db, id, true).1);
      && after.total == before.total
      && after.banned == before.banned + 1
      && after.active + 1 == before.active
  {
    var k := Find(db.users, id).value;
    var r := MarkBan(db, id, true).1;
    assert r.users == db.users[k := db.users[k].(isBanned := 1)];
    assert db.users[k].isBanned == 0;
    CountFlagUpdate(db.users, k, db.users[k].(isBanned := 1), 0);
    CountFlagUpdate(db.users, k, db.users[k].(isBanned := 1), 1);
  }

  /** `log_action` keeps the store valid: the new row's id is above every
      earlier log id. */
  lemma LogActionValid(db: Db, admin: int, action: string, target: Option<int>, payload: Option<string>, now: int)
    requires Valid(db)
    ensures Valid(LogAction(db, admin, action, target, payload, now))
    ensures forall i :: 0 <= i < |db.logs| ==> db.logs[i].id < LogAction(db, admin, action, target, payload, now).logs[|db.logs|].id
  {
    var r := LogAction(db, admin, action, target, payload, now);
    assert forall i :: 0 <= i < |db.logs| ==> r.logs[i] == db.logs[i];
  }
}

=== FILE: chat_handlers.dfy ===
/** The chat bot's referral entry points: the `/start ref<code>` deep link,
    the demo `pay:` callbacks of both bot variants, and the price text they
    show. Each handler is one atomic step over the bot's state. */
module ChatHandlers {

  import opened Common
  import opened Numerals
  import opened PyInt
  import RefCodec
  import opened ChatLedger

  /** `REF_SALT`, `REF_BONUS_DAYS_JOINED` and `REF_BONUS_DAYS_PAID`. */
  datatype Config = Config(salt: int, joinedDays: int, paidDays: int)

  /** The values used when the environment sets none of them. */
  const DefaultConfig: Config := Config(RefCodec.DefaultSalt, 7, 7)

  /** The known Telegram users and the referral ledger. */
  datatype Bot = Bot(users: set<int>, ledger: Ledger)

  // ---------------------------------------------------------------------
  // /start ref<code>
  // ---------------------------------------------------------------------

  /** The position of the first whitespace character, or the length. */
  function FirstSpace(t: string): (k: nat)
    ensures k <= |t|
    ensures forall i :: 0 <= i < k ==> !IsSpace(t[i])
    ensures k < |t| ==> IsSpace(t[k])
  {
    if |t| == 0 || IsSpace(t[0]) then 0 else 1 + FirstSpace(t[1..])
  }

  /** The payload of `/start`: `text.split(maxsplit=1)[1].strip()`, or the
      empty string when the text is a single word. */
  function StartPayload(text: string): string
  {
    var t := TrimLeft(text);
    Strip(t[FirstSpace(t)..])
  }

  predicate StartsWithRef(payload: string)
  {
    |payload| >= 3 && payload[..3] == "ref"
  }

  /** What the referral branch of `cmd_start` records. */
  datatype Decision = NoReferral | Record(referrer: int, code: string, status: Status, joinBonus: bool)

  /** The referral branch of `cmd_start` as a function of the payload, the
      user and whether `ensure_user_with_flag` just created the account. */
  function StartDecision(payload: string, userId: int, created: bool, salt: int): (d: Decision)
    ensures d.NoReferral? <==> !StartsWithRef(payload)
    ensures d.Record? ==> d.code == payload[3..]
    ensures d.Record? ==>
      var parsed := RefCodec.ParseRefCode(d.code, salt);
      && (d.status == Invalid <==> parsed == None || parsed == Some(0))
      && (d.status == Invalid ==> d.referrer == 0)
      && (d.status != Invalid ==> parsed == Some(d.referrer) && d.referrer != 0)
    ensures d.Record? && d.status != Invalid ==>
      (d.status == Self <==> d.referrer == userId)
      && (d.status != Self ==> d.status == if created then Joined else Clicked)
    ensures d.Record? ==> d.status != Paid && (d.joinBonus <==> d.status == Joined)
  {
    if !StartsWithRef(payload) then NoReferral
    else
      var code := payload[3..];
      match RefCodec.ParseRefCode(code, salt)
      case None => Record(0, code, Invalid, false)
      case Some(v) =>
        if v == 0 then Record(0, code, Invalid, false)
        else if v == userId then Record(v, code, Self, false)
        else Record(v, code, if created then Joined else Clicked, created)
  }

  /** The write side of `cmd_start`: register the user, then apply the
      referral decision: record the pair and, for a fresh account arriving
      through a valid link of someone else, grant the `ref_join` bonus. */
  function ApplyDecision(bot: Bot, userId: int, d: Decision, cfg: Config): (r: Bot)
    requires UniquePairs(bot.ledger.referrals)
    ensures UniquePairs(r.ledger.referrals)
    ensures r.users == bot.users + {userId}
    ensures d.NoReferral? ==> r.ledger == bot.ledger
    ensures d.Record? ==> r.ledger.referrals == RecordReferral(bot.ledger.referrals, d.referrer, userId, d.code, d.status)
    ensures r.ledger.bonuses == bot.ledger.bonuses +
      (if d.Record? && d.joinBonus then [Bonus(userId, RefJoin, cfg.joinedDays, true, InvitedBy(d.referrer))] else [])
  {
    var users := bot.users + {userId};
    match d
    case NoReferral => Bot(users, bot.ledger)
    case Record(referrer, code, status, joinBonus) =>
      var refs := RecordReferral(bot.ledger.referrals, referrer, userId, code, status);
      var bonuses :=
        if joinBonus then GrantBonus(bot.ledger.bonuses, userId, RefJoin, cfg.joinedDays, true, InvitedBy(referrer))
        else bot.ledger.bonuses;
      Bot(users, Ledger(refs, bonuses))
  }

  /** `cmd_start`: the account counts as created when the user was not known
      before this message. */
  function Start(bot: Bot, userId: int, text: string, cfg: Config): (r: Bot)
    requires UniquePairs(bot.ledger.referrals)
    ensures UniquePairs(r.ledger.referrals)
    ensures r.users == bot.users + {userId}
    ensures var d := StartDecision(StartPayload(text), userId, userId !in bot.users, cfg.salt);
      && (d.NoReferral? ==> r.ledger == bot.ledger)
      && (d.Record? ==> r.ledger.referrals == RecordReferral(bot.ledger.referrals, d.referrer, userId, d.code, d.status))
      && r.ledger.bonuses == bot.ledger.bonuses +
           (if d.Record? && d.joinBonus then [Bonus(userId, RefJoin, cfg.joinedDays, true, InvitedBy(d.referrer))] else [])
  {
    ApplyDecision(bot, userId, StartDecision(StartPayload(text), userId, userId !in bot.users, cfg.salt), cfg)
  }

  /** `/start` keeps the exactly-once invariant: it never writes `paid` and
      never grants `ref_paid`. */
  lemma StartPreservesPaidMatch(bot: Bot, userId: int, text: string, cfg: Config)
    requires UniquePairs(bot.ledger.referrals) && PaidBonusesMatch(bot.ledger)
    ensures PaidBonusesMatch(Start(bot, userId, text, cfg).ledger)
  {
    var d := StartDecision(StartPayload(text), userId, userId !in bot.users, cfg.salt);
    if d.Record? {
      var l := bot.ledger;
      RecordReferralPreservesPaidMatch(l, d.referrer, userId, d.code, d.status);
      if d.joinBonus {
        forall u
          ensures CountPaidBonuses(Start(bot, userId, text, cfg).ledger.bonuses, u) == CountPaidBonuses(l.bonuses, u)
        {
          CountPaidBonusesAppend(l.bonuses, Bonus(userId, RefJoin, cfg.joinedDays, true, InvitedBy(d.referrer)), u);
        }
      }
    }
  }

  /** A user following their own link is recorded as `self` and receives
      nothing, whether or not the account is new (for any id whose code is
      short enough for `int` to read back). */
  lemma SelfReferral(userId: int, created: bool, salt: int)
    requires userId != 0 && (userId >= 0 <==> salt >= 0)
    requires |RefCodec.MakeRefCode(userId, salt).value| <= MaxStrDigits
    ensures var code := RefCodec.MakeRefCode(userId, salt).value;
            StartDecision("ref" + code, userId, created, salt) == Record(userId, code, Self, false)
  {
    var code := RefCodec.MakeRefCode(userId, salt).value;
    var p := "ref" + code;
    assert p[..3] == "ref" && p[3..] == code;
    RefCodec.RoundTrip(userId, salt);
    DecisionOfParsed(p, userId, created, salt);
  }

  /** The referral decision for a `ref` payload, given what its code parses to. */
  lemma DecisionOfParsed(payload: string, userId: int, created: bool, salt: int)
    requires StartsWithRef(payload)
    ensures var code := payload[3..];
      StartDecision(payload, userId, created, salt) ==
        match RefCodec.ParseRefCode(code, salt)
        case None => Record(0, code, Invalid, false)
        case Some(v) =>
          if v == 0 then Record(0, code, Invalid, false)
          else if v == userId then Record(v, code, Self, false)
          else Record(v, code, if created then Joined else Clicked, created)
  {
  }

  /** A payload whose code does not decode is recorded as `invalid` against
      referrer 0 and grants nothing. */
  lemma InvalidCode(code: string, userId: int, created: bool, salt: int)
    requires RefCodec.ParseRefCode(code, salt).None?
    ensures StartDecision("ref" + code, userId, created, salt) == Record(0, code, Invalid, false)
  {
    var p := "ref" + code;
    assert p[..3] == "ref" && p[3..] == code;
    DecisionOfParsed(p, userId, created, salt);
  }

  // ---------------------------------------------------------------------
  // Demo payment callbacks
  // ---------------------------------------------------------------------

  /** Python's `s.split(sep)` for a one-character separator. */
  function Split(s: string, sep: char): (parts: seq<string>)
    ensures |parts| >= 1
    ensures forall i :: 0 <= i < |parts| ==> sep !in parts[i]
  {
    if |s| == 0 then [""]
    else
      var rest := Split(s[..|s| - 1], sep);
      if s[|s| - 1] == sep then rest + [""]
      else rest[..|rest| - 1] + [rest[|rest| - 1] + [s[|s| - 1]]]
  }

  /** `sep.join(parts)`. */
  function Join(parts: seq<string>, sep: char): string
    requires |parts| >= 1
  {
    if |parts| == 1 then parts[0] else Join(parts[..|parts| - 1], sep) + [sep] + parts[|parts| - 1]
  }

  /** Splitting loses nothing: joining the parts back gives the input. */
  lemma {:induction false} JoinSplit(s: string, sep: char)
    ensures Join(Split(s, sep), sep) == s
    decreases |s|
  {
    if |s| > 0 {
      var front := s[..|s| - 1];
      var rest := Split(front, sep);
      JoinSplit(front, sep);
      assert s == front + [s[|s| - 1]];
      if s[|s| - 1] == sep {
        JoinNewPart(rest, sep);
      } else {
        JoinExtendLast(rest, sep, s[|s| - 1]);
      }
    }
  }

  /** A separator at the end opens an empty last part. */
  lemma JoinNewPart(parts: seq<string>, sep: char)
    requires |parts| >= 1
    ensures Join(parts + [""], sep) == Join(parts, sep) + [sep]
  {
    assert (parts + [""])[..|parts|] == parts;
  }

  /** Any other character extends the last part. */
  lemma JoinExtendLast(parts: seq<string>, sep: char, c: char)
    requires |parts| >= 1
    ensures Join(parts[..|parts| - 1] + [parts[|parts| - 1] + [c]], sep) == Join(parts, sep) + [c]
  {
    var ext := parts[..|parts| - 1] + [parts[|parts| - 1] + [c]];
    if |parts| > 1 {
      assert ext[..|ext| - 1] == parts[..|parts| - 1];
    }
  }

  /** One entry of `TARIFF_PLANS`. */
  datatype Plan = Plan(title: string, monthlyPrice: nat, annualPrice: nat, annualDiscount: nat)

  /** `TARIFF_PLANS.get(plan_code)`. */
  function LookupPlan(code: string): Option<Plan>
  {
    if code == "znakomstvo" then Some(Plan("Знакомство", 2900, 31320, 10))
    else if code == "legkoe_dyhanie" then Some(Plan("Лёгкое дыхание", 5400, 57240, 12))
    else if code == "novaya_zhizn" then Some(Plan("Новая жизнь", 9800, 100800, 14))
    else None
  }

  datatype PayOutcome =
    | MalformedData      // the unpacking of `cb.data.split(":")` raises
    | PlanNotFound       // alert "План не найден"
    | PeriodUnsupported  // alert "Период не поддерживается"
    | Invoice(price: nat, rewarded: bool)

  /** `pay` of the main bot: validates plan and period, quotes the price for
      the period, and only then treats the tap as a payment that activates
      the payer's referral reward. */
  function Pay(l: Ledger, payer: int, data: string, paidDays: int): (r: (PayOutcome, Ledger))
    ensures var parts := Split(data, ':');
      r.0.Invoice? <==> (|parts| == 3 && LookupPlan(parts[1]).Some? && (parts[2] == "month" || parts[2] == "annual"))
    ensures !r.0.Invoice? ==> r.1 == l
    ensures r.0.Invoice? ==>
      var parts := Split(data, ':');
      var plan := LookupPlan(parts[1]).value;
      && r.0.price == (if parts[2] == "month" then plan.monthlyPrice else plan.annualPrice)
      && (r.0.rewarded, r.1) == Activate(l, payer, paidDays)
  {
    var parts := Split(data, ':');
    if |parts| != 3 then (MalformedData, l)
    else
      match LookupPlan(parts[1])
      case None => (PlanNotFound, l)
      case Some(plan) =>
        if parts[2] != "month" && parts[2] != "annual" then (PeriodUnsupported, l)
        else
          var price := if parts[2] == "month" then plan.monthlyPrice else plan.annualPrice;
          var (rewarded, l') := Activate(l, payer, paidDays);
          (Invoice(price, rewarded), l')
  }

  /** `pay` of the single-file bot: any `pay:<plan>:<currency>` callback
      activates the payer's reward; only a callback that does not split into
      three parts fails, before anything is written. */
  function PayPlus(l: Ledger, payer: int, data: string, paidDays: int): (r: (Option<bool>, Ledger))
    ensures r.0.None? <==> |Split(data, ':')| != 3
    ensures r.0.None? ==> r.1 == l
    ensures r.0.Some? ==> (r.0.value, r.1) == Activate(l, payer, paidDays)
  {
    if |Split(data, ':')| != 3 then (None, l)
    else
      var (rewarded, l') := Activate(l, payer, paidDays);
      (Some(rewarded), l')
  }

  /** The single-file bot's `pay` against the main bot's: both fail on the
      same malformed data; wherever the main bot issues an invoice the
      single-file bot activates identically; and a tap the main bot turns
      away for its plan or period still activates the reward there. */
  lemma PayPlusAgainstPay(l: Ledger, payer: int, data: string, paidDays: int)
    ensures Pay(l, payer, data, paidDays).0 == MalformedData <==> PayPlus(l, payer, data, paidDays).0.None?
    ensures Pay(l, payer, data, paidDays).0.Invoice? ==>
      PayPlus(l, payer, data, paidDays) == (Some(Pay(l, payer, data, paidDays).0.rewarded), Pay(l, payer, data, paidDays).1)
    ensures Pay(l, payer, data, paidDays).0 in {PlanNotFound, PeriodUnsupported} ==>
      Pay(l, payer, data, paidDays).1 == l && PayPlus(l, payer, data, paidDays).1 == Activate(l, payer, paidDays).1
  {
  }

  // ---------------------------------------------------------------------
  // format_rub
  // ---------------------------------------------------------------------

  /** Digit grouping of `format(n, ",")`: a comma before every group of three
      digits counted from the right. */
  function GroupThousands(ds: string): (g: string)
    ensures |ds| > 0 ==> |g| == |ds| + (|ds| - 1) / 3
  {
    if |ds| <= 3 then ds else GroupThousands(ds[..|ds| - 3]) + "," + ds[|ds| - 3..]
  }

  /** `s.replace(a, b)` for single characters. */
  function ReplaceChar(s: string, a: char, b: char): (r: string)
    ensures |r| == |s|
    ensures forall i :: 0 <= i < |s| ==> r[i] == if s[i] == a then b else s[i]
  {
    seq(|s|, i requires 0 <= i < |s| => if s[i] == a then b else s[i])
  }

  /** `s` without any occurrence of `c`. */
  function Remove(s: string, c: char): string
  {
    if |s| == 0 then "" else Remove(s[..|s| - 1], c) + (if s[|s| - 1] == c then "" else [s[|s| - 1]])
  }

  lemma {:induction false} RemoveAppend(a: string, b: string, c: char)
    ensures Remove(a + b, c) == Remove(a, c) + Remove(b, c)
    decreases |b|
  {
    if |b| == 0 {
      assert a + b == a;
    } else {
      assert (a + b)[..|a + b| - 1] == a + b[..|b| - 1];
      RemoveAppend(a, b[..|b| - 1], c);
    }
  }

  lemma {:induction false} RemoveAbsent(s: string, c: char)
    requires c !in s
    ensures Remove(s, c) == s
    decreases |s|
  {
    if |s| > 0 {
      RemoveAbsent(s[..|s| - 1], c);
    }
  }

  /** Grouping only inserts separators: removing them gives the digits. */
  lemma {:induction false} GroupThousandsRemove(ds: string)
    requires ',' !in ds
    ensures Remove(GroupThousands(ds), ',') == ds
    decreases |ds|
  {
    if |ds| <= 3 {
      RemoveAbsent(ds, ',');
    } else {
      var head := ds[..|ds| - 3];
      var tail := ds[|ds| - 3..];
      assert ',' !in head && ',' !in tail;
      GroupThousandsRemove(head);
      RemoveSeparated(GroupThousands(head), tail, ',');
      RemoveAbsent(tail, ',');
      assert ds == head + tail;
    }
  }

  /** Removing `c` from `a + [c] + b` removes it from both sides. */
  lemma RemoveSeparated(a: string, b: string, c: char)
    ensures Remove(a + [c] + b, c) == Remove(a, c) + Remove(b, c)
  {
    RemoveAppend(a + [c], b, c);
    RemoveLast(a, c);
  }

  lemma RemoveLast(a: string, c: char)
    ensures Remove(a + [c], c) == Remove(a, c)
  {
    var ac := a + [c];
    assert ac[..|ac| - 1] == a;
  }

  /** The separators sit exactly at every fourth position counted from the
      right end. */
  lemma {:induction false} GroupThousandsCommas(ds: string)
    requires ',' !in ds
    ensures forall k :: 0 <= k < |GroupThousands(ds)| ==>
      (GroupThousands(ds)[k] == ',' <==> (|GroupThousands(ds)| - k) % 4 == 0)
    decreases |ds|
  {
    var g := GroupThousands(ds);
    if |ds| > 3 {
      var head := ds[..|ds| - 3];
      var tail := ds[|ds| - 3..];
      assert ',' !in head && ',' !in tail;
      GroupThousandsCommas(head);
      var gh := GroupThousands(head);
      assert g == gh + "," + tail;
      forall k | 0 <= k < |g|
        ensures g[k] == ',' <==> (|g| - k) % 4 == 0
      {
        if k < |gh| {
          assert g[k] == gh[k];
          assert (|g| - k) % 4 == (|gh| - k) % 4;
          assert gh[k] == ',' <==> (|gh| - k) % 4 == 0;
        } else if k == |gh| {
          assert g[k] == ',';
          assert |g| - k == 4;
        } else {
          assert g[k] == tail[k - |gh| - 1];
          assert g[k] != ',';
          assert 0 < |g| - k < 4;
        }
      }
    }
  }

  /** `format_rub(amount)`: `f"{amount:,} ₽"` with the commas turned into
      spaces. */
  function FormatRub(amount: int): string
  {
    var digits := ToBase(if amount < 0 then -amount else amount, 10);
    var grouped := (if amount < 0 then "-" else "") + GroupThousands(digits);
    ReplaceChar(grouped + " ₽", ',', ' ')
  }

  /** The price text is the sign, then the decimal digits of the amount with
      a space before every group of three from the right, then ` ₽`. */
  lemma FormatRubSpec(amount: int)
    ensures var digits := ToBase(if amount < 0 then -amount else amount, 10);
      var g := ReplaceChar(GroupThousands(digits), ',', ' ');
      && FormatRub(amount) == (if amount < 0 then "-" else "") + g + " ₽"
      && Remove(g, ' ') == digits
      && (forall k :: 0 <= k < |g| ==> (g[k] == ' ' <==> (|g| - k) % 4 == 0))
  {
    var n: nat := if amount < 0 then -amount else amount;
    var digits := ToBase(n, 10);
    var sign := if amount < 0 then "-" else "";
    assert forall i :: 0 <= i < |digits| ==> IsLowerDigit(digits[i]);
    SpacedDigits(sign, digits);
  }

  /** The text `FormatRub` builds around a run of decimal digits. */
  lemma SpacedDigits(sign: string, digits: string)
    requires forall i :: 0 <= i < |digits| ==> IsLowerDigit(digits[i])
    requires sign == "" || sign == "-"
    ensures var grouped := GroupThousands(digits);
      var g := ReplaceChar(grouped, ',', ' ');
      && ReplaceChar(sign + grouped + " ₽", ',', ' ') == sign + g + " ₽"
      && Remove(g, ' ') == digits
      && (forall k :: 0 <= k < |g| ==> (g[k] == ' ' <==> (|g| - k) % 4 == 0))
  {
    assert ',' !in digits && ' ' !in digits by {
      forall i | 0 <= i < |digits| ensures digits[i] != ',' && digits[i] != ' ' {
        assert IsLowerDigit(digits[i]);
      }
    }
    SpacedRemove(digits);
    SpacedPositions(digits);
    var grouped := GroupThousands(digits);
    ReplaceAppend(sign + grouped, " ₽", ',', ' ');
    ReplaceAppend(sign, grouped, ',', ' ');
    assert ReplaceChar(sign, ',', ' ') == sign;
    assert ReplaceChar(" ₽", ',', ' ') == " ₽";
  }

  lemma SpacedRemove(digits: string)
    requires ',' !in digits && ' ' !in digits
    ensures Remove(ReplaceChar(GroupThousands(digits), ',', ' '), ' ') == digits
  {
    GroupThousandsRemove(digits);
    GroupThousandsChars(digits);
    RemoveReplaced(GroupThousands(digits), digits);
  }

  lemma SpacedPositions(digits: string)
    requires ',' !in digits && ' ' !in digits
    ensures var g := ReplaceChar(GroupThousands(digits), ',', ' ');
      forall k :: 0 <= k < |g| ==> (g[k] == ' ' <==> (|g| - k) % 4 == 0)
  {
    GroupThousandsCommas(digits);
    GroupThousandsChars(digits);
  }

  lemma ReplaceAppend(a: string, b: string, x: char, y: char)
    ensures ReplaceChar(a + b, x, y) == ReplaceChar(a, x, y) + ReplaceChar(b, x, y)
  {
  }

  /** Grouping adds no character other than the comma. */
  lemma {:induction false} GroupThousandsChars(ds: string)
    ensures forall c :: c in GroupThousands(ds) ==> c == ',' || c in ds
    decreases |ds|
  {
    if |ds| > 3 {
      var head := ds[..|ds| - 3];
      GroupThousandsChars(head);
      assert GroupThousands(ds) == GroupThousands(head) + "," + ds[|ds| - 3..];
      assert ds == head + ds[|ds| - 3..];
    }
  }

  /** Turning the commas of a grouped number into spaces and removing the
      spaces gives what removing the commas gave. */
  lemma {:induction false} RemoveReplaced(grouped: string, digits: string)
    requires ' ' !in grouped
    ensures Remove(ReplaceChar(grouped, ',', ' '), ' ') == Remove(grouped, ',')
    decreases |grouped|
  {
    if |grouped| > 0 {
      var front := grouped[..|grouped| - 1];
      assert ReplaceChar(grouped, ',', ' ')[..|grouped| - 1] == ReplaceChar(front, ',', ' ');
      RemoveReplaced(front, digits);
    }
  }

  // ---------------------------------------------------------------------
  // The invitation scenario
  // ---------------------------------------------------------------------

  /** The first whitespace after a word that has none is right after it. */
  lemma {:induction false} FirstSpaceAfterWord(w: string, rest: string)
    requires forall i :: 0 <= i < |w| ==> !IsSpace(w[i])
    requires |rest| > 0 && IsSpace(rest[0])
    ensures FirstSpace(w + rest) == |w|
    decreases |w|
  {
    if |w| > 0 {
      assert (w + rest)[1..] == w[1..] + rest;
      FirstSpaceAfterWord(w[1..], rest);
    }
  }

  /** A command word, one space and a payload with no surrounding
      whitespace: the payload is read back unchanged. */
  lemma PayloadAfterWord(w: string, p: string)
    requires |w| > 0 && forall i :: 0 <= i < |w| ==> !IsSpace(w[i])
    requires |p| > 0 && !IsSpace(p[0]) && !IsSpace(p[|p| - 1])
    ensures StartPayload(w + (" " + p)) == p
  {
    var text := w + (" " + p);
    assert text[0] == w[0];
    assert TrimLeft(text) == text;
    FirstSpaceAfterWord(w, " " + p);
    assert text[|w|..] == " " + p;
    assert (" " + p)[1..] == p;
    assert TrimLeft(" " + p) == TrimLeft(p) == p;
    StripNoOp(p);
  }

  /** `/start ref<code>` carries `ref<code>` as its payload when the code
      has no whitespace. */
  lemma StartPayloadOfLink(code: string)
    requires forall i :: 0 <= i < |code| ==> !IsSpace(code[i])
    ensures StartPayload("/start ref" + code) == "ref" + code
  {
    var p := "ref" + code;
    assert "/start ref" + code == "/start" + (" " + p);
    assert p[0] == 'r';
    assert p[|p| - 1] == if |code| == 0 then 'f' else code[|code| - 1];
    PayloadAfterWord("/start", p);
  }

  /** A referral link built from a code is read back as `ref<code>`. */
  lemma CanonicalLinkPayload(code: string)
    requires RefCodec.IsCanonicalCode(code)
    ensures StartPayload("/start ref" + code) == "ref" + code
  {
    forall i | 0 <= i < |code| ensures !IsSpace(code[i]) {
      assert IsLowerDigit(code[i]);
    }
    StartPayloadOfLink(code);
  }

  /** A new user arriving through someone else's link: the pair is recorded
      as joined and the new user gets the join bonus. */
  lemma JoinThroughLink(a: int, b: int, cfg: Config, code: string)
    requires a != 0 && a != b
    requires RefCodec.IsCanonicalCode(code) && RefCodec.ParseRefCode(code, cfg.salt) == Some(a)
    ensures
      var s1 := Start(Bot({a}, Ledger([], [])), b, "/start ref" + code, cfg);
      && s1.ledger.referrals == [Referral(code, a, b, Joined)]
      && s1.ledger.bonuses == [Bonus(b, RefJoin, cfg.joinedDays, true, InvitedBy(a))]
  {
    var bot := Bot({a}, Ledger([], []));
    var text := "/start ref" + code;
    var d := StartDecision(StartPayload(text), b, b !in bot.users, cfg.salt);
    LinkDecision(a, b, cfg, code);
    assert d == Record(a, code, Joined, true);
    DecisionOnEmptyLedger(bot.users, b, d, cfg);
    assert Start(bot, b, text, cfg) == ApplyDecision(bot, b, d, cfg);
  }

  /** What `/start` decides for a new user following someone else's link. */
  lemma LinkDecision(a: int, b: int, cfg: Config, code: string)
    requires a != 0 && a != b
    requires RefCodec.IsCanonicalCode(code) && RefCodec.ParseRefCode(code, cfg.salt) == Some(a)
    ensures StartDecision(StartPayload("/start ref" + code), b, b !in {a}, cfg.salt) == Record(a, code, Joined, true)
  {
    var p := "ref" + code;
    CanonicalLinkPayload(code);
    assert p[..3] == "ref" && p[3..] == code;
    DecisionOfParsed(p, b, true, cfg.salt);
  }


  /** A referral decision on an empty ledger writes exactly one row. */
  lemma DecisionOnEmptyLedger(users: set<int>, userId: int, d: Decision, cfg: Config)
    requires d.Record?
    ensures var s1 := ApplyDecision(Bot(users, Ledger([], [])), userId, d, cfg);
      && s1.ledger.referrals == [Referral(d.code, d.referrer, userId, d.status)]
      && s1.ledger.bonuses == if d.joinBonus then [Bonus(userId, RefJoin, cfg.joinedDays, true, InvitedBy(d.referrer))] else []
  {
    assert FindPair([], d.referrer, userId).None?;
  }

  /** Invitation end to end: A's link brings in the new user B, who is
      recorded as joined and receives the join bonus; B's first payment marks
      the referral paid and gives A exactly one `ref_paid` bonus; a repeated
      payment finds nothing left to reward and changes nothing. A's code is
      taken to be within the interpreter's digit cap. */
  lemma InvitationScenario(a: int, b: int, cfg: Config)
    requires a != 0 && a != b && (a >= 0 <==> cfg.salt >= 0)
    requires |RefCodec.MakeRefCode(a, cfg.salt).value| <= MaxStrDigits
    ensures
      var code := RefCodec.MakeRefCode(a, cfg.salt).value;
      var s1 := Start(Bot({a}, Ledger([], [])), b, "/start ref" + code, cfg);
      var p1 := Activate(s1.ledger, b, cfg.paidDays);
      var p2 := Activate(p1.1, b, cfg.paidDays);
      && s1.ledger.referrals == [Referral(code, a, b, Joined)]
      && s1.ledger.bonuses == [Bonus(b, RefJoin, cfg.joinedDays, true, InvitedBy(a))]
      && p1.0
      && p1.1.referrals == [Referral(code, a, b, Paid)]
      && p1.1.bonuses == s1.ledger.bonuses + [Bonus(a, RefPaid, cfg.paidDays, true, PaidBy(b))]
      && !p2.0 && p2.1 == p1.1
  {
    var code := RefCodec.MakeRefCode(a, cfg.salt).value;
    RefCodec.RoundTrip(a, cfg.salt);
    JoinThroughLink(a, b, cfg, code);
    var s1 := Start(Bot({a}, Ledger([], [])), b, "/start ref" + code, cfg);
    PayOnce(s1.ledger, Referral(code, a, b, Joined), cfg.paidDays);
  }

  /** Paying twice for a single joined referral rewards once. */
  lemma PayOnce(l: Ledger, row: Referral, paidDays: int)
    requires l.referrals == [row] && row.status == Joined
    ensures var p1 := Activate(l, row.referred, paidDays);
      var p2 := Activate(p1.1, row.referred, paidDays);
      && p1.0
      && p1.1.referrals == [row.(status := Paid)]
      && p1.1.bonuses == l.bonuses + [Bonus(row.referrer, RefPaid, paidDays, true, PaidBy(row.referred))]
      && !p2.0 && p2.1 == p1.1
  {
    assert LastPending(l.referrals, row.referred) == Some(0);
    var p1 := Activate(l, row.referred, paidDays);
    assert p1.1.referrals == [row.(status := Paid)];
    assert LastPending(p1.1.referrals, row.referred) == None;
  }
}

=== FILE: chat_ledger.dfy ===
/** The chat bot's referral store and bonus ledger: `record_referral`,
    `grant_bonus`, `activate_referral_reward_for_payer` and the read-side
    folds behind `/account` and `/referrals`.

    Rows are kept in insertion order; a later position stands for a later
    `created_at`, which is how "the most recent referral" is chosen. */
module ChatLedger {

  import opened Common

  /** A referral's lifecycle status: the five strings the handlers pass to
      `record_referral`. */
  datatype Status = Invalid | Self | Clicked | Joined | Paid

  /** The `order` table of `record_referral`: `invalid` and `self` rank 0,
      then `clicked`, `joined` and `paid`. */
  function Rank(s: Status): (r: nat)
    ensures r <= 3
    ensures r == 3 <==> s == Paid
  {
    match s
    case Clicked => 1
    case Joined => 2
    case Paid => 3
    case _ => 0
  }

  /** A status `activate_referral_reward_for_payer` may turn into `paid`. */
  predicate IsPending(s: Status)
  {
    s == Clicked || s == Joined
  }

  datatype Referral = Referral(code: string, referrer: int, referred: int, status: Status)

  datatype BonusKind = RefJoin | RefPaid | OtherKind(name: string)

  /** The JSON payload of a bonus: who invited the new user, or who paid. */
  datatype BonusPayload = NoPayload | InvitedBy(referrer: int) | PaidBy(payer: int)

  datatype Bonus = Bonus(user: int, kind: BonusKind, days: int, activated: bool, payload: BonusPayload)

  /** The `referrals` and `user_bonuses` tables. */
  datatype Ledger = Ledger(referrals: seq<Referral>, bonuses: seq<Bonus>)

  predicate SamePair(row: Referral, referrer: int, referred: int)
  {
    row.referrer == referrer && row.referred == referred
  }

  /** At most one row per (referrer, referred) pair: the lookup in
      `record_referral` uses `scalar_one_or_none`, which raises otherwise. */
  predicate UniquePairs(refs: seq<Referral>)
  {
    forall i, j :: 0 <= i < j < |refs| ==> !SamePair(refs[i], refs[j].referrer, refs[j].referred)
  }

  /** The position of the row for a pair, if there is one. */
  function FindPair(refs: seq<Referral>, referrer: int, referred: int): (r: Option<nat>)
    ensures r.Some? ==> r.value < |refs| && SamePair(refs[r.value], referrer, referred)
    ensures r.None? ==> forall j :: 0 <= j < |refs| ==> !SamePair(refs[j], referrer, referred)
  {
    if |refs| == 0 then None
    else if SamePair(refs[|refs| - 1], referrer, referred) then Some(|refs| - 1)
    else FindPair(refs[..|refs| - 1], referrer, referred)
  }

  /** `record_referral`: a forward-only upsert keyed by the pair. A new pair
      gets a new row; an existing row keeps its code and pair, and takes the
      new status only when that ranks strictly higher. */
  function RecordReferral(refs: seq<Referral>, referrer: int, referred: int, code: string, status: Status): (r: seq<Referral>)
    requires UniquePairs(refs)
    ensures UniquePairs(r)
    ensures FindPair(refs, referrer, referred).None? ==> r == refs + [Referral(code, referrer, referred, status)]
    ensures FindPair(refs, referrer, referred).Some? ==>
      var i := FindPair(refs, referrer, referred).value;
      && |r| == |refs|
      && (forall j :: 0 <= j < |refs| && j != i ==> r[j] == refs[j])
      && r[i] == refs[i].(status := r[i].status)
      && (r[i].status == refs[i].status || r[i].status == status)
      && Rank(r[i].status) == Max(Rank(refs[i].status), Rank(status))
    ensures FindPair(refs, referrer, referred).Some? && Rank(status) <= Rank(refs[FindPair(refs, referrer, referred).value].status) ==>
      r == refs
    ensures FindPair(refs, referrer, referred).Some? && Rank(status) > Rank(refs[FindPair(refs, referrer, referred).value].status) ==>
      r[FindPair(refs, referrer, referred).value].status == status
  {
    match FindPair(refs, referrer, referred)
    case None => refs + [Referral(code, referrer, referred, status)]
    case Some(i) =>
      if Rank(status) > Rank(refs[i].status) then refs[i := refs[i].(status := status)] else refs
  }

  /** `grant_bonus`: append one bonus row. */
  function GrantBonus(bonuses: seq<Bonus>, user: int, kind: BonusKind, days: int, activated: bool, payload: BonusPayload): (r: seq<Bonus>)
    ensures |r| == |bonuses| + 1 && r[..|bonuses|] == bonuses
    ensures r[|bonuses|] == Bonus(user, kind, days, activated, payload)
  {
    bonuses + [Bonus(user, kind, days, activated, payload)]
  }

  /** The position of the payer's most recent clicked or joined row. */
  function LastPending(refs: seq<Referral>, payer: int): (r: Option<nat>)
    ensures r.Some? ==> r.value < |refs| && refs[r.value].referred == payer && IsPending(refs[r.value].status)
    ensures r.Some? ==> forall j :: r.value < j < |refs| ==> !(refs[j].referred == payer && IsPending(refs[j].status))
    ensures r.None? ==> forall j :: 0 <= j < |refs| ==> !(refs[j].referred == payer && IsPending(refs[j].status))
  {
    if |refs| == 0 then None
    else if refs[|refs| - 1].referred == payer && IsPending(refs[|refs| - 1].status) then Some(|refs| - 1)
    else LastPending(refs[..|refs| - 1], payer)
  }

  /** `activate_referral_reward_for_payer`, as one atomic step: the payer's
      most recent clicked/joined row becomes paid and its referrer receives
      one `ref_paid` bonus. Answers false, changing nothing, when there is
      no such row. */
  function Activate(l: Ledger, payer: int, paidDays: int): (r: (bool, Ledger))
    ensures !r.0 <==> forall j :: 0 <= j < |l.referrals| ==> !(l.referrals[j].referred == payer && IsPending(l.referrals[j].status))
    ensures !r.0 ==> r.1 == l
    ensures r.0 ==>
      exists i :: 0 <= i < |l.referrals| && LastPending(l.referrals, payer) == Some(i)
        && r.1.referrals == l.referrals[i := l.referrals[i].(status := Paid)]
        && r.1.bonuses == l.bonuses + [Bonus(l.referrals[i].referrer, RefPaid, paidDays, true, PaidBy(payer))]
  {
    match LastPending(l.referrals, payer)
    case None => (false, l)
    case Some(i) =>
      var row := l.referrals[i];
      (true, Ledger(l.referrals[i := row.(status := Paid)],
                    GrantBonus(l.bonuses, row.referrer, RefPaid, paidDays, true, PaidBy(payer))))
  }

  // ---------------------------------------------------------------------
  // Read-side folds
  // ---------------------------------------------------------------------

  /** `sum(b.days for b in bonuses if b.activated)` over one user's rows. */
  function ActiveDays(bonuses: seq<Bonus>, user: int): int
  {
    if |bonuses| == 0 then 0
    else
      var b := bonuses[|bonuses| - 1];
      ActiveDays(bonuses[..|bonuses| - 1], user) + (if b.user == user && b.activated then b.days else 0)
  }

  /** The number of a referrer's rows whose status is in `statuses`. */
  function CountRows(refs: seq<Referral>, referrer: int, statuses: set<Status>): nat
  {
    if |refs| == 0 then 0
    else
      var row := refs[|refs| - 1];
      CountRows(refs[..|refs| - 1], referrer, statuses) + (if row.referrer == referrer && row.status in statuses then 1 else 0)
  }

  /** The number of `ref_paid` bonuses a user has received. */
  function CountPaidBonuses(bonuses: seq<Bonus>, user: int): nat
  {
    if |bonuses| == 0 then 0
    else
      var b := bonuses[|bonuses| - 1];
      CountPaidBonuses(bonuses[..|bonuses| - 1], user) + (if b.user == user && b.kind == RefPaid then 1 else 0)
  }

  /** `/account`'s "awaiting bonus" figure:
      `max(0, #clicked-or-joined - #paid)`. */
  function PendingPaid(refs: seq<Referral>, referrer: int): (r: nat)
    ensures r >= CountRows(refs, referrer, {Clicked, Joined}) - CountRows(refs, referrer, {Paid})
    ensures r == 0 || r == CountRows(refs, referrer, {Clicked, Joined}) - CountRows(refs, referrer, {Paid})
  {
    Max(0, CountRows(refs, referrer, {Clicked, Joined}) - CountRows(refs, referrer, {Paid}))
  }

  /** The three counters of `/referrals`. */
  datatype Stats = Stats(clicked: nat, joined: nat, paid: nat)

  /** `/referrals`: "joined" counts joined or paid rows, so it is never
      below the paid count. */
  function ReferralStats(refs: seq<Referral>, referrer: int): (r: Stats)
    ensures r.paid <= r.joined
  {
    CountSubset(refs, referrer, {Paid}, {Joined, Paid});
    Stats(CountRows(refs, referrer, {Clicked}), CountRows(refs, referrer, {Joined, Paid}), CountRows(refs, referrer, {Paid}))
  }

  /** Counting over a smaller set of statuses never gives more rows. */
  lemma {:induction false} CountSubset(refs: seq<Referral>, referrer: int, a: set<Status>, b: set<Status>)
    requires a <= b
    ensures CountRows(refs, referrer, a) <= CountRows(refs, referrer, b)
    decreases |refs|
  {
    if |refs| > 0 {
      CountSubset(refs[..|refs| - 1], referrer, a, b);
    }
  }

  // ---------------------------------------------------------------------
  // Ledger properties
  // ---------------------------------------------------------------------

  /** Balance equivalence: the active days of a ledger extended by more
      grants equal the days of the old ledger plus the days of the new
      grants, so replaying grants one by one matches a full recount. */
  lemma {:induction false} ActiveDaysAppend(a: seq<Bonus>, b: seq<Bonus>, user: int)
    ensures ActiveDays(a + b, user) == ActiveDays(a, user) + ActiveDays(b, user)
    decreases |b|
  {
    if |b| > 0 {
      assert (a + b)[..|a + b| - 1] == a + b[..|b| - 1];
      ActiveDaysAppend(a, b[..|b| - 1], user);
    } else {
      assert a + b == a;
    }
  }

  /** One grant raises the recipient's active days by exactly its days when
      it is activated, and leaves every other user's total alone. */
  lemma GrantBonusActiveDays(bonuses: seq<Bonus>, user: int, kind: BonusKind, days: int, activated: bool, payload: BonusPayload, who: int)
    ensures ActiveDays(GrantBonus(bonuses, user, kind, days, activated, payload), who)
         == ActiveDays(bonuses, who) + (if who == user && activated then days else 0)
  {
    var r := GrantBonus(bonuses, user, kind, days, activated, payload);
    assert r[..|r| - 1] == bonuses;
  }

  /** `record_referral` is idempotent: repeating a call changes nothing. */
  lemma RecordReferralIdempotent(refs: seq<Referral>, referrer: int, referred: int, code: string, status: Status)
    requires UniquePairs(refs)
    ensures var once := RecordReferral(refs, referrer, referred, code, status);
            RecordReferral(once, referrer, referred, code, status) == once
  {
    var once := RecordReferral(refs, referrer, referred, code, status);
    var k := FindPair(once, referrer, referred);
    assert k.Some?;
  }

  /** A paid row is final: no later `record_referral` moves it off `paid`. */
  lemma PaidIsFinal(refs: seq<Referral>, referrer: int, referred: int, code: string, status: Status, j: nat)
    requires UniquePairs(refs)
    requires j < |refs| && refs[j].status == Paid
    ensures RecordReferral(refs, referrer, referred, code, status)[j].status == Paid
  {
  }

  /** Changing one row changes the count by what leaves and what enters. */
  lemma {:induction false} CountRowsUpdate(refs: seq<Referral>, i: nat, row: Referral, referrer: int, statuses: set<Status>)
    requires i < |refs|
    ensures CountRows(refs[i := row], referrer, statuses)
         == CountRows(refs, referrer, statuses)
            - (if refs[i].referrer == referrer && refs[i].status in statuses then 1 else 0)
            + (if row.referrer == referrer && row.status in statuses then 1 else 0)
    decreases |refs|
  {
    var n := |refs|;
    if i < n - 1 {
      assert refs[i := row][..n - 1] == refs[..n - 1][i := row];
      CountRowsUpdate(refs[..n - 1], i, row, referrer, statuses);
    } else {
      assert refs[i := row][..n - 1] == refs[..n - 1];
    }
  }

  lemma CountRowsAppend(refs: seq<Referral>, row: Referral, referrer: int, statuses: set<Status>)
    ensures CountRows(refs + [row], referrer, statuses)
         == CountRows(refs, referrer, statuses) + (if row.referrer == referrer && row.status in statuses then 1 else 0)
  {
    assert (refs + [row])[..|refs|] == refs;
  }

  lemma CountPaidBonusesAppend(bonuses: seq<Bonus>, b: Bonus, user: int)
    ensures CountPaidBonuses(bonuses + [b], user)
         == CountPaidBonuses(bonuses, user) + (if b.user == user && b.kind == RefPaid then 1 else 0)
  {
    assert (bonuses + [b])[..|bonuses|] == bonuses;
  }

  /** The exactly-once invariant: every referrer holds exactly as many
      `ref_paid` bonuses as it has paid referral rows. */
  ghost predicate PaidBonusesMatch(l: Ledger)
  {
    forall u :: CountRows(l.referrals, u, {Paid}) == CountPaidBonuses(l.bonuses, u)
  }

  /** Activation keeps the exactly-once invariant: the one row it turns
      paid and the one bonus it appends go to the same referrer. */
  lemma ActivatePreservesPaidMatch(l: Ledger, payer: int, paidDays: int)
    requires PaidBonusesMatch(l)
    ensures PaidBonusesMatch(Activate(l, payer, paidDays).1)
  {
    var r := Activate(l, payer, paidDays);
    if r.0 {
      var i := LastPending(l.referrals, payer).value;
      var row := l.referrals[i];
      var b := Bonus(row.referrer, RefPaid, paidDays, true, PaidBy(payer));
      forall u
        ensures CountRows(r.1.referrals, u, {Paid}) == CountPaidBonuses(r.1.bonuses, u)
      {
        CountRowsUpdate(l.referrals, i, row.(status := Paid), u, {Paid});
        CountPaidBonusesAppend(l.bonuses, b, u);
      }
    }
  }

  /** Recording a visit with any status other than `paid` keeps the
      exactly-once invariant: it never creates or removes a paid row. */
  lemma RecordReferralPreservesPaidMatch(l: Ledger, referrer: int, referred: int, code: string, status: Status)
    requires UniquePairs(l.referrals) && PaidBonusesMatch(l)
    requires status != Paid
    ensures PaidBonusesMatch(Ledger(RecordReferral(l.referrals, referrer, referred, code, status), l.bonuses))
  {
    var refs := l.referrals;
    var r := RecordReferral(refs, referrer, referred, code, status);
    forall u
      ensures CountRows(r, u, {Paid}) == CountPaidBonuses(l.bonuses, u)
    {
      match FindPair(refs, referrer, referred)
      case None =>
        CountRowsAppend(refs, Referral(code, referrer, referred, status), u, {Paid});
      case Some(i) =>
        if r != refs {
          CountRowsUpdate(refs, i, r[i], u, {Paid});
        }
    }
  }
}

=== FILE: common.dfy ===
/** Small shared vocabulary: optional values and results with an error. */
module Common {

  /** A value that may be absent (Python's `None`, SQL's NULL). */
  datatype Option<+T> = None | Some(value: T)

  /** The outcome of an operation that can raise: `Ok` carries the value,
      `Err` the reason the source would raise with. */
  datatype Result<+T, +E> = Ok(value: T) | Err(error: E)

  /** `max(a, b)` for integers. */
  function Max(a: int, b: int): (m: int)
    ensures m >= a && m >= b
    ensures m == a || m == b
  {
    if a >= b then a else b
  }

  /** `min(a, b)` for integers. */
  function Min(a: int, b: int): (m: int)
    ensures m <= a && m <= b
    ensures m == a || m == b
  {
    if a <= b then a else b
  }
}

=== FILE: guards.dfy ===
/** The in-memory anti-abuse guards of the chat bot: the duplicate-message
    filter and the per-minute rate limiter. The clock is a parameter `now`
    (seconds). */
module Guards {

  import opened PyInt

  // ---------------------------------------------------------------------
  // is_duplicate
  // ---------------------------------------------------------------------

  /** The dictionary key `f"{user_id}:{hash(text.strip())}"`, with the hash
      taken to be injective. */
  datatype DedupKey = DedupKey(user: int, text: string)

  /** `_recent_hashes`: when each key was last recorded. */
  type Seen = map<DedupKey, int>

  /** `is_duplicate(user_id, text, ttl_sec)`. An empty text is never a
      duplicate and is not recorded. A key seen less than `ttl` seconds ago
      is a duplicate and keeps its old timestamp; otherwise the key is
      (re)recorded at `now`. */
  function IsDuplicate(seen: Seen, user: int, text: string, ttl: int, now: int): (r: (bool, Seen))
    ensures |text| == 0 ==> r == (false, seen)
    ensures r.0 ==> r.1 == seen
    ensures |text| > 0 ==>
      var k := DedupKey(user, Strip(text));
      && (r.0 <==> k in seen && now - seen[k] < ttl)
      && k in r.1 && r.1[k] == (if r.0 then seen[k] else now)
    ensures forall k :: k in seen ==> k in r.1
    ensures forall k :: k in r.1 && k != DedupKey(user, Strip(text)) ==> k in seen && r.1[k] == seen[k]
  {
    if |text| == 0 then (false, seen)
    else
      var k := DedupKey(user, Strip(text));
      if k in seen && now - seen[k] < ttl then (true, seen)
      else (false, seen[k := now])
  }

  /** The same message again, before the window has passed, is caught; the
      timestamp is not refreshed, so the window counts from the first
      sighting. */
  lemma RepeatWithinTtl(seen: Seen, user: int, text: string, ttl: int, t0: int, t1: int)
    requires |text| > 0 && t0 <= t1 < t0 + ttl
    requires !IsDuplicate(seen, user, text, ttl, t0).0
    ensures var s1 := IsDuplicate(seen, user, text, ttl, t0).1;
      IsDuplicate(s1, user, text, ttl, t1) == (true, s1)
  {
  }

  /** Once the window has passed the message goes through and is recorded
      again. */
  lemma RepeatAfterTtl(seen: Seen, user: int, text: string, ttl: int, t0: int, t1: int)
    requires |text| > 0 && t1 >= t0 + ttl
    requires !IsDuplicate(seen, user, text, ttl, t0).0
    ensures var s1 := IsDuplicate(seen, user, text, ttl, t0).1;
      IsDuplicate(s1, user, text, ttl, t1) == (false, s1[DedupKey(user, Strip(text)) := t1])
  {
  }

  /** Texts that differ only in surrounding whitespace are the same message. */
  lemma StrippedTextsCollide(seen: Seen, user: int, a: string, b: string, ttl: int, now: int)
    requires |a| > 0 && |b| > 0 && Strip(a) == Strip(b)
    ensures IsDuplicate(seen, user, a, ttl, now) == IsDuplicate(seen, user, b, ttl, now)
  {
  }

  // ---------------------------------------------------------------------
  // rate_limited
  // ---------------------------------------------------------------------

  /** `_user_minute_ts[uid]` and `_user_minute_counts[uid]`; the two
      dictionaries are always written together. */
  datatype Counter = Counter(minute: int, count: int)

  type Counters = map<int, Counter>

  /** `int(time.time() // 60)`: floor division, which Dafny's `/` is for a
      positive divisor. */
  function Minute(now: int): (m: int)
    ensures 60 * m <= now < 60 * m + 60
  {
    now / 60
  }

  /** `rate_limited(user_id, max_per_minute)`: the count restarts when the
      minute changes and grows on every call, limited or not; the call is
      limited when the count exceeds the maximum. */
  function RateLimited(counters: Counters, user: int, now: int, maxPerMinute: int): (r: (bool, Counters))
    ensures user in r.1 && r.1[user].minute == Minute(now)
    ensures r.1[user].count ==
      1 + (if user in counters && counters[user].minute == Minute(now) then counters[user].count else 0)
    ensures r.0 <==> r.1[user].count > maxPerMinute
    ensures forall u :: u != user ==> (u in r.1 <==> u in counters) && (u in counters ==> r.1[u] == counters[u])
  {
    var m := Minute(now);
    var before := if user in counters && counters[user].minute == m then counters[user].count else 0;
    var c := Counter(m, before + 1);
    (c.count > maxPerMinute, counters[user := c])
  }

  /** The answers of a run of calls by one user at the given times. */
  function RunRateLimited(counters: Counters, user: int, times: seq<int>, maxPerMinute: int): (r: (seq<bool>, Counters))
    ensures |r.0| == |times|
    decreases |times|
  {
    if |times| == 0 then ([], counters)
    else
      var (answers, c) := RunRateLimited(counters, user, times[..|times| - 1], maxPerMinute);
      var (last, c') := RateLimited(c, user, times[|times| - 1], maxPerMinute);
      (answers + [last], c')
  }

  /** Within one minute that the user's counter does not yet cover, the
      k-th call (counting from 1) is limited exactly when k exceeds the
      maximum, and the counter then holds the number of calls. */
  lemma {:induction false} BurstWithinMinute(counters: Counters, user: int, times: seq<int>, maxPerMinute: int, m: int)
    requires forall i :: 0 <= i < |times| ==> Minute(times[i]) == m
    requires user !in counters || counters[user].minute != m
    ensures var r := RunRateLimited(counters, user, times, maxPerMinute);
      && (forall i :: 0 <= i < |times| ==> (r.0[i] <==> i + 1 > maxPerMinute))
      && (|times| > 0 ==> user in r.1 && r.1[user] == Counter(m, |times|))
      && (|times| == 0 ==> r.1 == counters)
    decreases |times|
  {
    if |times| > 0 {
      var front := times[..|times| - 1];
      BurstWithinMinute(counters, user, front, maxPerMinute, m);
      var (answers, c) := RunRateLimited(counters, user, front, maxPerMinute);
      var r := RunRateLimited(counters, user, times, maxPerMinute);
      assert r.0 == answers + [RateLimited(c, user, times[|times| - 1], maxPerMinute).0];
      forall i | 0 <= i < |times|
        ensures r.0[i] <==> i + 1 > maxPerMinute
      {
        if i < |front| {
          assert r.0[i] == answers[i];
        }
      }
    }
  }

  /** The first call in a new minute counts one, whatever came before. */
  lemma NewMinuteStartsAtOne(counters: Counters, user: int, now: int, maxPerMinute: int)
    requires user in counters && counters[user].minute != Minute(now)
    ensures RateLimited(counters, user, now, maxPerMinute).1[user].count == 1
    ensures RateLimited(counters, user, now, maxPerMinute).0 <==> maxPerMinute < 1
  {
  }
}

=== FILE: history.dfy ===
/** The chat bot's conversation memory: the history sent with each request
    is the user's newest messages, oldest first; after a reply the user's
    message and the assistant's answer are stored and everything beyond
    the newest `limit` of that user's messages is deleted. */
module History {

  import opened Common
  import opened Sorting

  datatype Role = UserRole | AssistantRole

  /** A `ConversationMessage` row. */
  datatype Message = Message(id: int, user: int, role: Role, content: string, createdAt: int)

  /** The table and the next autoincrement id. */
  datatype Store = Store(rows: seq<Message>, nextId: int)

  /** `ORDER BY created_at DESC, id DESC`. */
  function StampOf(m: Message): Stamp
  {
    Stamp(m.createdAt, m.id)
  }

  function IdOf(m: Message): int
  {
    m.id
  }

  /** Ids are unique and below the next id to hand out. */
  predicate Valid(st: Store)
  {
    && Injective(st.rows, IdOf)
    && (forall i :: 0 <= i < |st.rows| ==> st.rows[i].id < st.nextId)
  }

  /** `WHERE user_id = :user`, in table order. */
  function Mine(rows: seq<Message>, user: int): (r: seq<Message>)
    ensures |r| <= |rows|
  {
    if |rows| == 0 then []
    else
      var last := rows[|rows| - 1];
      Mine(rows[..|rows| - 1], user) + (if last.user == user then [last] else [])
  }

  /** `DELETE ... WHERE id IN ids`. */
  function Without(rows: seq<Message>, ids: set<int>): (r: seq<Message>)
    ensures |r| <= |rows|
  {
    if |rows| == 0 then []
    else
      var last := rows[|rows| - 1];
      Without(rows[..|rows| - 1], ids) + (if last.id in ids then [] else [last])
  }

  /** The user's messages are exactly the rows of that user. */
  lemma {:induction false} MineMembers(rows: seq<Message>, user: int)
    ensures forall m :: m in Mine(rows, user) <==> m in rows && m.user == user
    decreases |rows|
  {
    if |rows| > 0 {
      MineMembers(rows[..|rows| - 1], user);
      assert rows == rows[..|rows| - 1] + [rows[|rows| - 1]];
    }
  }

  /** The rows kept are exactly those whose id is not deleted. */
  lemma {:induction false} WithoutMembers(rows: seq<Message>, ids: set<int>)
    ensures forall m :: m in Without(rows, ids) <==> m in rows && m.id !in ids
    decreases |rows|
  {
    if |rows| > 0 {
      WithoutMembers(rows[..|rows| - 1], ids);
      assert rows == rows[..|rows| - 1] + [rows[|rows| - 1]];
    }
  }

  function IdsOf(s: seq<Message>): (ids: set<int>)
    ensures forall m :: m in s ==> m.id in ids
    ensures forall k :: k in ids ==> exists m :: m in s && m.id == k
  {
    set m | m in s :: m.id
  }

  /** The user's messages, newest first. */
  function Newest(rows: seq<Message>, user: int): (r: seq<Message>)
    ensures SortedDesc(r, StampOf) && multiset(r) == multiset(Mine(rows, user))
    ensures |r| == |Mine(rows, user)|
  {
    SortDesc(Mine(rows, user), StampOf)
  }

  /** The newest messages are the user's messages. */
  lemma NewestMembers(rows: seq<Message>, user: int, m: Message)
    requires m in Newest(rows, user)
    ensures m in rows && m.user == user
  {
    assert m in multiset(Newest(rows, user));
    MineMembers(rows, user);
  }

  /** `LIMIT` and `OFFSET` cut at the same place: the first `limit` rows, or
      all of them. */
  function Cut(n: nat, limit: nat): (k: nat)
    ensures k == Min(n, limit)
  {
    if limit < n then limit else n
  }

  function Reverse<T>(s: seq<T>): (r: seq<T>)
    ensures |r| == |s| && forall i :: 0 <= i < |s| ==> r[i] == s[|s| - 1 - i]
  {
    if |s| == 0 then [] else Reverse(s[1..]) + [s[0]]
  }

  /** The history sent with a request: the user's newest `limit` messages,
      reversed into chronological order. */
  function HistorySent(rows: seq<Message>, user: int, limit: nat): (h: seq<Message>)
    ensures |h| == Min(|Mine(rows, user)|, limit)
    ensures forall i, j :: 0 <= i < j < |h| ==> AtLeast(StampOf(h[j]), StampOf(h[i]))
    ensures forall i :: 0 <= i < |h| ==> h[i] in rows && h[i].user == user
    ensures multiset(h) <= multiset(Mine(rows, user))
  {
    var sorted := Newest(rows, user);
    var k := Cut(|sorted|, limit);
    OldestFirst(sorted, k);
    OldestFirstMembers(rows, user, k);
    ReverseMultiset(sorted[..k]);
    assert sorted == sorted[..k] + sorted[k..];
    Reverse(sorted[..k])
  }

  lemma {:induction false} ReverseMultiset<T>(s: seq<T>)
    ensures multiset(Reverse(s)) == multiset(s)
    decreases |s|
  {
    if |s| > 0 {
      ReverseMultiset(s[1..]);
      assert s == [s[0]] + s[1..];
    }
  }

  /** The history leaves out only older messages: any message of the user
      that is not sent sorts no later than every message that is. */
  lemma HistorySentNewest(rows: seq<Message>, user: int, limit: nat, m: Message)
    requires m in Mine(rows, user) && m !in HistorySent(rows, user, limit)
    ensures forall i :: 0 <= i < |HistorySent(rows, user, limit)| ==>
      AtLeast(StampOf(HistorySent(rows, user, limit)[i]), StampOf(m))
  {
    var sorted := Newest(rows, user);
    var k := Cut(|sorted|, limit);
    assert HistorySent(rows, user, limit) == Reverse(sorted[..k]);
    assert m in multiset(sorted);
    ReversedPrefixNewest(sorted, k, m);
  }

  lemma ReversedPrefixNewest(sorted: seq<Message>, k: nat, m: Message)
    requires SortedDesc(sorted, StampOf) && k <= |sorted| && m in sorted && m !in Reverse(sorted[..k])
    ensures forall i :: 0 <= i < k ==> AtLeast(StampOf(Reverse(sorted[..k])[i]), StampOf(m))
  {
    var h := Reverse(sorted[..k]);
    var j :| 0 <= j < |sorted| && sorted[j] == m;
    forall i | 0 <= i < k ensures sorted[i] != m {
      assert h[k - 1 - i] == sorted[i];
    }
    assert j >= k;
    forall i | 0 <= i < k ensures AtLeast(StampOf(h[i]), StampOf(m)) {
      assert h[i] == sorted[k - 1 - i];
    }
  }

  lemma OldestFirst(sorted: seq<Message>, k: nat)
    requires SortedDesc(sorted, StampOf) && k <= |sorted|
    ensures forall i, j :: 0 <= i < j < k ==>
      AtLeast(StampOf(Reverse(sorted[..k])[j]), StampOf(Reverse(sorted[..k])[i]))
  {
    var h := Reverse(sorted[..k]);
    forall i, j | 0 <= i < j < |h| ensures AtLeast(StampOf(h[j]), StampOf(h[i])) {
      assert h[i] == sorted[k - 1 - i] && h[j] == sorted[k - 1 - j];
    }
  }

  lemma OldestFirstMembers(rows: seq<Message>, user: int, k: nat)
    requires k <= |Newest(rows, user)|
    ensures forall i :: 0 <= i < k ==>
      Reverse(Newest(rows, user)[..k])[i] in rows && Reverse(Newest(rows, user)[..k])[i].user == user
  {
    var sorted := Newest(rows, user);
    var h := Reverse(sorted[..k]);
    ReversedPrefixMembers(sorted, k);
    forall i | 0 <= i < |h| ensures h[i] in rows && h[i].user == user {
      NewestMembers(rows, user, h[i]);
    }
  }

  lemma ReversedPrefixMembers<T>(s: seq<T>, k: nat)
    requires k <= |s|
    ensures forall i :: 0 <= i < k ==> Reverse(s[..k])[i] in s
  {
    var h := Reverse(s[..k]);
    forall i | 0 <= i < k ensures h[i] in s {
      assert h[i] == s[k - 1 - i];
    }
  }

  /** The trimming query: delete the user's rows past the newest `limit`. */
  function Trim(rows: seq<Message>, user: int, limit: nat): seq<Message>
  {
    var sorted := Newest(rows, user);
    Without(rows, IdsOf(sorted[Cut(|sorted|, limit)..]))
  }

  // ---------------------------------------------------------------------
  // Filters
  // ---------------------------------------------------------------------

  lemma {:induction false} MineWithout(rows: seq<Message>, user: int, ids: set<int>)
    ensures Mine(Without(rows, ids), user) == Without(Mine(rows, user), ids)
    decreases |rows|
  {
    if |rows| > 0 {
      var front := rows[..|rows| - 1];
      var last := rows[|rows| - 1];
      MineWithout(front, user, ids);
      var w := Without(front, ids);
      var tail := if last.id in ids then [] else [last];
      assert Without(rows, ids) == w + tail;
      MineAppend(w, tail, user);
      var mf := Mine(front, user);
      var mt := if last.user == user then [last] else [];
      assert Mine(rows, user) == mf + mt;
      WithoutAppend(mf, mt, ids);
    }
  }

  lemma {:induction false} MineAppend(a: seq<Message>, b: seq<Message>, user: int)
    ensures Mine(a + b, user) == Mine(a, user) + Mine(b, user)
    decreases |b|
  {
    if |b| == 0 {
      assert a + b == a;
    } else {
      var ab := a + b;
      var front := b[..|b| - 1];
      var last := b[|b| - 1];
      assert ab[..|ab| - 1] == a + front && ab[|ab| - 1] == last;
      MineAppend(a, front, user);
      var tail := if last.user == user then [last] else [];
      assert Mine(ab, user) == Mine(a, user) + Mine(front, user) + tail;
      assert Mine(b, user) == Mine(front, user) + tail;
    }
  }

  lemma {:induction false} WithoutAppend(a: seq<Message>, b: seq<Message>, ids: set<int>)
    ensures Without(a + b, ids) == Without(a, ids) + Without(b, ids)
    decreases |b|
  {
    if |b| == 0 {
      assert a + b == a;
    } else {
      var ab := a + b;
      var front := b[..|b| - 1];
      var last := b[|b| - 1];
      assert ab[..|ab| - 1] == a + front && ab[|ab| - 1] == last;
      WithoutAppend(a, front, ids);
      var tail := if last.id in ids then [] else [last];
      assert Without(ab, ids) == Without(a, ids) + Without(front, ids) + tail;
      assert Without(b, ids) == Without(front, ids) + tail;
    }
  }

  lemma {:induction false} WithoutNothing(s: seq<Message>, ids: set<int>)
    requires forall m :: m in s ==> m.id !in ids
    ensures Without(s, ids) == s
    decreases |s|
  {
    if |s| > 0 {
      WithoutNothing(s[..|s| - 1], ids);
    }
  }

  lemma {:induction false} WithoutAll(s: seq<Message>, ids: set<int>)
    requires forall m :: m in s ==> m.id in ids
    ensures Without(s, ids) == []
    decreases |s|
  {
    if |s| > 0 {
      WithoutAll(s[..|s| - 1], ids);
    }
  }

  /** Deleting by id counts each message as the input did, or not at all. */
  lemma {:induction false} WithoutCount(s: seq<Message>, ids: set<int>, m: Message)
    ensures multiset(Without(s, ids))[m] == if m.id in ids then 0 else multiset(s)[m]
    decreases |s|
  {
    if |s| > 0 {
      var front := s[..|s| - 1];
      WithoutCount(front, ids, m);
      assert s == front + [s[|s| - 1]];
    }
  }

  /** Deleting by id treats reorderings alike. */
  lemma WithoutPermutation(s: seq<Message>, p: seq<Message>, ids: set<int>)
    requires multiset(s) == multiset(p)
    ensures multiset(Without(s, ids)) == multiset(Without(p, ids))
  {
    forall m ensures multiset(Without(s, ids))[m] == multiset(Without(p, ids))[m] {
      WithoutCount(s, ids, m);
      WithoutCount(p, ids, m);
    }
  }

  /** Deleting the ids of a suffix of a sequence with unique ids leaves the
      prefix. */
  lemma WithoutSuffix(p: seq<Message>, k: nat)
    requires k <= |p| && Injective(p, IdOf)
    ensures Without(p, IdsOf(p[k..])) == p[..k]
  {
    var ids := IdsOf(p[k..]);
    assert p == p[..k] + p[k..];
    WithoutAppend(p[..k], p[k..], ids);
    assert forall m :: m in p[..k] ==> m.id !in ids;
    WithoutNothing(p[..k], ids);
    WithoutAll(p[k..], ids);
  }

  lemma MineInjective(rows: seq<Message>, user: int)
    requires Injective(rows, IdOf)
    ensures Injective(Mine(rows, user), IdOf)
  {
    var r := Mine(rows, user);
    forall i, j | 0 <= i < j < |r| ensures IdOf(r[i]) != IdOf(r[j]) {
      MineOrder(rows, user, i, j);
    }
  }

  /** Two positions of the filtered sequence come from two positions of the
      input in the same order. */
  lemma {:induction false} MineOrder(rows: seq<Message>, user: int, i: nat, j: nat)
    requires i < j < |Mine(rows, user)|
    ensures exists i', j' :: 0 <= i' < j' < |rows| && rows[i'] == Mine(rows, user)[i] && rows[j'] == Mine(rows, user)[j]
    decreases |rows|
  {
    var front := rows[..|rows| - 1];
    var last := rows[|rows| - 1];
    var mf := Mine(front, user);
    var r := Mine(rows, user);
    if j < |mf| {
      MineOrder(front, user, i, j);
      var i', j' :| 0 <= i' < j' < |front| && front[i'] == mf[i] && front[j'] == mf[j];
      assert rows[i'] == r[i] && rows[j'] == r[j];
    } else {
      assert r[i] in mf;
      MineMembers(front, user);
      var i' :| 0 <= i' < |front| && front[i'] == r[i];
      assert rows[i'] == r[i] && rows[|rows| - 1] == r[j];
    }
  }

  // ---------------------------------------------------------------------
  // Properties of trimming
  // ---------------------------------------------------------------------

  /** Trimming touches no other user's messages. */
  lemma TrimOthersUntouched(rows: seq<Message>, user: int, limit: nat, other: int)
    requires Injective(rows, IdOf) && other != user
    ensures Mine(Trim(rows, user, limit), other) == Mine(rows, other)
  {
    var sorted := Newest(rows, user);
    var suffix := sorted[Cut(|sorted|, limit)..];
    var ids := IdsOf(suffix);
    MineWithout(rows, other, ids);
    MineMembers(rows, other);
    forall m | m in Mine(rows, other) ensures m.id !in ids {
      forall n | n in suffix ensures n.id != m.id {
        NewestMembers(rows, user, n);
        DistinctIds(rows, m, n);
      }
    }
    WithoutNothing(Mine(rows, other), ids);
  }

  /** Different rows of a table with unique ids have different ids. */
  lemma DistinctIds(rows: seq<Message>, m: Message, n: Message)
    requires Injective(rows, IdOf) && m in rows && n in rows && m != n
    ensures m.id != n.id
  {
    var i :| 0 <= i < |rows| && rows[i] == m;
    var j :| 0 <= j < |rows| && rows[j] == n;
    if i < j {
      assert IdOf(rows[i]) != IdOf(rows[j]);
    } else {
      assert IdOf(rows[j]) != IdOf(rows[i]);
    }
  }


  /** The user's remaining messages are exactly the newest `limit` of them,
      as many as `min(count, limit)`. */
  lemma TrimKeepsNewest(rows: seq<Message>, user: int, limit: nat)
    requires Injective(rows, IdOf)
    ensures multiset(Mine(Trim(rows, user, limit), user))
            == multiset(Newest(rows, user)[..Cut(|Newest(rows, user)|, limit)])
    ensures |Mine(Trim(rows, user, limit), user)| == Min(|Mine(rows, user)|, limit)
  {
    var mine := Mine(rows, user);
    var sorted := Newest(rows, user);
    var k := Cut(|sorted|, limit);
    var ids := IdsOf(sorted[k..]);
    var kept := Mine(Trim(rows, user, limit), user);
    MineWithout(rows, user, ids);
    assert kept == Without(mine, ids);
    WithoutPermutation(mine, sorted, ids);
    MineInjective(rows, user);
    SortInjective(mine, StampOf, IdOf);
    WithoutSuffix(sorted, k);
    assert |kept| == |multiset(kept)| == |sorted[..k]|;
  }

  /** Every remaining message of the user is strictly newer than every one
      that was deleted. */
  lemma TrimDeletesOldest(rows: seq<Message>, user: int, limit: nat, a: Message, b: Message)
    requires Injective(rows, IdOf)
    requires a in Mine(Trim(rows, user, limit), user)
    requires b in Mine(rows, user) && b !in Mine(Trim(rows, user, limit), user)
    ensures AtLeast(StampOf(a), StampOf(b)) && StampOf(a) != StampOf(b)
  {
    var sorted := Newest(rows, user);
    var k := Cut(|sorted|, limit);
    var kept := Mine(Trim(rows, user, limit), user);
    assert a in sorted[..k] && b in sorted && b !in sorted[..k] by {
      TrimKeepsNewest(rows, user, limit);
      assert a in multiset(kept) && b !in multiset(kept);
      assert b in multiset(sorted);
    }
    assert Injective(sorted, IdOf) by {
      MineInjective(rows, user);
      SortInjective(Mine(rows, user), StampOf, IdOf);
    }
    PrefixBeatsRest(sorted, k, a, b);
  }

  /** In a newest-first list with unique ids, a row among the first `k` is
      strictly newer than a row outside them. */
  lemma PrefixBeatsRest(s: seq<Message>, k: nat, a: Message, b: Message)
    requires SortedDesc(s, StampOf) && Injective(s, IdOf) && k <= |s|
    requires a in s[..k] && b in s && b !in s[..k]
    ensures AtLeast(StampOf(a), StampOf(b)) && StampOf(a) != StampOf(b)
  {
    var i :| 0 <= i < k && s[..k][i] == a;
    var j :| 0 <= j < |s| && s[j] == b;
    assert IdOf(s[i]) != IdOf(s[j]);
  }

  /** Appending two messages with fresh, increasing ids keeps the store
      valid. */
  lemma AppendFresh(st: Store, q: Message, a: Message)
    requires Valid(st) && q.id == st.nextId && a.id == st.nextId + 1
    ensures Injective(st.rows + [q, a], IdOf)
    ensures forall m :: m in st.rows + [q, a] ==> m.id < st.nextId + 2
  {
    var rows := st.rows + [q, a];
    forall i, j | 0 <= i < j < |rows| ensures IdOf(rows[i]) != IdOf(rows[j]) {
      if j < |st.rows| {
        assert rows[i] == st.rows[i] && rows[j] == st.rows[j];
      } else if i < |st.rows| {
        assert rows[i] == st.rows[i];
      }
    }
  }




  /** Trimming only deletes, so ids stay unique and below any bound. */
  lemma TrimValid(rows: seq<Message>, user: int, limit: nat, bound: int)
    requires Injective(rows, IdOf) && forall m :: m in rows ==> m.id < bound
    ensures Valid(Store(Trim(rows, user, limit), bound))
    ensures forall m :: m in Trim(rows, user, limit) ==> m in rows
  {
    var sorted := Newest(rows, user);
    var ids := IdsOf(sorted[Cut(|sorted|, limit)..]);
    WithoutOrder(rows, ids);
    WithoutMembers(rows, ids);
    var t := Trim(rows, user, limit);
    assert forall i :: 0 <= i < |t| ==> t[i] in rows;
  }


  /** Deleting keeps the survivors in order, so unique ids stay unique. */
  lemma {:induction false} WithoutOrder(rows: seq<Message>, ids: set<int>)
    requires Injective(rows, IdOf)
    ensures Injective(Without(rows, ids), IdOf)
    decreases |rows|
  {
    if |rows| > 0 {
      var front := rows[..|rows| - 1];
      var last := rows[|rows| - 1];
      WithoutOrder(front, ids);
      WithoutMembers(front, ids);
      var w := Without(front, ids);
      if last.id !in ids {
        var r := w + [last];
        forall i, j | 0 <= i < j < |r| ensures IdOf(r[i]) != IdOf(r[j]) {
          if j == |w| {
            assert r[i] in front;
            var m :| 0 <= m < |front| && front[m] == r[i];
            assert rows[m] == r[i];
          } else {
            assert r[i] == w[i] && r[j] == w[j];
          }
        }
      }
    }
  }

  /** With the clock not running backwards and room for at least two
      messages, a question and answer just appended survive the trim. */
  lemma TrimKeepsExchange(st: Store, q: Message, a: Message, limit: nat)
    requires Valid(st) && q.id == st.nextId && a.id == st.nextId + 1 && q.user == a.user
    requires q.createdAt == a.createdAt && forall i :: 0 <= i < |st.rows| ==> st.rows[i].createdAt <= q.createdAt
    requires limit >= 2
    ensures q in Trim(st.rows + [q, a], q.user, limit) && a in Trim(st.rows + [q, a], q.user, limit)
  {
    var user := q.user;
    var rows := st.rows + [q, a];
    AppendFresh(st, q, a);
    var sorted := Newest(rows, user);
    NewestInjective(rows, user);
    ExchangeIsNewest(st, q, a);
    TopTwoInPrefix(sorted, q, a, Cut(|sorted|, limit));
    var kept := Mine(Trim(rows, user, limit), user);
    assert q in multiset(kept) && a in multiset(kept) by {
      TrimKeepsNewest(rows, user, limit);
    }
    MineMembers(Trim(rows, user, limit), user);
  }

  /** The user's newest-first listing of a table with unique ids has
      unique ids. */
  lemma NewestInjective(rows: seq<Message>, user: int)
    requires Injective(rows, IdOf)
    ensures Injective(Newest(rows, user), IdOf)
  {
    MineInjective(rows, user);
    SortInjective(Mine(rows, user), StampOf, IdOf);
  }

  /** The freshly stored exchange is newer than every other message of
      its user. */
  lemma ExchangeIsNewest(st: Store, q: Message, a: Message)
    requires Valid(st) && q.id == st.nextId && a.id == st.nextId + 1 && q.user == a.user
    requires q.createdAt == a.createdAt && forall i :: 0 <= i < |st.rows| ==> st.rows[i].createdAt <= q.createdAt
    ensures q in Newest(st.rows + [q, a], q.user) && a in Newest(st.rows + [q, a], q.user)
    ensures forall y :: y in Newest(st.rows + [q, a], q.user) && y != q && y != a ==>
      !AtLeast(StampOf(y), StampOf(q)) && !AtLeast(StampOf(y), StampOf(a))
  {
    var rows := st.rows + [q, a];
    var sorted := Newest(rows, q.user);
    assert q in multiset(Mine(rows, q.user)) && a in multiset(Mine(rows, q.user));
    assert q in multiset(sorted) && a in multiset(sorted);
    forall y | y in sorted && y != q && y != a
      ensures !AtLeast(StampOf(y), StampOf(q)) && !AtLeast(StampOf(y), StampOf(a))
    {
      NewestMembers(rows, q.user, y);
      assert y in st.rows;
    }
  }

  /** Two rows newer than all others stay within any prefix of two or more. */
  lemma TopTwoInPrefix(s: seq<Message>, q: Message, a: Message, k: nat)
    requires SortedDesc(s, StampOf) && Injective(s, IdOf)
    requires q in s && a in s && 2 <= k <= |s|
    requires forall y :: y in s && y != q && y != a ==>
      !AtLeast(StampOf(y), StampOf(q)) && !AtLeast(StampOf(y), StampOf(a))
    ensures q in s[..k] && a in s[..k]
  {
    InTopTwo(s, q, a, q);
    InTopTwo(s, q, a, a);
    assert forall t :: 0 <= t < 2 ==> s[..2][t] == s[..k][t];
  }

  /** In a newest-first list with unique ids, the two rows newer than all
      others sit in the first two places. */
  lemma InTopTwo(s: seq<Message>, q: Message, a: Message, x: Message)
    requires SortedDesc(s, StampOf) && Injective(s, IdOf)
    requires x == q || x == a
    requires x in s
    requires forall y :: y in s && y != q && y != a ==> !AtLeast(StampOf(y), StampOf(x))
    ensures x in s[..Min(|s|, 2)]
  {
    var j :| 0 <= j < |s| && s[j] == x;
    if j >= 2 {
      TopTwoTaken(s, q, a, j);
      assert false;
    }
    assert s[..Min(|s|, 2)][j] == x;
  }

  /** The rows ahead of a row newer than all others but `q` and `a` are
      among `q` and `a`, and distinct from it. */
  lemma TopTwoTaken(s: seq<Message>, q: Message, a: Message, j: nat)
    requires SortedDesc(s, StampOf) && Injective(s, IdOf)
    requires 2 <= j < |s|
    requires forall y :: y in s && y != q && y != a ==> !AtLeast(StampOf(y), StampOf(s[j]))
    ensures s[0] == q || s[0] == a
    ensures s[1] == q || s[1] == a
    ensures s[0] != s[1] && s[0] != s[j] && s[1] != s[j]
  {
    assert AtLeast(StampOf(s[0]), StampOf(s[j]));
    assert AtLeast(StampOf(s[1]), StampOf(s[j]));
    assert IdOf(s[0]) != IdOf(s[1]) && IdOf(s[0]) != IdOf(s[j]) && IdOf(s[1]) != IdOf(s[j]);
  }


  // ---------------------------------------------------------------------
  // Storing a reply
  // ---------------------------------------------------------------------

  /** The user's message and the assistant's answer, with the next two ids. */
  function Exchange(st: Store, user: int, text: string, reply: string, now: int): (e: seq<Message>)
    ensures |e| == 2 && e[0].id == st.nextId && e[1].id == st.nextId + 1
    ensures e[0].user == user == e[1].user && e[0].createdAt == now == e[1].createdAt
    ensures e[0].role == UserRole && e[1].role == AssistantRole
    ensures e[0].content == text && e[1].content == reply
  {
    [Message(st.nextId, user, UserRole, text, now), Message(st.nextId + 1, user, AssistantRole, reply, now)]
  }

  /** After a reply: store the user's text and then the reply, both stamped
      `now`, and trim the user's history to the newest `limit` messages. */
  function Reply(st: Store, user: int, text: string, reply: string, now: int, limit: nat): (r: Store)
    requires Valid(st)
    ensures Valid(r) && r.nextId == st.nextId + 2
    ensures forall u :: u != user ==> Mine(r.rows, u) == Mine(st.rows, u)
    ensures forall m :: m in r.rows ==> m in st.rows + Exchange(st, user, text, reply, now)
    ensures |Mine(r.rows, user)| == Min(|Mine(st.rows, user)| + 2, limit)
    ensures limit >= 2 && (forall i :: 0 <= i < |st.rows| ==> st.rows[i].createdAt <= now) ==>
              forall m :: m in Exchange(st, user, text, reply, now) ==> m in r.rows
  {
    var e := Exchange(st, user, text, reply, now);
    var rows := st.rows + e;
    AppendFresh(st, e[0], e[1]);
    assert rows == st.rows + [e[0], e[1]];
    TrimValid(rows, user, limit, st.nextId + 2);
    MineTwoMore(st.rows, e, user);
    TrimCount(rows, user, limit, |Mine(st.rows, user)| + 2);
    TrimOthersAll(st.rows, e[0], e[1], limit);
    if limit >= 2 && (forall i :: 0 <= i < |st.rows| ==> st.rows[i].createdAt <= now) then
      TrimKeepsExchange(st, e[0], e[1], limit);
      Store(Trim(rows, user, limit), st.nextId + 2)
    else
      Store(Trim(rows, user, limit), st.nextId + 2)
  }

  /** A user who had `n` messages keeps `min(n, limit)` of them. */
  lemma TrimCount(rows: seq<Message>, user: int, limit: nat, n: nat)
    requires Injective(rows, IdOf) && |Mine(rows, user)| == n
    ensures |Mine(Trim(rows, user, limit), user)| == Min(n, limit)
  {
    TrimKeepsNewest(rows, user, limit);
  }

  /** Two more messages of the user make two more rows of theirs. */
  lemma MineTwoMore(rows: seq<Message>, e: seq<Message>, user: int)
    requires |e| == 2 && e[0].user == user == e[1].user
    ensures |Mine(rows + e, user)| == |Mine(rows, user)| + 2
  {
    MineAppend(rows, e, user);
    MineOwnPair(e, user);
  }

  /** An exchange holds only its user's messages. */
  lemma MineOwnPair(e: seq<Message>, user: int)
    requires |e| == 2 && e[0].user == user == e[1].user
    ensures Mine(e, user) == e
  {
    var one := e[..1];
    assert one[..0] == [];
    assert Mine(one, user) == [e[0]];
    assert e[..|e| - 1] == one;
    assert e == [e[0]] + [e[1]];
  }

  /** Appending the exchange and trimming leaves every other user's
      messages as they were. */
  lemma TrimOthersAll(rows: seq<Message>, q: Message, a: Message, limit: nat)
    requires Injective(rows + [q, a], IdOf) && q.user == a.user
    ensures forall u :: u != q.user ==> Mine(Trim(rows + [q, a], q.user, limit), u) == Mine(rows, u)
  {
    forall u | u != q.user ensures Mine(Trim(rows + [q, a], q.user, limit), u) == Mine(rows, u) {
      TrimOthersUntouched(rows + [q, a], q.user, limit, u);
      MineAppend(rows, [q, a], u);
      MineOtherPair(q, a, u);
      assert Mine(rows, u) + [] == Mine(rows, u);
    }
  }

  /** Another user's exchange holds nothing of `u`'s. */
  lemma MineOtherPair(q: Message, a: Message, u: int)
    requires q.user == a.user && u != q.user
    ensures Mine([q, a], u) == []
  {
    assert [q, a][..1] == [q];
  }
}

=== FILE: journal.dfy ===
/** The five-minute journal window, as the handlers `journal_start` and
    `journal_capture` define it on their own: opening sets a deadline, and
    the next text message `journal_capture` receives inside it is saved as
    one journal entry. Which handler the bot dispatches a message to is not
    part of this module. */
module Journal {

  /** How long the window stays open, in seconds. */
  const Window: int := 300

  datatype Entry = Entry(user: int, text: string)

  /** `_journal_until` and the saved `JournalEntry` rows without a mood. */
  datatype State = State(until: map<int, int>, entries: seq<Entry>)

  /** `journal_start`: (re)open the window until `now + 300`. */
  function Open(st: State, user: int, now: int): (r: State)
    ensures user in r.until && r.until[user] == now + Window
    ensures r.entries == st.entries
    ensures forall u :: u != user ==> (u in r.until <==> u in st.until) && (u in st.until ==> r.until[u] == st.until[u])
  {
    State(st.until[user := now + Window], st.entries)
  }

  /** Whether `journal_capture` takes the message: a deadline must exist,
      be non-zero (Python treats `0.0` as false) and not have passed. */
  predicate InWindow(st: State, user: int, now: int)
  {
    user in st.until && st.until[user] != 0 && now <= st.until[user]
  }

  /** `journal_capture`: inside the window the text is saved and the window
      closes; outside it nothing happens. */
  function Capture(st: State, user: int, text: string, now: int): (r: (bool, State))
    ensures r.0 <==> InWindow(st, user, now)
    ensures !r.0 ==> r.1 == st
    ensures r.0 ==> r.1.entries == st.entries + [Entry(user, text)] && user !in r.1.until
    ensures forall u :: u != user ==> (u in r.1.until <==> u in st.until) && (u in st.until ==> r.1.until[u] == st.until[u])
  {
    if !InWindow(st, user, now) then (false, st)
    else (true, State(st.until - {user}, st.entries + [Entry(user, text)]))
  }

  /** A message `journal_capture` receives within five minutes of opening
      is saved, and a second one is not: at most one entry per opening. */
  lemma OneEntryPerOpening(st: State, user: int, t0: int, t1: int, t2: int, a: string, b: string)
    requires t0 <= t1 <= t0 + Window && t0 + Window != 0
    ensures var s1 := Capture(Open(st, user, t0), user, a, t1);
      && s1.0
      && s1.1.entries == st.entries + [Entry(user, a)]
      && Capture(s1.1, user, b, t2) == (false, s1.1)
  {
  }

  /** A message after the window has closed is not saved. */
  lemma LateMessageIgnored(st: State, user: int, t0: int, t1: int, a: string)
    requires t1 > t0 + Window
    ensures Capture(Open(st, user, t0), user, a, t1) == (false, Open(st, user, t0))
  {
  }

  /** The number of entries of one user. */
  function EntriesOf(entries: seq<Entry>, user: int): (n: nat)
    ensures n <= |entries|
  {
    if |entries| == 0 then 0
    else EntriesOf(entries[..|entries| - 1], user) + (if entries[|entries| - 1].user == user then 1 else 0)
  }

  /** Opening and capturing, as a sequence of events. */
  datatype Event = OpenEv(user: int, now: int) | TextEv(user: int, text: string, now: int)

  function Apply(st: State, e: Event): State
  {
    match e
    case OpenEv(u, now) => Open(st, u, now)
    case TextEv(u, text, now) => Capture(st, u, text, now).1
  }

  function Replay(st: State, es: seq<Event>): State
    decreases |es|
  {
    if |es| == 0 then st else Apply(Replay(st, es[..|es| - 1]), es[|es| - 1])
  }

  function OpensOf(es: seq<Event>, user: int): (n: nat)
  {
    if |es| == 0 then 0
    else OpensOf(es[..|es| - 1], user) + (if es[|es| - 1].OpenEv? && es[|es| - 1].user == user then 1 else 0)
  }

  lemma {:induction false} EntriesOfAppend(entries: seq<Entry>, e: Entry, user: int)
    ensures EntriesOf(entries + [e], user) == EntriesOf(entries, user) + (if e.user == user then 1 else 0)
  {
    assert (entries + [e])[..|entries|] == entries;
  }

  /** Over any run of events, a user saves at most as many entries as they
      opened windows (plus one for a window already open at the start). */
  lemma {:induction false} EntriesBoundedByOpens(st: State, es: seq<Event>, user: int)
    ensures var r := Replay(st, es);
      EntriesOf(r.entries, user) + (if user in r.until then 1 else 0)
        <= EntriesOf(st.entries, user) + (if user in st.until then 1 else 0) + OpensOf(es, user)
    decreases |es|
  {
    if |es| > 0 {
      var front := es[..|es| - 1];
      EntriesBoundedByOpens(st, front, user);
      var mid := Replay(st, front);
      var e := es[|es| - 1];
      match e
      case OpenEv(u, now) =>
      case TextEv(u, text, now) =>
        var (ok, next) := Capture(mid, u, text, now);
        if ok {
          EntriesOfAppend(mid.entries, Entry(u, text), user);
        }
    }
  }
}

=== FILE: numerals.dfy ===
/** Positional numerals over the digit alphabet `0-9a-z`, shared by the
    base-36 referral codes and the decimal amounts shown to users. */
module Numerals {

  import opened Common

  /** The characters of `_DIGITS36`: the decimal digits, then `a` to `z`. */
  predicate IsLowerDigit(c: char)
  {
    '0' <= c <= '9' || 'a' <= c <= 'z'
  }

  /** The value of a digit character as Python's `int(s, 36)` reads it:
      `0-9` then the letters in either case; anything else is no digit. */
  function CharValue(c: char): Option<nat>
  {
    if '0' <= c <= '9' then Some(c as nat - '0' as nat)
    else if 'a' <= c <= 'z' then Some(c as nat - 'a' as nat + 10)
    else if 'A' <= c <= 'Z' then Some(c as nat - 'A' as nat + 10)
    else None
  }

  /** `_DIGITS36[d]`: the character for digit value `d`, which reads back
      as `d`. */
  function DigitChar(d: nat): (c: char)
    requires d < 36
    ensures IsLowerDigit(c)
    ensures CharValue(c) == Some(d)
  {
    if d < 10 then ('0' as nat + d) as char else ('a' as nat + d - 10) as char
  }

  /** The digits of `n` in `base`, most significant first; empty for zero. */
  function DigitsOf(n: nat, base: nat): (ds: seq<nat>)
    requires 2 <= base
    ensures forall i :: 0 <= i < |ds| ==> ds[i] < base
    ensures n > 0 ==> |ds| > 0 && ds[0] != 0
    ensures n == 0 ==> ds == []
  {
    if n == 0 then [] else DigitsOf(n / base, base) + [n % base]
  }

  /** The number a most-significant-first digit sequence denotes. */
  function ValueOf(ds: seq<nat>, base: nat): nat
  {
    if |ds| == 0 then 0 else ValueOf(ds[..|ds| - 1], base) * base + ds[|ds| - 1]
  }

  /** Dividing a positive number by a base of at least two makes it smaller. */
  lemma DivShrinks(n: nat, base: nat)
    requires 2 <= base && n > 0
    ensures n / base < n
  {
  }

  /** Euclidean division by the base. */
  lemma DivMod(n: nat, base: nat)
    requires 2 <= base
    ensures n == (n / base) * base + n % base
  {
  }

  /** The value of a digit sequence extended by one digit on the right. */
  lemma ValueOfSnoc(front: seq<nat>, d: nat, base: nat)
    ensures ValueOf(front + [d], base) == ValueOf(front, base) * base + d
  {
    assert (front + [d])[..|front|] == front;
  }

  /** Reading back the digits of `n` gives `n`. */
  lemma {:induction false} ValueOfDigitsOf(n: nat, base: nat)
    requires 2 <= base
    ensures ValueOf(DigitsOf(n, base), base) == n
    decreases n
  {
    if n > 0 {
      DivShrinks(n, base);
      ValueOfDigitsOf(n / base, base);
      ValueOfSnoc(DigitsOf(n / base, base), n % base, base);
      DivMod(n, base);
    }
  }

  /** The characters spelling a digit sequence. */
  function Spell(ds: seq<nat>): (s: string)
    requires forall i :: 0 <= i < |ds| ==> ds[i] < 36
    ensures |s| == |ds|
    ensures forall i :: 0 <= i < |ds| ==> s[i] == DigitChar(ds[i])
  {
    if |ds| == 0 then "" else Spell(ds[..|ds| - 1]) + [DigitChar(ds[|ds| - 1])]
  }

  /** `n` written in `base` (2..36) with the lowercase alphabet, `"0"` for
      zero: the loop of `_to_base36` and the digits of `str(n)`. */
  function ToBase(n: nat, base: nat): (s: string)
    requires 2 <= base <= 36
    ensures |s| > 0
    ensures forall i :: 0 <= i < |s| ==> IsLowerDigit(s[i]) && CharValue(s[i]).value < base
    ensures s[0] == '0' <==> n == 0
    ensures n == 0 ==> s == "0"
  {
    if n == 0 then "0" else Spell(DigitsOf(n, base))
  }
}

=== FILE: portal.dfy ===
/** The referral portal's ledger: users with a bonus balance and an
    optional subscription end, referrals with a unique referee, and an
    append-only list of bonus events. Every operation is one request's
    worth of writes; an `Err` result means the request raises and its
    writes are rolled back, so the caller keeps the old state. Time is an
    integer `now` counted in days; generated identifiers are parameters. */
module Portal {

  import opened Common

  /** A UUID primary key. */
  type Uuid = int

  /** Bonus sizes and the per-IP registration limit. */
  datatype Settings = Settings(registrationDays: int, subscriptionDays: int, maxPerIp: int)

  /** Three days for a registration, seven for a first subscription, one
      registration per IP and referrer. */
  const Defaults := Settings(3, 7, 1)

  datatype User = User(
    id: Uuid,
    email: string,
    name: string,
    passwordHash: string,
    code: Option<string>,
    referredBy: Option<Uuid>,
    subscriptionEnd: Option<int>,
    balance: int)

  datatype Referral = Referral(
    id: Uuid,
    referrer: Uuid,
    referee: Uuid,
    ip: string,
    registeredAt: int,
    registrationDays: int,
    subscriptionAwarded: bool,
    subscriptionDays: int,
    subscriptionAwardedAt: Option<int>)

  /** The two `event_type` values the program writes. */
  datatype EventKind = Registration | Subscription

  datatype BonusEvent = BonusEvent(user: Uuid, referral: Option<Uuid>, kind: EventKind, days: int, createdAt: int)

  datatype Db = Db(users: seq<User>, referrals: seq<Referral>, events: seq<BonusEvent>)

  /** Why a request raises. The first four are `ValueError`s with a message;
      `IdTaken` is the primary-key violation a colliding generated id
      would cause at flush time. */
  datatype Error = EmailTaken | CodeNotFound | IpLimit | ReferrerMissing | IdTaken

  // ---------------------------------------------------------------------
  // Lookups (`scalar_one_or_none` over one column)
  // ---------------------------------------------------------------------

  // The four lookups below are the same linear scan from the newest row,
  // each over a different column; `AdminStore.Find` is the same scan over
  // the admin bot's `user_id`. They stay separate because each column has
  // its own type and its own uniqueness invariant.

  function UserIndex(users: seq<User>, id: Uuid): (r: Option<nat>)
    ensures r.Some? ==> r.value < |users| && users[r.value].id == id
    ensures r.None? <==> forall k :: 0 <= k < |users| ==> users[k].id != id
  {
    if |users| == 0 then None
    else if users[|users| - 1].id == id then Some(|users| - 1)
    else UserIndex(users[..|users| - 1], id)
  }

  function EmailIndex(users: seq<User>, email: string): (r: Option<nat>)
    ensures r.Some? ==> r.value < |users| && users[r.value].email == email
    ensures r.None? <==> forall k :: 0 <= k < |users| ==> users[k].email != email
  {
    if |users| == 0 then None
    else if users[|users| - 1].email == email then Some(|users| - 1)
    else EmailIndex(users[..|users| - 1], email)
  }

  function CodeIndex(users: seq<User>, code: string): (r: Option<nat>)
    ensures r.Some? ==> r.value < |users| && users[r.value].code == Some(code)
    ensures r.None? <==> forall k :: 0 <= k < |users| ==> users[k].code != Some(code)
  {
    if |users| == 0 then None
    else if users[|users| - 1].code == Some(code) then Some(|users| - 1)
    else CodeIndex(users[..|users| - 1], code)
  }

  function RefereeIndex(refs: seq<Referral>, referee: Uuid): (r: Option<nat>)
    ensures r.Some? ==> r.value < |refs| && refs[r.value].referee == referee
    ensures r.None? <==> forall k :: 0 <= k < |refs| ==> refs[k].referee != referee
  {
    if |refs| == 0 then None
    else if refs[|refs| - 1].referee == referee then Some(|refs| - 1)
    else RefereeIndex(refs[..|refs| - 1], referee)
  }

  function ReferralIdTaken(refs: seq<Referral>, id: Uuid): (b: bool)
    ensures b <==> exists k :: 0 <= k < |refs| && refs[k].id == id
  {
    if |refs| == 0 then false
    else refs[|refs| - 1].id == id || ReferralIdTaken(refs[..|refs| - 1], id)
  }

  /** `COUNT(*)` of the referrer's referrals registered from `ip`. */
  function CountFromIp(refs: seq<Referral>, referrer: Uuid, ip: string): (n: nat)
    ensures n <= |refs|
    ensures n == 0 <==> forall k :: 0 <= k < |refs| ==> !(refs[k].referrer == referrer && refs[k].ip == ip)
  {
    if |refs| == 0 then 0
    else
      var last := refs[|refs| - 1];
      CountFromIp(refs[..|refs| - 1], referrer, ip) + (if last.referrer == referrer && last.ip == ip then 1 else 0)
  }

  // ---------------------------------------------------------------------
  // Ledger sums
  // ---------------------------------------------------------------------

  /** The days of all events credited to `user`. */
  function SumDays(events: seq<BonusEvent>, user: Uuid): int
  {
    if |events| == 0 then 0
    else
      var last := events[|events| - 1];
      SumDays(events[..|events| - 1], user) + (if last.user == user then last.days else 0)
  }

  lemma SumDaysAppend(events: seq<BonusEvent>, e: BonusEvent, user: Uuid)
    ensures SumDays(events + [e], user) == SumDays(events, user) + (if e.user == user then e.days else 0)
  {
    assert (events + [e])[..|events|] == events;
  }

  lemma {:induction false} SumDaysNone(events: seq<BonusEvent>, user: Uuid)
    requires forall k :: 0 <= k < |events| ==> events[k].user != user
    ensures SumDays(events, user) == 0
    decreases |events|
  {
    if |events| > 0 {
      SumDaysNone(events[..|events| - 1], user);
    }
  }

  /** How many subscription events name referral `rid`. */
  function CountSubscription(events: seq<BonusEvent>, rid: Uuid): nat
  {
    if |events| == 0 then 0
    else
      var last := events[|events| - 1];
      CountSubscription(events[..|events| - 1], rid) + (if last.kind == Subscription && last.referral == Some(rid) then 1 else 0)
  }

  lemma {:induction false} CountSubscriptionNone(events: seq<BonusEvent>, rid: Uuid)
    requires forall k :: 0 <= k < |events| && events[k].kind == Subscription ==> events[k].referral != Some(rid)
    ensures CountSubscription(events, rid) == 0
    decreases |events|
  {
    if |events| > 0 {
      CountSubscriptionNone(events[..|events| - 1], rid);
    }
  }

  lemma CountSubscriptionAppend(events: seq<BonusEvent>, e: BonusEvent, rid: Uuid)
    ensures CountSubscription(events + [e], rid)
            == CountSubscription(events, rid) + (if e.kind == Subscription && e.referral == Some(rid) then 1 else 0)
  {
    assert (events + [e])[..|events|] == events;
  }

  // ---------------------------------------------------------------------
  // Invariants
  // ---------------------------------------------------------------------

  /** Primary key, unique email and unique referral code. */
  predicate UsersUnique(users: seq<User>)
  {
    forall a, b :: 0 <= a < b < |users| ==>
      && users[a].id != users[b].id
      && users[a].email != users[b].email
      && (users[a].code.Some? ==> users[a].code != users[b].code)
  }

  /** Referral primary key, unique referee, and foreign keys into users;
      nobody refers themselves. */
  predicate ReferralsSound(db: Db)
  {
    && (forall a, b :: 0 <= a < b < |db.referrals| ==>
          db.referrals[a].id != db.referrals[b].id && db.referrals[a].referee != db.referrals[b].referee)
    && (forall k :: 0 <= k < |db.referrals| ==>
          && UserIndex(db.users, db.referrals[k].referrer).Some?
          && UserIndex(db.users, db.referrals[k].referee).Some?
          && db.referrals[k].referrer != db.referrals[k].referee)
  }

  /** Every event belongs to a user, and every balance is the sum of that
      user's events. */
  predicate BalancesMatch(db: Db)
  {
    && (forall k :: 0 <= k < |db.events| ==> UserIndex(db.users, db.events[k].user).Some?)
    && (forall a :: 0 <= a < |db.users| ==> db.users[a].balance == SumDays(db.events, db.users[a].id))
  }

  /** Every subscription event names an existing referral, and a referral
      has one such event if its subscription bonus was marked awarded with a
      positive number of days, and none otherwise. */
  predicate SubscriptionPaidOnce(db: Db)
  {
    && (forall k :: 0 <= k < |db.events| && db.events[k].kind == Subscription ==>
          db.events[k].referral.Some? && ReferralIdTaken(db.referrals, db.events[k].referral.value))
    && (forall k :: 0 <= k < |db.referrals| ==>
          CountSubscription(db.events, db.referrals[k].id)
            == if db.referrals[k].subscriptionAwarded && db.referrals[k].subscriptionDays > 0 then 1 else 0)
  }

  predicate Valid(db: Db)
  {
    UsersUnique(db.users) && ReferralsSound(db) && BalancesMatch(db) && SubscriptionPaidOnce(db)
  }

  /** The empty database. */
  lemma EmptyValid()
    ensures Valid(Db([], [], []))
  {
  }

  lemma UserIndexUnique(users: seq<User>, k: nat)
    requires UsersUnique(users) && k < |users|
    ensures UserIndex(users, users[k].id) == Some(k)
  {
    var f := UserIndex(users, users[k].id).value;
    assert users[f].id == users[k].id;
  }

  // ---------------------------------------------------------------------
  // award_bonus_days
  // ---------------------------------------------------------------------

  /** The subscription end after adding `days`: counted from the current
      end while it is still in the future, from `now` otherwise. */
  function Extend(end: Option<int>, now: int, days: int): (e: int)
    ensures e - days == Max(now, if end.Some? then end.value else now)
    ensures days > 0 ==> e > now
  {
    if end.Some? && end.value > now then end.value + days else now + days
  }

  /** `award_bonus_days` for the user at index `i`: nothing for `days <= 0`;
      otherwise the balance grows by `days`, the subscription is extended by
      as much, and one event is appended. */
  function AwardBonusDays(db: Db, i: nat, days: int, kind: EventKind, referral: Option<Uuid>, now: int): (r: Db)
    requires i < |db.users|
    ensures days <= 0 ==> r == db
    ensures days > 0 ==>
      && |r.users| == |db.users| && r.referrals == db.referrals
      && r.users[i] == db.users[i].(balance := db.users[i].balance + days,
                                    subscriptionEnd := Some(Extend(db.users[i].subscriptionEnd, now, days)))
      && (forall a :: 0 <= a < |db.users| && a != i ==> r.users[a] == db.users[a])
      && r.events == db.events + [BonusEvent(db.users[i].id, referral, kind, days, now)]
  {
    if days <= 0 then db
    else
      var u := db.users[i];
      var u' := u.(balance := u.balance + days, subscriptionEnd := Some(Extend(u.subscriptionEnd, now, days)));
      Db(db.users[i := u'], db.referrals, db.events + [BonusEvent(u.id, referral, kind, days, now)])
  }

  /** A user's row after `award_bonus_days`: unchanged for `days <= 0`,
      otherwise `days` more balance and a subscription extended by as much. */
  function Rewarded(u: User, days: int, now: int): User
  {
    if days <= 0 then u
    else u.(balance := u.balance + days, subscriptionEnd := Some(Extend(u.subscriptionEnd, now, days)))
  }

  /** An award keeps every balance equal to the sum of its events. */
  lemma AwardKeepsBalances(db: Db, i: nat, days: int, kind: EventKind, referral: Option<Uuid>, now: int)
    requires i < |db.users| && UsersUnique(db.users) && BalancesMatch(db)
    ensures BalancesMatch(AwardBonusDays(db, i, days, kind, referral, now))
  {
    if days > 0 {
      var r := AwardBonusDays(db, i, days, kind, referral, now);
      var e := BonusEvent(db.users[i].id, referral, kind, days, now);
      forall a | 0 <= a < |r.users| ensures r.users[a].balance == SumDays(r.events, r.users[a].id) {
        SumDaysAppend(db.events, e, db.users[a].id);
        if a != i {
          assert db.users[a].id != db.users[i].id;
        }
      }
      forall k | 0 <= k < |r.events| ensures UserIndex(r.users, r.events[k].user).Some? {
        if k < |db.events| {
          var f := UserIndex(db.users, db.events[k].user).value;
          assert r.users[f].id == db.events[k].user;
        } else {
          assert r.users[i].id == e.user;
        }
      }
    }
  }

  /** An award with no subscription event leaves the per-referral counts of
      subscription events alone. */
  lemma AwardKeepsSubscriptionCounts(db: Db, i: nat, days: int, kind: EventKind, referral: Option<Uuid>, now: int, rid: Uuid)
    requires i < |db.users| && (kind == Subscription ==> referral != Some(rid))
    ensures CountSubscription(AwardBonusDays(db, i, days, kind, referral, now).events, rid)
            == CountSubscription(db.events, rid)
  {
    if days > 0 {
      CountSubscriptionAppend(db.events, BonusEvent(db.users[i].id, referral, kind, days, now), rid);
    }
  }

  // ---------------------------------------------------------------------
  // register_user
  // ---------------------------------------------------------------------

  /** A referral code counts only when present and non-empty. */
  predicate HasCode(code: Option<string>)
  {
    code.Some? && |code.value| > 0
  }

  /** What `register_user` returns besides the new user: the days awarded
      to the referrer and the referrer's id. */
  datatype Registered = Registered(db: Db, awardedDays: int, referrer: Option<Uuid>)

  /** `register_user`. The new user is written first (and has no code, so the
      code lookup cannot find them); with a code, the referrer is looked up,
      the per-IP limit checked, a referral written and the referrer awarded
      the registration days. */
  function Register(db: Db, cfg: Settings, email: string, name: string, passwordHash: string,
                    code: Option<string>, ip: string, newId: Uuid, referralId: Uuid, now: int): (r: Result<Registered, Error>)
    ensures r == Err(EmailTaken) <==> EmailIndex(db.users, email).Some?
    ensures r == Err(CodeNotFound) <==>
      EmailIndex(db.users, email).None? && UserIndex(db.users, newId).None? && HasCode(code)
      && CodeIndex(db.users, code.value).None?
    ensures r == Err(IpLimit) <==>
      EmailIndex(db.users, email).None? && UserIndex(db.users, newId).None? && HasCode(code)
      && CodeIndex(db.users, code.value).Some?
      && CountFromIp(db.referrals, db.users[CodeIndex(db.users, code.value).value].id, ip) >= cfg.maxPerIp
    ensures r.Ok? <==>
      && EmailIndex(db.users, email).None? && UserIndex(db.users, newId).None?
      && (HasCode(code) ==>
            && CodeIndex(db.users, code.value).Some?
            && CountFromIp(db.referrals, db.users[CodeIndex(db.users, code.value).value].id, ip) < cfg.maxPerIp
            && !ReferralIdTaken(db.referrals, referralId))
    ensures r.Ok? ==>
      && |r.value.db.users| == |db.users| + 1
      && r.value.db.users[|db.users|] == User(newId, email, name, passwordHash, None, r.value.referrer, None, 0)
      && (r.value.referrer.Some? <==> HasCode(code))
    ensures r.Ok? && !HasCode(code) ==>
      r.value == Registered(Db(db.users + [User(newId, email, name, passwordHash, None, None, None, 0)], db.referrals, db.events), 0, None)
    ensures r.Ok? && HasCode(code) ==> CodeIndex(db.users, code.value).Some?
    ensures r.Ok? && HasCode(code) && CodeIndex(db.users, code.value).Some? ==>
      var k := CodeIndex(db.users, code.value).value;
      && r.value.referrer == Some(db.users[k].id)
      && r.value.awardedDays == cfg.registrationDays
      && r.value.db.referrals == db.referrals + [Referral(referralId, db.users[k].id, newId, ip, now, cfg.registrationDays, false, 0, None)]
      && r.value.db.users[k].balance == db.users[k].balance + Max(0, cfg.registrationDays)
      && r.value.db.users[k] == Rewarded(db.users[k], cfg.registrationDays, now)
      && (forall a :: 0 <= a < |db.users| && a != k ==> r.value.db.users[a] == db.users[a])
      && r.value.db.events == db.events +
           (if cfg.registrationDays > 0 then [BonusEvent(db.users[k].id, Some(referralId), Registration, cfg.registrationDays, now)] else [])
  {
    if EmailIndex(db.users, email).Some? then Err(EmailTaken)
    else if UserIndex(db.users, newId).Some? then Err(IdTaken)
    else
      var user := User(newId, email, name, passwordHash, None, None, None, 0);
      if !HasCode(code) then Ok(Registered(db.(users := db.users + [user]), 0, None))
      else
        match CodeIndex(db.users, code.value)
        case None => Err(CodeNotFound)
        case Some(k) =>
          var referrer := db.users[k];
          if CountFromIp(db.referrals, referrer.id, ip) >= cfg.maxPerIp then Err(IpLimit)
          else if ReferralIdTaken(db.referrals, referralId) then Err(IdTaken)
          else
            var referral := Referral(referralId, referrer.id, newId, ip, now, cfg.registrationDays, false, 0, None);
            var db1 := Db(db.users + [user.(referredBy := Some(referrer.id))], db.referrals + [referral], db.events);
            Ok(Registered(AwardBonusDays(db1, k, cfg.registrationDays, Registration, Some(referralId), now),
                          cfg.registrationDays, Some(referrer.id)))
  }

  // ---------------------------------------------------------------------
  // Writes that keep the invariants
  // ---------------------------------------------------------------------

  /** Adding a user with a fresh id and email, no code and no balance. */
  lemma AddUserValid(db: Db, u: User)
    requires Valid(db) && UserIndex(db.users, u.id).None? && EmailIndex(db.users, u.email).None?
    requires u.code.None? && u.balance == 0
    ensures Valid(db.(users := db.users + [u]))
  {
    var r := db.(users := db.users + [u]);
    AddUserUnique(db.users, u);
    UserIndexGrows(db.users, u);
    assert ReferralsSound(r);
    SumDaysNone(db.events, u.id);
    forall a | 0 <= a < |r.users| ensures r.users[a].balance == SumDays(r.events, r.users[a].id) {
      if a < |db.users| {
        assert r.users[a] == db.users[a];
      }
    }
    assert BalancesMatch(r);
    assert SubscriptionPaidOnce(r);
  }

  lemma AddUserUnique(users: seq<User>, u: User)
    requires UsersUnique(users) && UserIndex(users, u.id).None? && EmailIndex(users, u.email).None? && u.code.None?
    ensures UsersUnique(users + [u])
  {
    var r := users + [u];
    forall a, b | 0 <= a < b < |r|
      ensures r[a].id != r[b].id && r[a].email != r[b].email && (r[a].code.Some? ==> r[a].code != r[b].code)
    {
      assert r[a] == users[a];
      if b == |users| {
        assert r[b] == u;
      } else {
        assert r[b] == users[b];
      }
    }
  }

  /** Adding a user keeps every id that was found findable. */
  lemma UserIndexGrows(users: seq<User>, u: User)
    ensures forall x :: UserIndex(users, x).Some? ==> UserIndex(users + [u], x).Some?
  {
    forall x | UserIndex(users, x).Some? ensures UserIndex(users + [u], x).Some? {
      var k := UserIndex(users, x).value;
      assert (users + [u])[k].id == x;
    }
  }

  /** Adding a not yet rewarded referral with a fresh id and referee between
      two existing users. */
  lemma AddReferralValid(db: Db, ref: Referral)
    requires Valid(db) && !ReferralIdTaken(db.referrals, ref.id) && RefereeIndex(db.referrals, ref.referee).None?
    requires UserIndex(db.users, ref.referrer).Some? && UserIndex(db.users, ref.referee).Some?
    requires ref.referrer != ref.referee && !ref.subscriptionAwarded
    ensures Valid(db.(referrals := db.referrals + [ref]))
  {
    AddReferralSound(db, ref);
    AddReferralPaidOnce(db, ref);
  }

  lemma AddReferralSound(db: Db, ref: Referral)
    requires ReferralsSound(db) && !ReferralIdTaken(db.referrals, ref.id) && RefereeIndex(db.referrals, ref.referee).None?
    requires UserIndex(db.users, ref.referrer).Some? && UserIndex(db.users, ref.referee).Some?
    requires ref.referrer != ref.referee
    ensures ReferralsSound(db.(referrals := db.referrals + [ref]))
  {
    var r := db.(referrals := db.referrals + [ref]);
    forall a, b | 0 <= a < b < |r.referrals|
      ensures r.referrals[a].id != r.referrals[b].id && r.referrals[a].referee != r.referrals[b].referee
    {
      if b < |db.referrals| {
        assert r.referrals[a] == db.referrals[a] && r.referrals[b] == db.referrals[b];
      } else {
        assert r.referrals[a] == db.referrals[a] && r.referrals[b] == ref;
      }
    }
  }

  lemma AddReferralPaidOnce(db: Db, ref: Referral)
    requires SubscriptionPaidOnce(db) && !ReferralIdTaken(db.referrals, ref.id) && !ref.subscriptionAwarded
    ensures SubscriptionPaidOnce(db.(referrals := db.referrals + [ref]))
  {
    var r := db.(referrals := db.referrals + [ref]);
    forall k | 0 <= k < |db.events| && db.events[k].kind == Subscription
      ensures ReferralIdTaken(r.referrals, db.events[k].referral.value)
      ensures db.events[k].referral != Some(ref.id)
    {
      var rid := db.events[k].referral.value;
      var m :| 0 <= m < |db.referrals| && db.referrals[m].id == rid;
      assert r.referrals[m].id == rid;
    }
    CountSubscriptionNone(db.events, ref.id);
    assert forall k :: 0 <= k < |db.referrals| ==> r.referrals[k] == db.referrals[k];
  }

  /** A registration award keeps the invariants. */
  lemma AwardRegistrationValid(db: Db, i: nat, days: int, referral: Option<Uuid>, now: int)
    requires Valid(db) && i < |db.users|
    ensures Valid(AwardBonusDays(db, i, days, Registration, referral, now))
  {
    if days > 0 {
      var r := AwardBonusDays(db, i, days, Registration, referral, now);
      AwardKeepsBalances(db, i, days, Registration, referral, now);
      AwardKeepsKeys(db, i, days, Registration, referral, now);
      AwardRegistrationPaidOnce(db, i, days, referral, now);
    }
  }

  /** A registration event is no subscription event: the per-referral
      counts stay as they were. */
  lemma AwardRegistrationPaidOnce(db: Db, i: nat, days: int, referral: Option<Uuid>, now: int)
    requires SubscriptionPaidOnce(db) && i < |db.users|
    ensures SubscriptionPaidOnce(AwardBonusDays(db, i, days, Registration, referral, now))
  {
    var r := AwardBonusDays(db, i, days, Registration, referral, now);
    forall k | 0 <= k < |r.referrals| ensures
      CountSubscription(r.events, r.referrals[k].id) == CountSubscription(db.events, db.referrals[k].id)
    {
      AwardKeepsSubscriptionCounts(db, i, days, Registration, referral, now, db.referrals[k].id);
    }
    forall k | 0 <= k < |r.events| && r.events[k].kind == Subscription
      ensures r.events[k].referral.Some? && ReferralIdTaken(r.referrals, r.events[k].referral.value)
    {
      assert k < |db.events| && r.events[k] == db.events[k];
    }
  }

  /** An award changes no id, email or code, so the keys and the foreign
      keys of referrals stay sound. */
  lemma AwardKeepsKeys(db: Db, i: nat, days: int, kind: EventKind, referral: Option<Uuid>, now: int)
    requires UsersUnique(db.users) && ReferralsSound(db) && i < |db.users|
    ensures UsersUnique(AwardBonusDays(db, i, days, kind, referral, now).users)
    ensures ReferralsSound(AwardBonusDays(db, i, days, kind, referral, now))
  {
    var r := AwardBonusDays(db, i, days, kind, referral, now);
    SameKeys(db.users, r.users);
  }

  /** Looking up an id depends on the ids only. */
  lemma {:induction false} UserIndexSameIds(a: seq<User>, b: seq<User>, x: Uuid)
    requires |a| == |b| && forall k :: 0 <= k < |a| ==> a[k].id == b[k].id
    ensures UserIndex(a, x) == UserIndex(b, x)
    decreases |a|
  {
    if |a| > 0 {
      UserIndexSameIds(a[..|a| - 1], b[..|b| - 1], x);
    }
  }

  /** Two user tables with the same keys row by row. */
  lemma SameKeys(a: seq<User>, b: seq<User>)
    requires |a| == |b|
    requires forall k :: 0 <= k < |a| ==> a[k].id == b[k].id && a[k].email == b[k].email && a[k].code == b[k].code
    ensures UsersUnique(a) ==> UsersUnique(b)
    ensures forall x :: UserIndex(a, x).Some? <==> UserIndex(b, x).Some?
  {
    SameIds(a, b);
  }

  /** Two user tables with the same ids row by row find the same ids. */
  lemma SameIds(a: seq<User>, b: seq<User>)
    requires |a| == |b| && forall k :: 0 <= k < |a| ==> a[k].id == b[k].id
    ensures forall x :: UserIndex(a, x).Some? <==> UserIndex(b, x).Some?
  {
    forall x ensures UserIndex(a, x).Some? <==> UserIndex(b, x).Some? {
      if UserIndex(a, x).Some? {
        assert b[UserIndex(a, x).value].id == x;
      }
      if UserIndex(b, x).Some? {
        assert a[UserIndex(b, x).value].id == x;
      }
    }
  }

  /** A successful registration keeps the invariants. */
  lemma RegisterValid(db: Db, cfg: Settings, email: string, name: string, passwordHash: string,
                      code: Option<string>, ip: string, newId: Uuid, referralId: Uuid, now: int)
    requires Valid(db)
    requires Register(db, cfg, email, name, passwordHash, code, ip, newId, referralId, now).Ok?
    ensures Valid(Register(db, cfg, email, name, passwordHash, code, ip, newId, referralId, now).value.db)
  {
    var user := User(newId, email, name, passwordHash, None, None, None, 0);
    if !HasCode(code) {
      AddUserValid(db, user);
    } else {
      var k := CodeIndex(db.users, code.value).value;
      var referrer := db.users[k];
      var u' := user.(referredBy := Some(referrer.id));
      AddUserValid(db, u');
      var db0 := db.(users := db.users + [u']);
      var referral := Referral(referralId, referrer.id, newId, ip, now, cfg.registrationDays, false, 0, None);
      assert RefereeIndex(db.referrals, newId).None? by {
        forall j | 0 <= j < |db.referrals| ensures db.referrals[j].referee != newId {
          assert UserIndex(db.users, db.referrals[j].referee).Some?;
        }
      }
      assert UserIndex(db0.users, referrer.id).Some? by {
        assert db0.users[k].id == referrer.id;
      }
      assert UserIndex(db0.users, newId).Some? by {
        assert db0.users[|db.users|].id == newId;
      }
      AddReferralValid(db0, referral);
      var db1 := Db(db.users + [u'], db.referrals + [referral], db.events);
      assert db1 == db0.(referrals := db0.referrals + [referral]);
      AwardRegistrationValid(db1, k, cfg.registrationDays, Some(referralId), now);
    }
  }

  // ---------------------------------------------------------------------
  // ensure_user_referral_code
  // ---------------------------------------------------------------------

  /** The first ten characters of a UUID4's hex form. */
  predicate IsHexCode(c: string)
  {
    |c| == 10 && forall k :: 0 <= k < |c| ==> c[k] in "0123456789abcdef"
  }

  /** What `generate_referral_code` returns: it draws until it hits a code
      no user holds. */
  predicate FreshCode(db: Db, c: string)
  {
    IsHexCode(c) && CodeIndex(db.users, c).None?
  }

  /** `ensure_user_referral_code` for the user at index `i`: a non-empty
      code is returned as it is; otherwise the newly drawn code is stored
      and returned. */
  function EnsureCode(db: Db, i: nat, drawn: string): (r: (string, Db))
    requires i < |db.users| && FreshCode(db, drawn)
    ensures |r.0| > 0 && |r.1.users| == |db.users| && r.1.users[i].code == Some(r.0)
    ensures r.1.referrals == db.referrals && r.1.events == db.events
    ensures forall a :: 0 <= a < |db.users| && a != i ==> r.1.users[a] == db.users[a]
    ensures r.1.users[i] == db.users[i].(code := r.1.users[i].code)
    ensures HasCode(db.users[i].code) ==> r == (db.users[i].code.value, db)
    ensures !HasCode(db.users[i].code) ==> r.0 == drawn
  {
    var u := db.users[i];
    if HasCode(u.code) then (u.code.value, db)
    else (drawn, db.(users := db.users[i := u.(code := Some(drawn))]))
  }

  /** Asking twice gives the same code and the second call writes nothing,
      whatever code the second draw would have produced. */
  lemma EnsureCodeIdempotent(db: Db, i: nat, drawn: string, drawn2: string)
    requires i < |db.users| && FreshCode(db, drawn) && FreshCode(EnsureCode(db, i, drawn).1, drawn2)
    ensures EnsureCode(EnsureCode(db, i, drawn).1, i, drawn2) == EnsureCode(db, i, drawn)
  {
  }

  /** Storing a drawn code keeps codes unique and the rest of the invariants. */
  lemma EnsureCodeValid(db: Db, i: nat, drawn: string)
    requires Valid(db) && i < |db.users| && FreshCode(db, drawn)
    ensures Valid(EnsureCode(db, i, drawn).1)
  {
    var r := EnsureCode(db, i, drawn).1;
    if r != db {
      assert forall a :: 0 <= a < |db.users| ==> r.users[a].id == db.users[a].id;
      StoreCodeUnique(db.users, r.users, i, drawn);
      SameIdsSameSums(db, r);
      SameIds(db.users, r.users);
    }
  }

  /** Giving one user a code no one holds keeps codes unique. */
  lemma StoreCodeUnique(users: seq<User>, r: seq<User>, i: nat, drawn: string)
    requires UsersUnique(users) && i < |users| && CodeIndex(users, drawn).None?
    requires r == users[i := users[i].(code := Some(drawn))]
    ensures UsersUnique(r)
  {
    forall a, b | 0 <= a < b < |r|
      ensures r[a].id != r[b].id && r[a].email != r[b].email && (r[a].code.Some? ==> r[a].code != r[b].code)
    {
      if a != i && b != i {
        assert r[a] == users[a] && r[b] == users[b];
      } else if a == i {
        assert r[b] == users[b];
      } else {
        assert r[a] == users[a];
      }
    }
  }

  /** Rewriting users without touching ids or balances keeps the balance
      invariant's sums. */
  lemma SameIdsSameSums(db: Db, r: Db)
    requires BalancesMatch(db) && r.events == db.events && |r.users| == |db.users|
    requires forall a :: 0 <= a < |db.users| ==> r.users[a].id == db.users[a].id && r.users[a].balance == db.users[a].balance
    ensures forall a :: 0 <= a < |r.users| ==> r.users[a].balance == SumDays(r.events, r.users[a].id)
  {
  }

  // ---------------------------------------------------------------------
  // process_successful_subscription
  // ---------------------------------------------------------------------

  /** What `process_successful_subscription` returns: the subscriber's new
      end, whether the referrer was rewarded, and the referrer's id. */
  datatype Subscribed = Subscribed(db: Db, subscriptionEnd: int, referrerAwarded: bool, referrer: Option<Uuid>)

  /** The subscriber at index `i` with `subscription_end` extended by
      `planDays`. */
  function ExtendSubscriber(db: Db, i: nat, planDays: int, now: int): (r: Db)
    requires i < |db.users|
    ensures |r.users| == |db.users| && r.referrals == db.referrals && r.events == db.events
    ensures r.users[i] == db.users[i].(subscriptionEnd := Some(Extend(db.users[i].subscriptionEnd, now, planDays)))
    ensures forall a :: 0 <= a < |db.users| && a != i ==> r.users[a] == db.users[a]
  {
    var s := db.users[i];
    db.(users := db.users[i := s.(subscriptionEnd := Some(Extend(s.subscriptionEnd, now, planDays)))])
  }

  /** The referral whose subscription bonus is still owed for this
      subscriber: the subscriber was referred, their referral exists and its
      bonus is not yet awarded. */
  function Owed(db: Db, subscriber: User): (j: Option<nat>)
    ensures j.Some? ==> j.value < |db.referrals| && db.referrals[j.value].referee == subscriber.id
    ensures j.Some? <==> subscriber.referredBy.Some? && RefereeIndex(db.referrals, subscriber.id).Some?
                         && !db.referrals[RefereeIndex(db.referrals, subscriber.id).value].subscriptionAwarded
  {
    if subscriber.referredBy.None? then None
    else
      match RefereeIndex(db.referrals, subscriber.id)
      case None => None
      case Some(j) => if db.referrals[j].subscriptionAwarded then None else Some(j)
  }

  /** `process_successful_subscription` for the subscriber at index `i`.
      The end is extended by `planDays`; if a bonus is owed, the referral is
      marked awarded with the subscription days and the referrer is awarded
      them; a referrer who is not in the table makes the request raise. */
  function ProcessSubscription(db: Db, cfg: Settings, i: nat, planDays: int, now: int): (r: Result<Subscribed, Error>)
    requires i < |db.users| && planDays > 0
    ensures r.Err? <==> Owed(db, db.users[i]).Some? && UserIndex(db.users, db.referrals[Owed(db, db.users[i]).value].referrer).None?
    ensures r.Err? ==> r.error == ReferrerMissing
    ensures r.Ok? ==> (r.value.referrerAwarded <==> Owed(db, db.users[i]).Some?)
    ensures r.Ok? && !r.value.referrerAwarded ==>
      r.value == Subscribed(ExtendSubscriber(db, i, planDays, now), Extend(db.users[i].subscriptionEnd, now, planDays), false, None)
    ensures r.Ok? && r.value.referrerAwarded ==>
      var j := Owed(db, db.users[i]).value;
      && |r.value.db.referrals| == |db.referrals|
      && r.value.db.referrals[j] == db.referrals[j].(subscriptionAwarded := true, subscriptionDays := cfg.subscriptionDays, subscriptionAwardedAt := Some(now))
      && (forall m :: 0 <= m < |db.referrals| && m != j ==> r.value.db.referrals[m] == db.referrals[m])
      && r.value.referrer == Some(db.referrals[j].referrer)
      && UserIndex(db.users, db.referrals[j].referrer).Some?
      && (var k := UserIndex(db.users, db.referrals[j].referrer).value;
          var extended := db.users[i].(subscriptionEnd := Some(Extend(db.users[i].subscriptionEnd, now, planDays)));
          && |r.value.db.users| == |db.users|
          && (k != i ==> r.value.db.users[i] == extended && r.value.subscriptionEnd == Extend(db.users[i].subscriptionEnd, now, planDays))
          && r.value.db.users[k] == Rewarded(if k == i then extended else db.users[k], cfg.subscriptionDays, now)
          && r.value.db.users[i].subscriptionEnd == Some(r.value.subscriptionEnd)
          && (forall a :: 0 <= a < |db.users| && a != i && a != k ==> r.value.db.users[a] == db.users[a]))
      && r.value.db.events == db.events + (if cfg.subscriptionDays > 0 then [BonusEvent(db.referrals[j].referrer, Some(db.referrals[j].id), Subscription, cfg.subscriptionDays, now)] else [])
  {
    var db1 := ExtendSubscriber(db, i, planDays, now);
    var end := Extend(db.users[i].subscriptionEnd, now, planDays);
    match Owed(db, db.users[i])
    case None => Ok(Subscribed(db1, end, false, None))
    case Some(j) =>
      var ref := db.referrals[j];
      UserIndexSameIds(db.users, db1.users, ref.referrer);
      match UserIndex(db1.users, ref.referrer)
      case None => Err(ReferrerMissing)
      case Some(k) =>
        var db2 := MarkAwarded(db1, j, cfg.subscriptionDays, now);
        var db3 := AwardBonusDays(db2, k, cfg.subscriptionDays, Subscription, Some(ref.id), now);
        Ok(Subscribed(db3, db3.users[i].subscriptionEnd.value, true, Some(db1.users[k].id)))
  }

  /** Extending a subscription keeps the invariants. */
  lemma ExtendSubscriberValid(db: Db, i: nat, planDays: int, now: int)
    requires Valid(db) && i < |db.users|
    ensures Valid(ExtendSubscriber(db, i, planDays, now))
  {
    var r := ExtendSubscriber(db, i, planDays, now);
    SameKeys(db.users, r.users);
    SameIdsSameSums(db, r);
  }

  /** Marking an owed referral awarded and paying its referrer the
      subscription days keeps the invariants: the referral's count of
      subscription events goes from none to one exactly when days are
      paid. */
  lemma PaySubscriptionValid(db: Db, j: nat, k: nat, days: int, now: int)
    requires Valid(db) && j < |db.referrals| && k < |db.users| && !db.referrals[j].subscriptionAwarded
    ensures Valid(AwardBonusDays(MarkAwarded(db, j, days, now), k, days, Subscription, Some(db.referrals[j].id), now))
  {
    var db2 := MarkAwarded(db, j, days, now);
    var r := AwardBonusDays(db2, k, days, Subscription, Some(db.referrals[j].id), now);
    MarkAwardedSound(db, j, days, now);
    AwardKeepsBalances(db2, k, days, Subscription, Some(db.referrals[j].id), now);
    AwardKeepsKeys(db2, k, days, Subscription, Some(db.referrals[j].id), now);
    PaySubscriptionCounts(db, j, k, days, now);
  }

  /** The referral at `j` marked as having paid `days` of subscription bonus
      at `now`. */
  function MarkAwarded(db: Db, j: nat, days: int, now: int): (r: Db)
    requires j < |db.referrals|
    ensures r.users == db.users && r.events == db.events && |r.referrals| == |db.referrals|
    ensures forall m :: 0 <= m < |db.referrals| ==>
      r.referrals[m].id == db.referrals[m].id && r.referrals[m].referrer == db.referrals[m].referrer
      && r.referrals[m].referee == db.referrals[m].referee
    ensures forall m :: 0 <= m < |db.referrals| && m != j ==> r.referrals[m] == db.referrals[m]
    ensures r.referrals[j].subscriptionAwarded && r.referrals[j].subscriptionDays == days
  {
    var ref := db.referrals[j];
    db.(referrals := db.referrals[j := ref.(subscriptionAwarded := true, subscriptionDays := days, subscriptionAwardedAt := Some(now))])
  }

  lemma MarkAwardedSound(db: Db, j: nat, days: int, now: int)
    requires ReferralsSound(db) && j < |db.referrals|
    ensures ReferralsSound(MarkAwarded(db, j, days, now))
    ensures forall x :: ReferralIdTaken(db.referrals, x) ==> ReferralIdTaken(MarkAwarded(db, j, days, now).referrals, x)
  {
    var r := MarkAwarded(db, j, days, now);
    forall x | ReferralIdTaken(db.referrals, x) ensures ReferralIdTaken(r.referrals, x) {
      var m :| 0 <= m < |db.referrals| && db.referrals[m].id == x;
      assert r.referrals[m].id == x;
    }
  }

  lemma PaySubscriptionCounts(db: Db, j: nat, k: nat, days: int, now: int)
    requires Valid(db) && j < |db.referrals| && k < |db.users| && !db.referrals[j].subscriptionAwarded
    ensures SubscriptionPaidOnce(AwardBonusDays(MarkAwarded(db, j, days, now), k, days, Subscription, Some(db.referrals[j].id), now))
  {
    var rid := db.referrals[j].id;
    var db2 := MarkAwarded(db, j, days, now);
    var r := AwardBonusDays(db2, k, days, Subscription, Some(rid), now);
    MarkAwardedSound(db, j, days, now);
    forall m | 0 <= m < |r.referrals|
      ensures CountSubscription(r.events, r.referrals[m].id)
        == if r.referrals[m].subscriptionAwarded && r.referrals[m].subscriptionDays > 0 then 1 else 0
    {
      if m == j {
        if days > 0 {
          CountSubscriptionAppend(db.events, BonusEvent(db.users[k].id, Some(rid), Subscription, days, now), rid);
        }
      } else {
        assert db.referrals[m].id != rid by {
          if m < j {
            assert db.referrals[m].id != db.referrals[j].id;
          } else {
            assert db.referrals[j].id != db.referrals[m].id;
          }
        }
        AwardKeepsSubscriptionCounts(db2, k, days, Subscription, Some(rid), now, db.referrals[m].id);
      }
    }
    forall e | 0 <= e < |r.events| && r.events[e].kind == Subscription
      ensures r.events[e].referral.Some? && ReferralIdTaken(r.referrals, r.events[e].referral.value)
    {
      if e == |db.events| {
        assert r.referrals[j].id == rid;
      }
    }
  }

  /** With the invariants holding, a subscription never raises and keeps
      them. */
  lemma SubscriptionValid(db: Db, cfg: Settings, i: nat, planDays: int, now: int)
    requires Valid(db) && i < |db.users| && planDays > 0
    ensures ProcessSubscription(db, cfg, i, planDays, now).Ok?
    ensures Valid(ProcessSubscription(db, cfg, i, planDays, now).value.db)
  {
    var db1 := ExtendSubscriber(db, i, planDays, now);
    ExtendSubscriberValid(db, i, planDays, now);
    match Owed(db, db.users[i])
    case None =>
    case Some(j) =>
      assert UserIndex(db.users, db.referrals[j].referrer).Some?;
      var k := UserIndex(db1.users, db.referrals[j].referrer).value;
      PaySubscriptionValid(db1, j, k, cfg.subscriptionDays, now);
  }

  /** A subscription extends the subscriber's end by `planDays` from the
      later of `now` and the current end, and touches neither their balance
      nor their events. */
  lemma SubscriptionOnlyExtends(db: Db, cfg: Settings, i: nat, planDays: int, now: int)
    requires Valid(db) && i < |db.users| && planDays > 0
    ensures var r := ProcessSubscription(db, cfg, i, planDays, now);
      && r.Ok?
      && r.value.subscriptionEnd == Extend(db.users[i].subscriptionEnd, now, planDays)
      && r.value.db.users[i].subscriptionEnd == Some(r.value.subscriptionEnd)
      && r.value.db.users[i].balance == db.users[i].balance
      && SumDays(r.value.db.events, db.users[i].id) == SumDays(db.events, db.users[i].id)
  {
    SubscriptionValid(db, cfg, i, planDays, now);
    var db1 := ExtendSubscriber(db, i, planDays, now);
    match Owed(db, db.users[i])
    case None =>
    case Some(j) =>
      var k := UserIndex(db1.users, db.referrals[j].referrer).value;
      assert k != i by {
        assert db.referrals[j].referrer != db.referrals[j].referee;
      }
      var e := BonusEvent(db1.users[k].id, Some(db.referrals[j].id), Subscription, cfg.subscriptionDays, now);
      SumDaysAppend(db.events, e, db.users[i].id);
      assert db.users[k].id != db.users[i].id by {
        if k < i {
          assert db.users[k].id != db.users[i].id;
        } else {
          assert db.users[i].id != db.users[k].id;
        }
      }
  }

  /** The referrer's subscription bonus is paid at most once: right after a
      subscription, another one by the same user rewards nobody and adds no
      event. */
  lemma SubscriptionBonusOnce(db: Db, cfg: Settings, i: nat, planDays: int, now: int, planDays2: int, now2: int)
    requires Valid(db) && i < |db.users| && planDays > 0 && planDays2 > 0
    ensures var r := ProcessSubscription(db, cfg, i, planDays, now);
      && r.Ok? && i < |r.value.db.users|
      && var r2 := ProcessSubscription(r.value.db, cfg, i, planDays2, now2);
      && r2.Ok? && !r2.value.referrerAwarded && r2.value.referrer.None?
      && r2.value.db.events == r.value.db.events && r2.value.db.referrals == r.value.db.referrals
  {
    SubscriptionValid(db, cfg, i, planDays, now);
    NothingOwedAfter(db, cfg, i, planDays, now);
    var r := ProcessSubscription(db, cfg, i, planDays, now).value;
    var r2 := ProcessSubscription(r.db, cfg, i, planDays2, now2);
    assert r2.value.db == ExtendSubscriber(r.db, i, planDays2, now2);
  }

  /** After a subscription is processed, no bonus is owed for that
      subscriber any more. */
  lemma NothingOwedAfter(db: Db, cfg: Settings, i: nat, planDays: int, now: int)
    requires Valid(db) && i < |db.users| && planDays > 0
    requires ProcessSubscription(db, cfg, i, planDays, now).Ok?
    ensures var r := ProcessSubscription(db, cfg, i, planDays, now).value;
      i < |r.db.users| && Owed(r.db, r.db.users[i]).None?
  {
    var r := ProcessSubscription(db, cfg, i, planDays, now).value;
    var id := db.users[i].id;
    SubscribedUser(db, cfg, i, planDays, now);
    SubscriptionValid(db, cfg, i, planDays, now);
    var owed := Owed(db, db.users[i]);
    if owed.None? {
      assert r.db.referrals == db.referrals;
    } else {
      var j := owed.value;
      assert r.db.referrals[j].referee == id && r.db.referrals[j].subscriptionAwarded;
      var found := RefereeIndex(r.db.referrals, id);
      if found.Some? {
        RefereeUnique(r.db, found.value, j);
      }
    }
  }

  /** Processing a subscription keeps the subscriber's row in place. */
  lemma SubscribedUser(db: Db, cfg: Settings, i: nat, planDays: int, now: int)
    requires i < |db.users| && planDays > 0 && ProcessSubscription(db, cfg, i, planDays, now).Ok?
    ensures var r := ProcessSubscription(db, cfg, i, planDays, now).value;
      && |r.db.users| == |db.users|
      && r.db.users[i].id == db.users[i].id && r.db.users[i].referredBy == db.users[i].referredBy
  {
  }

  /** In sound referrals, the referral found for a referee is the only one. */
  lemma RefereeUnique(db: Db, m: nat, j: nat)
    requires ReferralsSound(db) && m < |db.referrals| && j < |db.referrals|
    requires db.referrals[m].referee == db.referrals[j].referee
    ensures m == j
  {
  }
}

=== FILE: portal_api.dfy ===
/** The portal's HTTP endpoints. Each request runs in one session that is
    committed when the handler returns and rolled back when it raises
    (`get_db`); a handler's result is therefore the new state on success and
    the old state on any error. */
module PortalApi {

  import opened Common
  import opened Portal

  /** One row of `/my-referrals`. */
  datatype ReferralInfo = ReferralInfo(
    referee: Uuid,
    email: string,
    registeredAt: int,
    registrationDays: int,
    subscriptionDays: int,
    subscriptionAwarded: bool)

  /** The response bodies of the four endpoints. */
  datatype Body =
    | NoBody
    | LinkBody(code: string)
    | RegisterBody(userId: Uuid, awardedDays: int, referrer: Option<Uuid>)
    | SubscribeBody(subscriber: Uuid, subscriptionEnd: int, referrerAwarded: bool, referrer: Option<Uuid>)
    | ReferralsBody(owner: Uuid, totalRegistrationDays: int, totalSubscriptionDays: int, referrals: seq<ReferralInfo>)

  datatype Response = Response(status: int, body: Body)

  const OK := 200
  const CREATED := 201
  const BAD_REQUEST := 400
  const NOT_FOUND := 404
  const UNPROCESSABLE := 422
  const SERVER_ERROR := 500

  /** The errors `register_user` raises as `ValueError`; anything else
      escapes the handler. */
  predicate IsValueError(e: Error)
  {
    e != IdTaken
  }

  /** `/generate-referral-link`: 404 for an unknown user, otherwise the
      user's code, created on first use. The link text built from the code
      is not modelled. */
  function GenerateLink(db: Db, userId: Uuid, drawn: string): (r: (Db, Response))
    requires FreshCode(db, drawn)
    ensures UserIndex(db.users, userId).None? ==> r == (db, Response(NOT_FOUND, NoBody))
    ensures UserIndex(db.users, userId).Some? ==>
      && r.1.status == OK && r.1.body.LinkBody? && |r.0.users| == |db.users|
      && r.0.users[UserIndex(db.users, userId).value].code == Some(r.1.body.code)
    ensures UserIndex(db.users, userId).Some? ==>
      var i := UserIndex(db.users, userId).value;
      && r.1.body.LinkBody?
      && r.0.referrals == db.referrals && r.0.events == db.events && |r.0.users| == |db.users|
      && r.0.users[i] == db.users[i].(code := Some(r.1.body.code))
      && (forall a :: 0 <= a < |db.users| && a != i ==> r.0.users[a] == db.users[a])
      && (HasCode(db.users[i].code) ==> r.0 == db && r.1.body.code == db.users[i].code.value)
      && (!HasCode(db.users[i].code) ==> r.1.body.code == drawn)
  {
    match UserIndex(db.users, userId)
    case None => (db, Response(NOT_FOUND, NoBody))
    case Some(i) =>
      var (code, db') := EnsureCode(db, i, drawn);
      (db', Response(OK, LinkBody(code)))
  }

  /** Asking for the link again returns the same code and writes nothing. */
  lemma GenerateLinkStable(db: Db, userId: Uuid, drawn: string, drawn2: string)
    requires FreshCode(db, drawn) && FreshCode(GenerateLink(db, userId, drawn).0, drawn2)
    ensures GenerateLink(GenerateLink(db, userId, drawn).0, userId, drawn2) == GenerateLink(db, userId, drawn)
  {
    match UserIndex(db.users, userId)
    case None =>
    case Some(i) =>
      var db1 := GenerateLink(db, userId, drawn).0;
      UserIndexSameIds(db.users, db1.users, userId);
      EnsureCodeIdempotent(db, i, drawn, drawn2);
  }

  /** `/register`: an address that fails the schema's `EmailStr` check is
      answered 422 before the handler runs (the email validator is not part
      of this model: its verdict is `emailValid`); otherwise 201 with the new
      id on success, 400 for a `ValueError` and 500 for anything else. No
      error answer writes anything. */
  function RegisterEndpoint(db: Db, cfg: Settings, emailValid: bool, email: string, name: string, passwordHash: string,
                            code: Option<string>, ip: string, newId: Uuid, referralId: Uuid, now: int): (r: (Db, Response))
    ensures r.1.status in {CREATED, BAD_REQUEST, UNPROCESSABLE, SERVER_ERROR}
    ensures r.1.status != CREATED ==> r == (db, r.1) && r.1.body == NoBody
    ensures r.1.status == UNPROCESSABLE <==> !emailValid
    ensures var reg := Register(db, cfg, email, name, passwordHash, code, ip, newId, referralId, now);
      && (r.1.status == CREATED <==> emailValid && reg.Ok?)
      && (r.1.status == BAD_REQUEST <==> emailValid && reg.Err? && IsValueError(reg.error))
      && (emailValid && reg.Ok? ==> r == (reg.value.db, Response(CREATED, RegisterBody(newId, reg.value.awardedDays, reg.value.referrer))))
  {
    if !emailValid then (db, Response(UNPROCESSABLE, NoBody))
    else
      match Register(db, cfg, email, name, passwordHash, code, ip, newId, referralId, now)
      case Ok(reg) => (reg.db, Response(CREATED, RegisterBody(newId, reg.awardedDays, reg.referrer)))
      case Err(e) => (db, Response(if IsValueError(e) then BAD_REQUEST else SERVER_ERROR, NoBody))
  }

  /** A registration the client can be blamed for (a malformed address, an
      existing email, an unknown code or the per-IP limit) is answered 400
      or 422 (500 only when the generated id collides) and leaves no user,
      referral or event behind. */
  lemma RejectedRegistrationWritesNothing(db: Db, cfg: Settings, emailValid: bool, email: string, name: string, passwordHash: string,
                                          code: Option<string>, ip: string, newId: Uuid, referralId: Uuid, now: int)
    requires
      || !emailValid
      || EmailIndex(db.users, email).Some?
      || (HasCode(code) && CodeIndex(db.users, code.value).None?)
      || (HasCode(code) && CodeIndex(db.users, code.value).Some?
          && CountFromIp(db.referrals, db.users[CodeIndex(db.users, code.value).value].id, ip) >= cfg.maxPerIp)
    ensures var r := RegisterEndpoint(db, cfg, emailValid, email, name, passwordHash, code, ip, newId, referralId, now);
      && r.0 == db
      && (r.1.status in {BAD_REQUEST, UNPROCESSABLE} || UserIndex(db.users, newId).Some?)
  {
  }

  /** `/subscribe`: a non-positive `plan_days` fails request validation
      (422) and an unknown user gets 404, both before any write; a referrer
      missing from the table makes the handler raise (500, rolled back). */
  function Subscribe(db: Db, cfg: Settings, userId: Uuid, planDays: int, now: int): (r: (Db, Response))
    ensures planDays <= 0 ==> r == (db, Response(UNPROCESSABLE, NoBody))
    ensures planDays > 0 && UserIndex(db.users, userId).None? ==> r == (db, Response(NOT_FOUND, NoBody))
    ensures r.1.status != OK ==> r.0 == db && r.1.body == NoBody
    ensures planDays > 0 && UserIndex(db.users, userId).Some? ==>
      var s := ProcessSubscription(db, cfg, UserIndex(db.users, userId).value, planDays, now);
      && (s.Err? ==> r == (db, Response(SERVER_ERROR, NoBody)))
      && (s.Ok? ==> r == (s.value.db, Response(OK, SubscribeBody(userId, s.value.subscriptionEnd, s.value.referrerAwarded, s.value.referrer))))
  {
    if planDays <= 0 then (db, Response(UNPROCESSABLE, NoBody))
    else
      match UserIndex(db.users, userId)
      case None => (db, Response(NOT_FOUND, NoBody))
      case Some(i) =>
        match ProcessSubscription(db, cfg, i, planDays, now)
        case Err(_) => (db, Response(SERVER_ERROR, NoBody))
        case Ok(s) => (s.db, Response(OK, SubscribeBody(userId, s.subscriptionEnd, s.referrerAwarded, s.referrer)))
  }

  /** On a consistent database `/subscribe` with a positive plan for a known
      user always succeeds. */
  lemma SubscribeSucceeds(db: Db, cfg: Settings, userId: Uuid, planDays: int, now: int)
    requires Valid(db) && planDays > 0 && UserIndex(db.users, userId).Some?
    ensures Subscribe(db, cfg, userId, planDays, now).1.status == OK
    ensures Valid(Subscribe(db, cfg, userId, planDays, now).0)
  {
    SubscriptionValid(db, cfg, UserIndex(db.users, userId).value, planDays, now);
  }

  // ---------------------------------------------------------------------
  // /my-referrals
  // ---------------------------------------------------------------------

  /** The loop over the user's referrals: a referral whose referee is
      missing is skipped. */
  function Infos(users: seq<User>, refs: seq<Referral>, owner: Uuid): (infos: seq<ReferralInfo>)
    ensures |infos| <= |refs|
  {
    if |refs| == 0 then []
    else
      var ref := refs[|refs| - 1];
      Infos(users, refs[..|refs| - 1], owner) +
        (if ref.referrer == owner && UserIndex(users, ref.referee).Some?
         then [ReferralInfo(ref.referee, users[UserIndex(users, ref.referee).value].email, ref.registeredAt,
                            ref.registrationDays, ref.subscriptionDays, ref.subscriptionAwarded)]
         else [])
  }

  function SumRegistration(infos: seq<ReferralInfo>): int
  {
    if |infos| == 0 then 0 else SumRegistration(infos[..|infos| - 1]) + infos[|infos| - 1].registrationDays
  }

  function SumSubscription(infos: seq<ReferralInfo>): int
  {
    if |infos| == 0 then 0 else SumSubscription(infos[..|infos| - 1]) + infos[|infos| - 1].subscriptionDays
  }

  /** `/my-referrals`: 404 for an unknown user, otherwise the user's
      referrals with the two totals accumulated over the same rows. Nothing
      is written. */
  function MyReferrals(db: Db, userId: Uuid): (r: Response)
    ensures UserIndex(db.users, userId).None? ==> r == Response(NOT_FOUND, NoBody)
    ensures UserIndex(db.users, userId).Some? ==>
      && r.status == OK && r.body.ReferralsBody? && r.body.owner == userId
      && r.body.referrals == Infos(db.users, db.referrals, userId)
      && r.body.totalRegistrationDays == SumRegistration(r.body.referrals)
      && r.body.totalSubscriptionDays == SumSubscription(r.body.referrals)
  {
    match UserIndex(db.users, userId)
    case None => Response(NOT_FOUND, NoBody)
    case Some(_) =>
      var infos := Infos(db.users, db.referrals, userId);
      Response(OK, ReferralsBody(userId, SumRegistration(infos), SumSubscription(infos), infos))
  }

  /** Reference sums straight over the referral table. */
  function CountOwned(refs: seq<Referral>, owner: Uuid): nat
  {
    if |refs| == 0 then 0
    else CountOwned(refs[..|refs| - 1], owner) + (if refs[|refs| - 1].referrer == owner then 1 else 0)
  }

  function OwnedRegistration(refs: seq<Referral>, owner: Uuid): int
  {
    if |refs| == 0 then 0
    else OwnedRegistration(refs[..|refs| - 1], owner) + (if refs[|refs| - 1].referrer == owner then refs[|refs| - 1].registrationDays else 0)
  }

  function OwnedSubscription(refs: seq<Referral>, owner: Uuid): int
  {
    if |refs| == 0 then 0
    else OwnedSubscription(refs[..|refs| - 1], owner) + (if refs[|refs| - 1].referrer == owner then refs[|refs| - 1].subscriptionDays else 0)
  }

  /** When every referee exists (as the foreign key promises), the list has
      one entry per referral of the user and the totals are the sums of
      their registration and subscription days. */
  lemma {:induction false} InfosComplete(users: seq<User>, refs: seq<Referral>, owner: Uuid)
    requires forall k :: 0 <= k < |refs| ==> UserIndex(users, refs[k].referee).Some?
    ensures |Infos(users, refs, owner)| == CountOwned(refs, owner)
    ensures SumRegistration(Infos(users, refs, owner)) == OwnedRegistration(refs, owner)
    ensures SumSubscription(Infos(users, refs, owner)) == OwnedSubscription(refs, owner)
    decreases |refs|
  {
    if |refs| > 0 {
      var front := refs[..|refs| - 1];
      InfosComplete(users, front, owner);
      var ref := refs[|refs| - 1];
      var tail := if ref.referrer == owner && UserIndex(users, ref.referee).Some?
                  then [ReferralInfo(ref.referee, users[UserIndex(users, ref.referee).value].email, ref.registeredAt,
                                     ref.registrationDays, ref.subscriptionDays, ref.subscriptionAwarded)]
                  else [];
      SumsAppend(Infos(users, front, owner), tail);
    }
  }

  lemma SumsAppend(a: seq<ReferralInfo>, t: seq<ReferralInfo>)
    requires |t| <= 1
    ensures SumRegistration(a + t) == SumRegistration(a) + SumRegistration(t)
    ensures SumSubscription(a + t) == SumSubscription(a) + SumSubscription(t)
  {
    if |t| == 1 {
      assert (a + t)[..|a + t| - 1] == a;
    } else {
      assert a + t == a;
    }
  }

  /** On a consistent database `/my-referrals` reports every referral the
      user made and totals matching the referral table. */
  lemma MyReferralsTotals(db: Db, userId: Uuid)
    requires Valid(db) && UserIndex(db.users, userId).Some?
    ensures |MyReferrals(db, userId).body.referrals| == CountOwned(db.referrals, userId)
    ensures MyReferrals(db, userId).body.totalRegistrationDays == OwnedRegistration(db.referrals, userId)
    ensures MyReferrals(db, userId).body.totalSubscriptionDays == OwnedSubscription(db.referrals, userId)
  {
    InfosComplete(db.users, db.referrals, userId);
  }
}

=== FILE: pyint.dfy ===
/** The parts of Python's string and integer built-ins that the referral
    codec relies on: `str.strip()`, `str.lower()` and `int(s, 36)`. */
module PyInt {

  import opened Common
  import opened Numerals

  /** The characters `str.isspace()` accepts, which are the ones `strip()`
      removes and `int()` ignores around a literal. */
  predicate IsSpace(c: char)
  {
    || c == ' '
    || '\t' <= c <= '\r'
    || '\U{1C}' <= c <= '\U{1F}'
    || c == '\U{85}' || c == '\U{A0}' || c == '\U{1680}'
    || '\U{2000}' <= c <= '\U{200A}'
    || c == '\U{2028}' || c == '\U{2029}' || c == '\U{202F}'
    || c == '\U{205F}' || c == '\U{3000}'
  }

  function TrimLeft(s: string): (r: string)
    ensures |r| <= |s| && r == s[|s| - |r|..]
    ensures forall i :: 0 <= i < |s| - |r| ==> IsSpace(s[i])
    ensures |r| > 0 ==> !IsSpace(r[0])
  {
    if |s| > 0 && IsSpace(s[0]) then TrimLeft(s[1..]) else s
  }

  function TrimRight(s: string): (r: string)
    ensures |r| <= |s| && r == s[..|r|]
    ensures forall i :: |r| <= i < |s| ==> IsSpace(s[i])
    ensures |r| > 0 ==> !IsSpace(r[|r| - 1])
  {
    if |s| > 0 && IsSpace(s[|s| - 1]) then TrimRight(s[..|s| - 1]) else s
  }

  /** `s.strip()`: the slice of `s` left after removing whitespace at both
      ends; it neither starts nor ends with whitespace, and everything cut
      off is whitespace. The slice starts where `TrimLeft` stops. */
  function Strip(s: string): (r: string)
    ensures |r| <= |s|
    ensures |r| > 0 ==> !IsSpace(r[0]) && !IsSpace(r[|r| - 1])
    ensures forall c :: c in r ==> c in s
    ensures var a := |s| - |TrimLeft(s)|;
      && a + |r| <= |s|
      && r == s[a..a + |r|]
      && (forall i :: 0 <= i < a ==> IsSpace(s[i]))
      && (forall i :: a + |r| <= i < |s| ==> IsSpace(s[i]))
  {
    TrimRight(TrimLeft(s))
  }

  /** A string with no whitespace at either end is its own `strip()`. */
  lemma StripNoOp(s: string)
    requires |s| > 0 ==> !IsSpace(s[0]) && !IsSpace(s[|s| - 1])
    ensures Strip(s) == s
  {
  }

  /** `c.lower()` for ASCII letters; every other character is kept. */
  function LowerChar(c: char): char
  {
    if 'A' <= c <= 'Z' then (c as int - 'A' as int + 'a' as int) as char else c
  }

  /** `s.lower()`, restricted to the ASCII case mapping. */
  function Lower(s: string): (r: string)
    ensures |r| == |s|
    ensures forall i :: 0 <= i < |s| ==> r[i] == LowerChar(s[i])
  {
    seq(|s|, i requires 0 <= i < |s| => LowerChar(s[i]))
  }

  predicate IsDigit(c: char)
  {
    CharValue(c).Some?
  }

  /** The shape of an unsigned literal `int(s, 36)` accepts: digits, where
      single underscores may separate two digits (PEP 515). */
  predicate WellFormed(s: string)
  {
    && |s| > 0
    && IsDigit(s[0])
    && IsDigit(s[|s| - 1])
    && (forall i :: 0 <= i < |s| ==> IsDigit(s[i]) || s[i] == '_')
    && (forall i :: 0 <= i < |s| - 1 ==> s[i] == '_' ==> s[i + 1] != '_')
  }

  /** The digit values of `s`, left to right, skipping underscores. */
  function DigitValues(s: string): seq<nat>
  {
    if |s| == 0 then []
    else
      var last := CharValue(s[|s| - 1]);
      DigitValues(s[..|s| - 1]) + (if last.Some? then [last.value] else [])
  }

  /** The literal a sign may prefix in `int(s, 36)`. */
  predicate SignedLiteral(t: string)
  {
    WellFormed(t) || (|t| > 0 && (t[0] == '+' || t[0] == '-') && WellFormed(t[1..]))
  }

  /** The value a signed literal denotes. */
  function SignedValue(t: string): int
    requires SignedLiteral(t)
  {
    if WellFormed(t) then ValueOf(DigitValues(t), 36)
    else if t[0] == '-' then -(ValueOf(DigitValues(t[1..]), 36) as int)
    else ValueOf(DigitValues(t[1..]), 36)
  }

  /** What is left of a literal of two or more characters once its last
      character, and one underscore before it, are removed. */
  function Front(s: string): (f: string)
    requires |s| >= 2
    ensures |f| < |s| && f == s[..|f|]
  {
    var init := s[..|s| - 1];
    if init[|init| - 1] == '_' then init[..|init| - 1] else init
  }

  /** Scans an unsigned base-36 literal from its last character: a digit,
      optionally preceded by one underscore that must itself follow a digit. */
  function Unsigned(s: string): Option<nat>
    decreases |s|
  {
    if |s| == 0 then None
    else
      match CharValue(s[|s| - 1])
      case None => None
      case Some(d) =>
        if |s| == 1 then Some(d)
        else
          match Unsigned(Front(s))
          case None => None
          case Some(v) => Some(v * 36 + d)
  }

  lemma WellFormedFront(s: string)
    requires |s| >= 2 && IsDigit(s[|s| - 1]) && WellFormed(s)
    ensures WellFormed(Front(s))
  {
    if s[|s| - 2] == '_' {
      assert s[|s| - 3] != '_';
    }
  }

  lemma WellFormedFromFront(s: string)
    requires |s| >= 2 && IsDigit(s[|s| - 1]) && WellFormed(Front(s))
    ensures WellFormed(s)
  {
    var f := Front(s);
    assert s[0] == f[0];
    forall i | 0 <= i < |s|
      ensures IsDigit(s[i]) || s[i] == '_'
    {
      if i < |f| {
        assert s[i] == f[i];
      }
    }
    forall i | 0 <= i < |s| - 1 && s[i] == '_'
      ensures s[i + 1] != '_'
    {
      if i + 1 < |f| {
        assert s[i] == f[i] && s[i + 1] == f[i + 1];
      }
    }
  }

  lemma DigitValuesFront(s: string)
    requires |s| >= 2 && IsDigit(s[|s| - 1])
    ensures DigitValues(s) == DigitValues(Front(s)) + [CharValue(s[|s| - 1]).value]
  {
    var init := s[..|s| - 1];
    assert DigitValues(s) == DigitValues(init) + [CharValue(s[|s| - 1]).value];
    if init[|init| - 1] == '_' {
      assert init[..|init| - 1] == Front(s);
      assert DigitValues(init) == DigitValues(Front(s));
    }
  }

  /** The scanner accepts exactly the well-formed literals and returns the
      number their digits denote. */
  lemma {:induction false} UnsignedMatchesGrammar(s: string)
    ensures Unsigned(s) == if WellFormed(s) then Some(ValueOf(DigitValues(s), 36)) else None
    decreases |s|
  {
    if |s| >= 2 && IsDigit(s[|s| - 1]) {
      UnsignedMatchesGrammar(Front(s));
      DigitValuesFront(s);
      if WellFormed(s) {
        WellFormedFront(s);
      }
      if WellFormed(Front(s)) {
        WellFormedFromFront(s);
      }
    } else if |s| == 1 && IsDigit(s[0]) {
      assert DigitValues(s) == DigitValues(s[..0]) + [CharValue(s[0]).value];
    }
  }

  /** `sys.get_int_max_str_digits()` at its default: for a base that is not a
      power of two, `int(s, base)` raises `ValueError` once the literal has
      more digits than this (CPython 3.11 and later). */
  const MaxStrDigits: nat := 4300

  /** The part of a literal after an optional sign. */
  function Magnitude(t: string): (m: string)
    ensures SignedLiteral(t) ==> WellFormed(m)
  {
    if |t| > 0 && (t[0] == '+' || t[0] == '-') then t[1..] else t
  }

  /** The number of digits in a literal, not counting its sign or
      underscores: the count the digit cap is checked against. */
  function DigitCount(t: string): nat
  {
    |DigitValues(Magnitude(t))|
  }

  /** Python's `int(s, 36)`: `None` where Python raises `ValueError`. */
  function Int36(s: string): Option<int>
  {
    var t := Strip(s);
    var m := Magnitude(t);
    match Unsigned(m)
    case None => None
    case Some(v) =>
      if |DigitValues(m)| > MaxStrDigits then None
      else if t[0] == '-' then Some(-(v as int))
      else Some(v as int)
  }

  /** `int(s, 36)` succeeds exactly on an optionally signed, well-formed
      literal surrounded by whitespace with at most `MaxStrDigits` digits,
      and returns the value it denotes. */
  lemma Int36Spec(s: string)
    ensures Int36(s).Some? <==> SignedLiteral(Strip(s)) && DigitCount(Strip(s)) <= MaxStrDigits
    ensures Int36(s).Some? ==> Int36(s).value == SignedValue(Strip(s))
  {
    var t := Strip(s);
    UnsignedMatchesGrammar(Magnitude(t));
    MagnitudeOfSigned(t);
  }

  /** A signed literal is a sign, if any, before a well-formed magnitude,
      and its value is the magnitude's, negated after a minus. */
  lemma MagnitudeOfSigned(t: string)
    ensures SignedLiteral(t) <==> WellFormed(Magnitude(t))
    ensures SignedLiteral(t) ==>
      SignedValue(t) == if t[0] == '-' then -(ValueOf(DigitValues(Magnitude(t)), 36) as int)
                        else ValueOf(DigitValues(Magnitude(t)), 36)
  {
    if |t| > 0 && (t[0] == '+' || t[0] == '-') {
      assert !IsDigit(t[0]);
    }
  }

  /** A literal that only digits make up has one digit per character. */
  lemma {:induction false} DigitValuesLength(s: string)
    requires forall i :: 0 <= i < |s| ==> IsDigit(s[i])
    ensures |DigitValues(s)| == |s|
    decreases |s|
  {
    if |s| > 0 {
      DigitValuesLength(s[..|s| - 1]);
    }
  }
}

=== FILE: refcodec.dfy ===
/** The chat bot's referral codes: `make_ref_code` writes `tg_id ^ REF_SALT`
    in lowercase base 36, `parse_ref_code` undoes it and answers `None` for
    anything `int(s, 36)` rejects. */
module RefCodec {

  import opened Common
  import opened Numerals
  import opened PyInt
  import PyXor

  /** The salt used when the environment does not set `REF_SALT`. */
  const DefaultSalt: int := 8349271

  /** Why `_to_base36` raises. */
  datatype CodecError = NegativeValue

  /** A code as `_to_base36` writes it: lowercase base-36 digits with no
      leading zero, except the single digit `0`. */
  predicate IsCanonicalCode(c: string)
  {
    && |c| > 0
    && (forall i :: 0 <= i < |c| ==> IsLowerDigit(c[i]))
    && (c[0] == '0' ==> c == "0")
  }

  /** `_to_base36(n)`: raises for a negative number. */
  function ToBase36(n: int): (r: Result<string, CodecError>)
    ensures r.Err? <==> n < 0
    ensures r.Ok? ==> IsCanonicalCode(r.value)
  {
    if n < 0 then Err(NegativeValue) else Ok(ToBase(n, 36))
  }

  /** `_from_base36(s)`: `int(s.lower(), 36)`, with `None` for the
      `ValueError` it raises. */
  function FromBase36(s: string): Option<int>
  {
    Int36(Lower(s))
  }

  /** `make_ref_code(tg_id)`. It raises exactly when `tg_id ^ salt` is
      negative, that is when the id and the salt differ in sign. */
  function MakeRefCode(tgId: int, salt: int): (r: Result<string, CodecError>)
    ensures r.Ok? <==> (tgId >= 0 <==> salt >= 0)
    ensures r.Ok? ==> IsCanonicalCode(r.value)
  {
    ToBase36(PyXor.Xor(tgId, salt))
  }

  /** `parse_ref_code(code)`: strip, lowercase, read in base 36, XOR with the
      salt; any failure gives `None`. */
  function ParseRefCode(code: string, salt: int): Option<int>
  {
    match FromBase36(Lower(Strip(code)))
    case None => None
    case Some(v) => Some(PyXor.Xor(v, salt))
  }

  /** Reading back the spelled digits gives the digits. */
  lemma {:induction false} DigitValuesOfSpell(ds: seq<nat>)
    requires forall i :: 0 <= i < |ds| ==> ds[i] < 36
    ensures DigitValues(Spell(ds)) == ds
    decreases |ds|
  {
    if |ds| > 0 {
      var front := ds[..|ds| - 1];
      var s := Spell(ds);
      assert s[..|s| - 1] == Spell(front);
      DigitValuesOfSpell(front);
    }
  }

  /** A canonical code is a well-formed literal that is already stripped
      and lowercase, so every step of the decoder leaves it alone. */
  lemma CanonicalCodeIsLiteral(c: string)
    requires IsCanonicalCode(c)
    ensures Lower(c) == c
    ensures Strip(c) == c
    ensures WellFormed(c)
  {
    StripNoOp(c);
  }

  /** Every character of a canonical code is a digit, so its digit count is
      its length. */
  lemma CanonicalDigitCount(c: string)
    requires IsCanonicalCode(c)
    ensures Magnitude(c) == c
    ensures DigitCount(c) == |c|
  {
    assert forall i :: 0 <= i < |c| ==> IsDigit(c[i]);
    DigitValuesLength(c);
  }

  /** Decoding inverts encoding: for every id whose sign matches the salt's
      (every id >= 0 with the default salt) and whose code is within
      Python's digit cap, the code parses back to the id. */
  lemma RoundTrip(tgId: int, salt: int)
    requires tgId >= 0 <==> salt >= 0
    requires |MakeRefCode(tgId, salt).value| <= MaxStrDigits
    ensures MakeRefCode(tgId, salt).Ok?
    ensures ParseRefCode(MakeRefCode(tgId, salt).value, salt) == Some(tgId)
  {
    var x := PyXor.Xor(tgId, salt);
    var c := MakeRefCode(tgId, salt).value;
    CanonicalCodeIsLiteral(c);
    assert Lower(Strip(c)) == c;
    CanonicalDigitCount(c);
    Int36Spec(c);
    UnsignedMatchesGrammar(c);
    if x == 0 {
      assert c == "0";
      assert DigitValues(c) == DigitValues(c[..0]) + [0];
    } else {
      DigitValuesOfSpell(DigitsOf(x, 36));
      ValueOfDigitsOf(x, 36);
    }
    assert FromBase36(c) == Some(x);
    PyXor.XorSelfInverse(tgId, salt);
  }

  /** Lowercasing neither adds nor removes whitespace, and a second pass
      changes nothing. */
  lemma LowerKeepsStripped(t: string)
    requires |t| > 0 ==> !IsSpace(t[0]) && !IsSpace(t[|t| - 1])
    ensures Lower(Lower(t)) == Lower(t)
    ensures Strip(Lower(Lower(t))) == Lower(t)
  {
    var l := Lower(t);
    assert Lower(l) == l;
    StripNoOp(l);
  }

  /** `parse_ref_code` answers `None` exactly when the stripped, lowercased
      code is not an optionally signed base-36 literal of at most
      `MaxStrDigits` digits; otherwise it answers the literal's value XOR the
      salt. */
  lemma ParseRefCodeSpec(code: string, salt: int)
    ensures ParseRefCode(code, salt).None? <==>
      !(SignedLiteral(Lower(Strip(code))) && DigitCount(Lower(Strip(code))) <= MaxStrDigits)
    ensures ParseRefCode(code, salt).Some? ==>
      ParseRefCode(code, salt).value == PyXor.Xor(SignedValue(Lower(Strip(code))), salt)
  {
    var t := Strip(code);
    LowerKeepsStripped(t);
    Int36Spec(Lower(Lower(t)));
  }

  /** The other side of the digit cap: a code longer than `MaxStrDigits`
      does not parse back, because `int(s, 36)` refuses it. */
  lemma RoundTripBeyondCap(tgId: int, salt: int)
    requires tgId >= 0 <==> salt >= 0
    requires |MakeRefCode(tgId, salt).value| > MaxStrDigits
    ensures ParseRefCode(MakeRefCode(tgId, salt).value, salt).None?
  {
    var c := MakeRefCode(tgId, salt).value;
    CanonicalCodeIsLiteral(c);
    assert Lower(Strip(c)) == c;
    CanonicalDigitCount(c);
    Int36Spec(c);
  }
}

=== FILE: scales.dfy ===
/** PHQ-9 / GAD-7 progress: each answer is appended to the user's list for
    that scale; the answer to the last question stores the sum and clears
    the list. */
module Scales {

  datatype Scale = Phq | Gad

  /** `total_q`: the number of questions of the scale. */
  function Questions(s: Scale): (n: nat)
    ensures n == 9 || n == 7
  {
    if s == Phq then 9 else 7
  }

  /** A stored `ScaleResult`: the total and the answers it sums. */
  datatype Result = Result(user: int, scale: Scale, score: int, answers: seq<int>)

  /** `_scale_progress` (a missing entry stands for the empty list that
      `setdefault` creates) and the stored results. */
  datatype State = State(progress: map<(int, Scale), seq<int>>, results: seq<Result>)

  function Progress(st: State, user: int, s: Scale): seq<int>
  {
    if (user, s) in st.progress then st.progress[(user, s)] else []
  }

  function Sum(xs: seq<int>): int
  {
    if |xs| == 0 then 0 else Sum(xs[..|xs| - 1]) + xs[|xs| - 1]
  }

  /** `_store_and_next(scale, idx, score)`. */
  function StoreAndNext(st: State, user: int, s: Scale, idx: int, score: int): (r: State)
    ensures var answers := Progress(st, user, s) + [score];
      if idx + 1 < Questions(s) then
        && Progress(r, user, s) == answers
        && r.results == st.results
      else
        && Progress(r, user, s) == []
        && r.results == st.results + [Result(user, s, Sum(answers), answers)]
    ensures forall k :: k != (user, s) ==> (k in r.progress <==> k in st.progress) && (k in st.progress ==> r.progress[k] == st.progress[k])
  {
    var answers := Progress(st, user, s) + [score];
    if idx + 1 < Questions(s) then State(st.progress[(user, s) := answers], st.results)
    else State(st.progress[(user, s) := []], st.results + [Result(user, s, Sum(answers), answers)])
  }

  /** Answering questions `start`, `start + 1`, ... with the given scores. */
  function Answer(st: State, user: int, s: Scale, start: int, scores: seq<int>): State
    decreases |scores|
  {
    if |scores| == 0 then st
    else
      var prev := Answer(st, user, s, start, scores[..|scores| - 1]);
      StoreAndNext(prev, user, s, start + |scores| - 1, scores[|scores| - 1])
  }

  /** Part-way through a scale begun with no progress, the list holds
      exactly the answers so far and nothing has been stored. */
  lemma {:induction false} PartialRun(st: State, user: int, s: Scale, scores: seq<int>)
    requires Progress(st, user, s) == []
    requires |scores| < Questions(s)
    ensures var r := Answer(st, user, s, 0, scores);
      Progress(r, user, s) == scores && r.results == st.results
    decreases |scores|
  {
    if |scores| > 0 {
      PartialRun(st, user, s, scores[..|scores| - 1]);
      assert scores[..|scores| - 1] + [scores[|scores| - 1]] == scores;
    }
  }

  /** A full run of a scale begun with no progress stores exactly one
      result, whose score is the sum of the answers, and leaves the list
      empty for the next run. */
  lemma FullRun(st: State, user: int, s: Scale, scores: seq<int>)
    requires Progress(st, user, s) == []
    requires |scores| == Questions(s)
    ensures var r := Answer(st, user, s, 0, scores);
      && Progress(r, user, s) == []
      && r.results == st.results + [Result(user, s, Sum(scores), scores)]
  {
    var front := scores[..|scores| - 1];
    PartialRun(st, user, s, front);
    assert front + [scores[|scores| - 1]] == scores;
  }
}

=== FILE: sorting.dfy ===
/** `ORDER BY major DESC, minor DESC` over a list of rows: an insertion sort
    on sequences, with a key function giving each row its sort stamp. */
module Sorting {

  /** A sort key compared lexicographically. */
  datatype Stamp = Stamp(major: int, minor: int)

  /** `a` sorts no later than `b` in descending order. */
  predicate AtLeast(a: Stamp, b: Stamp)
  {
    a.major > b.major || (a.major == b.major && a.minor >= b.minor)
  }

  predicate SortedDesc<T>(s: seq<T>, key: T -> Stamp)
  {
    forall i, j :: 0 <= i < j < |s| ==> AtLeast(key(s[i]), key(s[j]))
  }

  /** Insert `x` into a descending sequence, after every element that sorts
      no later than it. */
  function Insert<T>(x: T, s: seq<T>, key: T -> Stamp): (r: seq<T>)
    requires SortedDesc(s, key)
    ensures SortedDesc(r, key)
    ensures multiset(r) == multiset(s) + multiset{x}
    ensures |r| == |s| + 1
    decreases |s|
  {
    if |s| == 0 then [x]
    else if !AtLeast(key(s[0]), key(x)) then
      SortedCons(x, s, key);
      [x] + s
    else
      var rest := Insert(x, s[1..], key);
      assert s == [s[0]] + s[1..];
      HeadDominates(s[0], x, s[1..], rest, key);
      SortedCons(s[0], rest, key);
      [s[0]] + rest
  }

  /** Putting a row that sorts no later than every element in front keeps a
      sequence descending. */
  lemma SortedCons<T>(y: T, t: seq<T>, key: T -> Stamp)
    requires SortedDesc(t, key)
    requires (forall k :: 0 <= k < |t| ==> AtLeast(key(y), key(t[k]))) || (|t| > 0 && !AtLeast(key(t[0]), key(y)))
    ensures SortedDesc([y] + t, key)
  {
    var r := [y] + t;
    forall i, j | 0 <= i < j < |r| ensures AtLeast(key(r[i]), key(r[j])) {
      if i == 0 {
        assert r[j] == t[j - 1];
        if j > 1 && !(forall k :: 0 <= k < |t| ==> AtLeast(key(y), key(t[k]))) {
          assert AtLeast(key(t[0]), key(t[j - 1]));
        }
      } else {
        assert r[i] == t[i - 1] && r[j] == t[j - 1];
      }
    }
  }

  /** A head that sorts no later than the rest and than `x` sorts no later
      than anything in their merge. */
  lemma HeadDominates<T>(h: T, x: T, t: seq<T>, rest: seq<T>, key: T -> Stamp)
    requires SortedDesc([h] + t, key) && AtLeast(key(h), key(x))
    requires multiset(rest) == multiset(t) + multiset{x}
    ensures forall k :: 0 <= k < |rest| ==> AtLeast(key(h), key(rest[k]))
  {
    forall k | 0 <= k < |rest| ensures AtLeast(key(h), key(rest[k])) {
      assert rest[k] in multiset(rest);
      if rest[k] != x {
        assert rest[k] in multiset(t);
        var m :| 0 <= m < |t| && t[m] == rest[k];
        var ht := [h] + t;
        assert ht[0] == h && ht[m + 1] == t[m];
        assert AtLeast(key(ht[0]), key(ht[m + 1]));
      }
    }
  }

  /** The rows ordered newest first; ties keep their relative order. */
  function SortDesc<T>(s: seq<T>, key: T -> Stamp): (r: seq<T>)
    ensures SortedDesc(r, key)
    ensures multiset(r) == multiset(s)
    ensures |r| == |s|
    decreases |s|
  {
    if |s| == 0 then []
    else
      assert s == s[..|s| - 1] + [s[|s| - 1]];
      Insert(s[|s| - 1], SortDesc(s[..|s| - 1], key), key)
  }

  /** The head of a descending sequence sorts no later than any element. */
  lemma HeadIsMax<T>(a: seq<T>, y: T, key: T -> Stamp)
    requires SortedDesc(a, key) && y in a
    ensures AtLeast(key(a[0]), key(y))
  {
    var j :| 0 <= j < |a| && a[j] == y;
    if j > 0 {
      assert AtLeast(key(a[0]), key(a[j]));
    }
  }

  /** A descending sequence with pairwise distinct stamps is determined by
      its contents: any two such orderings of the same rows coincide. */
  lemma {:induction false} SortedUnique<T>(a: seq<T>, b: seq<T>, key: T -> Stamp)
    requires SortedDesc(a, key) && SortedDesc(b, key) && multiset(a) == multiset(b)
    requires forall i, j :: 0 <= i < j < |a| ==> key(a[i]) != key(a[j])
    ensures a == b
    decreases |a|
  {
    assert |a| == |multiset(a)| == |multiset(b)| == |b|;
    if |a| > 0 {
      SameHead(a, b, key);
      TailMultiset(a, b);
      SortedTail(a, key);
      SortedTail(b, key);
      assert forall i, j :: 0 <= i < j < |a[1..]| ==> key(a[1..][i]) != key(a[1..][j]) by {
        forall i, j | 0 <= i < j < |a[1..]| ensures key(a[1..][i]) != key(a[1..][j]) {
          assert a[1..][i] == a[i + 1] && a[1..][j] == a[j + 1];
        }
      }
      SortedUnique(a[1..], b[1..], key);
      assert a == [a[0]] + a[1..] && b == [b[0]] + b[1..];
    }
  }

  /** Two descending orderings of the same rows with distinct stamps start
      with the same row. */
  lemma SameHead<T>(a: seq<T>, b: seq<T>, key: T -> Stamp)
    requires SortedDesc(a, key) && SortedDesc(b, key) && multiset(a) == multiset(b) && |a| > 0 && |b| > 0
    requires forall i, j :: 0 <= i < j < |a| ==> key(a[i]) != key(a[j])
    ensures a[0] == b[0]
  {
    assert a[0] in multiset(b) && b[0] in multiset(a);
    HeadIsMax(a, b[0], key);
    HeadIsMax(b, a[0], key);
    var j :| 0 <= j < |a| && a[j] == b[0];
    assert key(a[j]) == key(a[0]);
  }

  lemma TailMultiset<T>(a: seq<T>, b: seq<T>)
    requires multiset(a) == multiset(b) && |a| > 0 && |b| > 0 && a[0] == b[0]
    ensures multiset(a[1..]) == multiset(b[1..])
  {
    assert a == [a[0]] + a[1..] && b == [b[0]] + b[1..];
    assert multiset(a[1..]) == multiset(a) - multiset{a[0]};
    assert multiset(b[1..]) == multiset(b) - multiset{b[0]};
  }

  lemma SortedTail<T>(a: seq<T>, key: T -> Stamp)
    requires SortedDesc(a, key) && |a| > 0
    ensures SortedDesc(a[1..], key)
  {
    forall i, j | 0 <= i < j < |a| - 1 ensures AtLeast(key(a[1..][i]), key(a[1..][j])) {
      assert a[1..][i] == a[i + 1] && a[1..][j] == a[j + 1];
    }
  }

  /** `f` tells the elements of `s` apart, position by position. */
  predicate Injective<T>(s: seq<T>, f: T -> int)
  {
    forall i, j :: 0 <= i < j < |s| ==> f(s[i]) != f(s[j])
  }

  /** Reordering keeps elements told apart by `f` told apart. */
  lemma PermutationInjective<T>(a: seq<T>, b: seq<T>, f: T -> int)
    requires multiset(a) == multiset(b) && Injective(a, f)
    ensures Injective(b, f)
  {
    forall i, j | 0 <= i < j < |b| ensures f(b[i]) != f(b[j]) {
      assert b[i] in multiset(a) && b[j] in multiset(a);
      var p :| 0 <= p < |a| && a[p] == b[i];
      var q :| 0 <= q < |a| && a[q] == b[j];
      if p == q {
        CountOne(a, p, f);
        CountTwo(b, i, j);
        assert false;
      } else if p < q {
        assert f(a[p]) != f(a[q]);
      } else {
        assert f(a[q]) != f(a[p]);
      }
    }
  }

  /** In a sequence told apart by `f`, every element occurs once. */
  lemma {:induction false} CountOne<T>(a: seq<T>, p: nat, f: T -> int)
    requires Injective(a, f) && p < |a|
    ensures multiset(a)[a[p]] == 1
    decreases |a|
  {
    var front := a[..|a| - 1];
    var last := a[|a| - 1];
    assert a == front + [last];
    assert Injective(front, f);
    if p < |a| - 1 {
      CountOne(front, p, f);
      assert front[p] == a[p];
      assert f(a[p]) != f(last);
    } else {
      assert last !in front;
    }
  }

  /** An element at two positions occurs at least twice. */
  lemma CountTwo<T>(b: seq<T>, i: nat, j: nat)
    requires i < j < |b| && b[i] == b[j]
    ensures multiset(b)[b[i]] >= 2
  {
    assert b == b[..j] + [b[j]] + b[j + 1..];
    assert b[..j][i] == b[i];
    assert multiset(b[..j])[b[i]] >= 1;
  }

  /** Sorting keeps elements told apart by `f` told apart. */
  lemma SortInjective<T>(s: seq<T>, key: T -> Stamp, f: T -> int)
    requires Injective(s, f)
    ensures Injective(SortDesc(s, key), f)
  {
    PermutationInjective(s, SortDesc(s, key), f);
  }
}

=== FILE: xor.dfy ===
/** Python's `^` on arbitrary-precision integers.

    Python treats an `int` as an infinite two's-complement bit string, so
    `a ^ b` is defined for negative operands too. The model builds the
    operator from a bitwise XOR on natural numbers and the identity
    `~x == -1 - x`, which turns every negative operand into a natural one. */
module PyXor {

  /** Bitwise exclusive or of two natural numbers, lowest bit first. */
  function NatXor(a: nat, b: nat): (r: nat)
    decreases a + b
  {
    if a == 0 && b == 0 then 0
    else 2 * NatXor(a / 2, b / 2) + (if a % 2 == b % 2 then 0 else 1)
  }

  /** XOR with a fixed mask undoes itself: `(a ^ b) ^ b == a`. */
  lemma {:induction false} NatXorSelfInverse(a: nat, b: nat)
    ensures NatXor(NatXor(a, b), b) == a
    decreases a + b
  {
    var x := NatXor(a, b);
    if a == 0 && b == 0 {
    } else {
      NatXorSelfInverse(a / 2, b / 2);
      var h := NatXor(a / 2, b / 2);
      assert x == 2 * h + (if a % 2 == b % 2 then 0 else 1);
      assert x / 2 == h && x % 2 == (if a % 2 == b % 2 then 0 else 1);
      assert NatXor(x, b) == 2 * NatXor(h, b / 2) + (if x % 2 == b % 2 then 0 else 1);
    }
  }

  /** Python's `a ^ b` on (possibly negative) integers. The result is
      negative exactly when one operand is negative. */
  function Xor(a: int, b: int): (r: int)
    ensures r >= 0 <==> (a >= 0 <==> b >= 0)
  {
    if a >= 0 && b >= 0 then NatXor(a, b)
    else if a < 0 && b >= 0 then -1 - NatXor(-1 - a, b)
    else if a >= 0 then -1 - NatXor(a, -1 - b)
    else NatXor(-1 - a, -1 - b)
  }

  /** XOR with the salt is an involution on all integers, so decoding with
      the same salt recovers the encoded identifier. */
  lemma XorSelfInverse(a: int, b: int)
    ensures Xor(Xor(a, b), b) == a
  {
    if a >= 0 && b >= 0 {
      NatXorSelfInverse(a, b);
    } else if a < 0 && b >= 0 {
      NatXorSelfInverse(-1 - a, b);
    } else if a >= 0 {
      NatXorSelfInverse(a, -1 - b);
    } else {
      NatXorSelfInverse(-1 - a, -1 - b);
    }
  }
}
